=== FILE: README.md ===
# First Capital Services — listings, favourites and account forms

A Dafny model of the core of a real-estate web application. The application
shows MLS listings fetched from the CRMLS API through two serverless proxy
handlers (a token endpoint and a listings endpoint). A client-side service
caches the access token and reads listings and single properties. A listings
store keeps the fetched pages, paging state and search parameters. The
property grid formats what the store holds and refetches when its data is
stale. Users can sort the grid, keep favourites, toggle a map, and fill in
three forms: create-account, sign-in and a five-question "one last step"
form.

Everything is modelled as pure functions over immutable datatypes:

- Each store action is a transition on the store's state.
- An asynchronous action is split into a *start* transition and a *completion*
  transition. The start transition says whether a request is made and with
  what. The completion transition takes the awaited outcome as a parameter.
- Every upstream call (`fetch`, JSON parsing, the auth provider) is a
  parameter describing what it gave. It either responded with a status, a
  status text, a body text and that body's parse, or it threw.
- The clock is a `now` parameter.
- JavaScript truthiness, `||` defaults, object spread, `parseInt`,
  `toLowerCase`, `includes` and `error instanceof Error ? error.message : …`
  are written out in `Js` and `Strings`.

Modules, each following one source file:

- `Validation`: `src/lib/utils/validation.ts`
- `PropertySort`: `src/lib/hooks/usePropertySort.ts`
- `Crmls`: the record types of `src/lib/services/crmls.ts` and `src/types/crmls.ts`, and object spread over search parameters
- `CrmlsService`: `src/lib/services/crmls.ts`
- `ListingsStore`: `src/lib/store/listings.ts`
- `FavoritesStore`: `src/lib/store/favorites.ts`
- `MapStore`: `src/lib/store/map.ts`
- `PropertyGrid`: `src/components/PropertyGrid.tsx`
- `Http`: what the two proxy handlers share (status tests, exception replies, credential checks)
- `TokenHandler`: `api/crmls/token.ts`
- `ListingsHandler`: `api/crmls/listings.ts`
- `CreateAccount`: `src/components/CreateAccountModal.tsx`
- `SignIn`: `src/components/SignInModal.tsx`
- `OneLastStep`: `src/components/OneLastStepForm.tsx`
- `EndToEnd`: connects the listings handler's reply to the service's property lookup and the store

The form handlers are functions of the state of the render they belong to.
A handler that marks a field touched and then validates reads the touched
marks of that render, not its own update. This is how React state updates
behave, and the model keeps it.

## Model

| member | source | states |
|---|---|---|
| Validation.IsValidEmailMatchesRegex | src/lib/utils/validation.ts:1-4 | the character-level email check accepts a string exactly when the pattern `^[^\s@]+@[^\s@]+\.[^\s@]+$` matches it, i.e. some split into non-empty local part, `@`, non-empty domain, `.`, non-empty suffix with no white space or second `@` |
| Validation.RequiredEmailMatchesRegex | src/lib/utils/validation.ts:1-4 | a required email field (non-blank and matching) is the same as the pattern alone: a blank string never matches |
| Validation.FormatPhoneNumber | src/lib/utils/validation.ts:13-26 | the formatted number keeps exactly the first ten digits of the input in order, contains only digits and the punctuation `(`, `)`, space and `-`, and is at most 14 characters |
| Validation.FormatPhoneNumberShape | src/lib/utils/validation.ts:18-25 | the layout by digit count: no digit gives the empty string, up to 3 digits stand bare, up to 6 read `(ddd) ddd`, otherwise `(ddd) ddd-dddd` from the first ten digits |
| Validation.FormatPhoneNumberIdempotent | src/lib/utils/validation.ts:13-26 | formatting an already formatted number changes nothing |
| Validation.FormattedPhoneValid | src/lib/utils/validation.ts:6-26 | a formatted number passes the phone check exactly when the input held at least ten digits |
| Validation.ValidPhoneFormatsFully | src/lib/utils/validation.ts:6-26 | a number that passes the phone check formats to `(ddd) ddd-dddd` with its own digits and still passes |
| PropertySort.NormalizePrice | src/lib/hooks/usePropertySort.ts:27-30 | a numeric price is its own value; a textual price reads its digits and is never negative, and 0 when it holds no digit |
| PropertySort.NormalizeShownPrice | src/lib/hooks/usePropertySort.ts:27-30 | a number written in decimal between text with no digits (such as a currency sign and a suffix) normalises to that number |
| PropertySort.NormalizeReadsDigitsOnly | src/lib/hooks/usePropertySort.ts:27-30 | two textual prices with the same digits normalise to the same number |
| PropertySort.CompareIsRankDifference | src/lib/hooks/usePropertySort.ts:38-55 | every sort option's comparator is the difference of one number per listing (the price, its negation, or the negated beds, baths or area), so it is a consistent order |
| PropertySort.Insert | src/lib/hooks/usePropertySort.ts:38-55 | inserting a listing gives the old listings plus the new one, none lost or duplicated |
| PropertySort.InsertSorted | src/lib/hooks/usePropertySort.ts:38-55 | inserting into a list sorted by the option's comparator keeps it sorted |
| PropertySort.SortBy | src/lib/hooks/usePropertySort.ts:36-55 | the result is sorted by the comparator and is a permutation of the input |
| PropertySort.SortProperties | src/lib/hooks/usePropertySort.ts:36-55 | the sorted grid is a permutation of the listings; price-descending puts higher prices first, price-ascending lower first, beds, baths and square feet descending; an unknown option leaves the order unchanged |
| PropertySort.SortPropertiesStable | src/lib/hooks/usePropertySort.ts:36-55 | listings of equal rank keep their original relative order |
| Crmls.Merge | src/lib/store/listings.ts:95-98 | spreading new search parameters over old ones takes each given field from the new set and every other field from the old |
| Crmls.MergeLaws | src/lib/store/listings.ts:95-98 | spread with no fields is an identity on both sides, spreading the same set twice equals once, and spread is associative |
| CrmlsService.ErrorMessage | src/lib/services/crmls.ts:97-101 | the message shown for an upstream error is its raw error if non-empty, else its message, else its error name, else the fallback |
| CrmlsService.Authenticate | src/lib/services/crmls.ts:52-139 | a token valid for more than five more minutes is reused with no request; otherwise a token is requested; a success caches a non-empty token with an expiry; any failure clears the cache |
| CrmlsService.RequestToken | src/lib/services/crmls.ts:60-137 | a token is obtained exactly when the call responded with an ok status, a parsable non-null body and a non-empty access token; a throw passes through; a failed status reports the upstream error message |
| CrmlsService.FreshTokenReused | src/lib/services/crmls.ts:39-47 | a token that lives longer than five minutes is reused by a second call made at the same moment |
| CrmlsService.ShortLivedTokenNotReused | src/lib/services/crmls.ts:39-47 | a token that lives five minutes or less is never reused: the next call requests again |
| CrmlsService.ClearAuth | src/lib/services/crmls.ts:357-360 | after clearing, no token is valid at any time |
| CrmlsService.ListingsRequest | src/lib/services/crmls.ts:154-160 | the request asks for page 1, 12 per page, sorted by list price descending unless the caller gave those fields, and passes every other field unchanged |
| CrmlsService.GetListings | src/lib/services/crmls.ts:144-279 | listings are returned exactly when the call responded ok with a parsable non-null body holding a data array, and then the body itself; each failure has its own error |
| CrmlsService.ListingsFailureNamesStatus | src/lib/services/crmls.ts:206-222 | a failed status whose body is not JSON reports `HTTP <status>: <status text>` |
| CrmlsService.GetPropertyAsWritten | src/lib/services/crmls.ts:284-314 | the property lookup as written: the first listing of an ok reply when it lists any, else the reply itself when it carries an id, else "Property not found", whatever id was asked for; an unparsable body fails with the parse error and a `null` body with the error of reading `data` from null |
| CrmlsService.GetPropertyAsWrittenIgnoresId | src/lib/services/crmls.ts:284-314 | the lookup as written gives the same answer for every requested id |
| CrmlsService.FindById | src/lib/services/crmls.ts:303-309 | a found property is in the list and carries the id; none is found only when no element carries it |
| CrmlsService.GetProperty | src/lib/services/crmls.ts:284-314 | the corrected lookup returns only a property taken from an ok reply (one of its listings, or the reply itself) that carries the requested id; it finds one whenever the reply lists one or is itself that property, and fails with "Property not found" otherwise; unparsable and `null` bodies fail as in the lookup as written |
| CrmlsService.GetPropertyAgreesOnSingleMatch | src/lib/services/crmls.ts:284-314 | when the reply's first listing is the requested one, the corrected and as-written lookups agree |
| CrmlsService.TestConnection | src/lib/services/crmls.ts:319-352 | the connection test fails when the request throws, succeeds on every status in 200-299, and fails on any status outside it |
| ListingsStore.StartFetch | src/lib/store/listings.ts:77-98 | a fetch is refused while one is loading; otherwise loading is set, the error cleared, and the request is the stored parameters with the new ones spread over them |
| ListingsStore.FriendlyError | src/lib/store/listings.ts:159-173 | a missing-credentials message, an authentication failure and a network failure each get their own user-facing wording, in that order of precedence; any other message is shown as it is |
| ListingsStore.CompleteFetch | src/lib/store/listings.ts:99-181 | a success replaces the listings with the reply's data, records the time and the paging, and stores the request's parameters; a failure empties the listings, sets the count to 0 and `hasMore` to false, and records the friendly error; loading ends either way |
| ListingsStore.StartLoadMore | src/lib/store/listings.ts:215-234 | more listings are requested only when none is loading and there are more, for the page after the current one |
| ListingsStore.CompleteLoadMore | src/lib/store/listings.ts:235-257 | a success appends the page's listings after the existing ones and advances the page; a failure keeps the listings and records the error |
| ListingsStore.LoadMoreAppends | src/lib/store/listings.ts:215-258 | after a successful load-more the old listings are a prefix of the new ones and the rest is exactly the new page |
| ListingsStore.OneRequestInFlight | src/lib/store/listings.ts:81-84 | once a fetch or load-more has started, neither can start again until it completes |
| ListingsStore.StartRefresh | src/lib/store/listings.ts:260-277 | refresh empties the listings, resets to page 1 with more pages expected and forgets the fetch time, keeping the count and the stored parameters; then, unless a request is in flight, it starts loading, clears the error and fetches page 1 of the stored parameters |
| ListingsStore.RefreshThenSuccess | src/lib/store/listings.ts:260-277 | a refresh that succeeds shows exactly the first page returned |
| ListingsStore.ClearListings | src/lib/store/listings.ts:279-284 | clearing restores the initial state: no listings, no error, not loading, page 1 of 50 by list price descending, and no filter set |
| ListingsStore.ClearForgetsEverything | src/lib/store/listings.ts:279-284 | any two stores clear to the same store, and a fetch after clearing requests the default parameters overridden only by its own |
| ListingsStore.UpdateSearchParams | src/lib/store/listings.ts:294-303 | new parameters are spread over the stored ones, the page goes back to 1 and nothing else in the store changes |
| ListingsStore.UpdateSearchParamsIdempotent | src/lib/store/listings.ts:294-303 | applying the same update twice equals applying it once |
| ListingsStore.CompleteFetchProperty | src/lib/store/listings.ts:187-213 | a fetched property is returned and replaces the listings with its id, nothing else; a failure records the error and returns nothing |
| ListingsStore.FetchPropertyNotListed | src/lib/store/listings.ts:192-201 | fetching a property that is not among the listings leaves the store unchanged |
| ListingsStore.FetchPropertyOtherIdIgnored | src/lib/store/listings.ts:192-201 | a fetched property whose id differs from the requested one changes nothing in the store |
| ListingsStore.ListingsByStatus | src/lib/store/listings.ts:305-311 | the selection keeps listing order, holds only listings with the status (ignoring case), and holds every such listing as many times as the store does |
| ListingsStore.StatusMatchIgnoresCase | src/lib/store/listings.ts:305-311 | a status and its lower-case form select the same listings |
| ListingsStore.ListingsByPriceRange | src/lib/store/listings.ts:313-324 | the selection keeps listing order, holds only priced listings within the given bounds (a zero bound is no bound), and holds every such listing as many times as the store does |
| FavoritesStore.ToggleFavorite | src/lib/store/favorites.ts:19-33 | with no user nothing changes; otherwise the user's saved list, which becomes the shown list, loses the listing (others keep their order) if it held it and gains it at the end if not, and other users are untouched |
| FavoritesStore.ToggleFlipsIsFavorite | src/lib/store/favorites.ts:19-35 | for a signed-in user, toggling flips whether the listing is a favourite |
| FavoritesStore.ToggleTwice | src/lib/store/favorites.ts:19-33 | toggling a listing twice restores the set of saved listings, and the exact list when it was not saved before |
| FavoritesStore.FetchFavorites | src/lib/store/favorites.ts:37-44 | with no user nothing changes; otherwise the user's saved listings are shown in saved order and loading ends |
| FavoritesStore.FetchAfterToggle | src/lib/store/favorites.ts:19-44 | fetching right after a toggle shows the same favourites the toggle showed |
| MapStore.ToggleMap | src/lib/store/map.ts:9-10 | toggling inverts whether the map is shown |
| MapStore.ToggleMapTimes | src/lib/store/map.ts:9-10 | after an even number of toggles the map is as it was, after an odd number inverted; two toggles are the identity |
| PropertyGrid.FormatSquareFootage | src/components/PropertyGrid.tsx:24-26 | the area is 0 exactly when it is missing or 0, and otherwise the given area |
| PropertyGrid.MapListingStatusCases | src/components/PropertyGrid.tsx:29-39 | ignoring case, a status mentioning `sold` is Sold, otherwise one mentioning `pending` is Pending, otherwise one mentioning `rent` is For Rent; a missing or empty status is For Sale |
| PropertyGrid.MapListingStatusIgnoresCase | src/components/PropertyGrid.tsx:29-39 | a status and its lower-case form map alike |
| PropertyGrid.GetPropertyLocation | src/components/PropertyGrid.tsx:42-50 | the location is city and state joined by a comma when both are non-empty, the one that is non-empty otherwise, and the placeholder when neither is or there is no address |
| PropertyGrid.GetPropertyImage | src/components/PropertyGrid.tsx:53-66 | the image is the first listed property image, else the first image record's URL, else the placeholder |
| PropertyGrid.ImageComesFromListing | src/components/PropertyGrid.tsx:53-66 | a non-placeholder image always comes from the listing's own images |
| PropertyGrid.GetPropertyTitle | src/components/PropertyGrid.tsx:69-74 | the title is `subtype type` when both are given, the type alone when only it is, and `Premium Property` otherwise; it is never empty |
| PropertyGrid.OnStoreChange | src/components/PropertyGrid.tsx:81-109 | the grid fetches the stored parameters only when the store has never fetched or its last fetch is more than five minutes (300000 ms) old, and never while loading; otherwise the store is untouched |
| PropertyGrid.FreshDataIsKept | src/components/PropertyGrid.tsx:91-103 | with nothing loading, data fetched at time t is refetched exactly when more than 300000 milliseconds have passed, and stays stale as time goes on |
| PropertyGrid.NoRefetchWithinFiveMinutes | src/components/PropertyGrid.tsx:81-109 | after a successful store fetch the grid does not ask for another within five minutes, whatever the reply held |
| Http.ExceptionStatus | api/crmls/token.ts:195-224 | an abort is a timeout (408), another `Error` mentioning fetch or network is a network error (503), and every other `Error` and every non-`Error` value is internal (500) |
| Http.ExceptionReply | api/crmls/listings.ts:380-409 | the reply to a thrown value carries the status its kind demands and the full error body: for 500, "Internal server error" with the error's message ("Unknown error" otherwise) and its stack (or its string rendering) as the raw error |
| Http.AbortIsTimeout | api/crmls/listings.ts:381-387 | an aborted request is always reported as a timeout |
| Http.NonErrorIsInternal | api/crmls/listings.ts:405-409 | a thrown value that is not an `Error` gives 500 with message `Unknown error` |
| TokenHandler.HandleToken | api/crmls/token.ts:30-226 | preflight gets 200, a non-POST 405, missing credentials 500; otherwise the upstream reply is relayed, with its status on failure, 500 for an unparsable body or a missing token, 200 with the token otherwise |
| TokenHandler.TokenSuccessIff | api/crmls/token.ts:137-191 | the handler answers 200 to a POST exactly when credentials exist and upstream gave an ok, parsable reply with an access token, and then returns that reply |
| TokenHandler.RejectedBeforeUpstream | api/crmls/token.ts:41-84 | a wrong method or missing credentials is answered the same whatever upstream would have said |
| TokenHandler.UpstreamFailurePassesThrough | api/crmls/token.ts:137-158 | an upstream failure status is passed on unchanged |
| TokenHandler.TokenStatuses | api/crmls/token.ts:30-226 | the handler only ever answers 200, 405, 408, 500, 503 or an upstream failure status |
| ListingsHandler.BuildSearchBody | api/crmls/listings.ts:185-208 | the upstream body takes page, per page, sort field and sort order from the parameters when their text is non-empty and otherwise uses 1, 12, `list_price` and `desc`; each optional filter carries its parameter's value (numbers parsed) exactly when that parameter is truthy |
| ListingsHandler.ParseDefaults | api/crmls/listings.ts:186-187 | the default page and page size parse to 1 and 12 |
| ListingsHandler.SearchBodyDefaults | api/crmls/listings.ts:185-208 | with no parameters the body is page 1, 12 per page, by list price descending, with no filter |
| ListingsHandler.NumericParamsKept | api/crmls/listings.ts:186-187 | numeric page and page-size parameters are passed on as given |
| ListingsHandler.SearchBodyIgnoresId | api/crmls/listings.ts:180-208 | an `id` parameter has no effect on the upstream body |
| ListingsHandler.Normalize | api/crmls/listings.ts:306-342 | a bare array is one page of all its items; a wrapped reply takes `data`, else `listings`, with its total, page and has-more or their defaults; anything else is an unexpected format |
| ListingsHandler.TotalPagesCoverTotal | api/crmls/listings.ts:362-364 | the page count is the least number of pages of the page size that hold the total |
| ListingsHandler.HandleListings | api/crmls/listings.ts:47-411 | preflight gets 200, other methods than GET and POST 405, missing credentials 500; then a token failure ends the request and otherwise the listings reply is formed |
| ListingsHandler.TokenStep | api/crmls/listings.ts:140-174 | the request proceeds exactly when the token call responded ok with a parsable reply holding an access token; a non-ok status is passed on with "Authentication failed", an unparsable body answers 500 "Invalid token response" with the raw text, a `null` body answers as an exception reading `access_token`, and a missing token answers 500 "Authentication failed" / "No access token received from CRMLS API" |
| ListingsHandler.FetchPage | api/crmls/listings.ts:261-376 | the handler answers 200 exactly when upstream responded ok with a recognised listings format, and then returns its listings with paging computed from the page size; a non-ok status is passed on with upstream's own error body (plus the raw text) or, when that is unreadable, "Listings fetch failed" with the status line; an unparsable ok body answers 500 "Invalid listings response", a `null` one answers as an exception reading `data`, and an unrecognised shape answers 500 "Invalid response format" |
| ListingsHandler.ListingsStatuses | api/crmls/listings.ts:47-411 | the handler only ever answers 200, 405, 408, 500 or 503, or passes on the non-ok status of the token or listings call |
| ListingsHandler.ReplyIgnoresId | api/crmls/listings.ts:180-208 | a GET with an `id` parameter is answered exactly as the same GET without it |
| ListingsHandler.FetchPageReadsPerPage | api/crmls/listings.ts:357-366 | the reply depends on the parameters only through the page size |
| ListingsHandler.RejectedBeforeUpstream | api/crmls/listings.ts:58-94 | a wrong method or missing credentials is answered the same whatever upstream would have said |
| ListingsHandler.TokenFailureStopsEarly | api/crmls/listings.ts:140-151 | a failed token call is answered the same whatever the listings call would have given |
| ListingsHandler.BareArrayIsOnePage | api/crmls/listings.ts:312-316 | a bare array reply becomes one complete page: status 200, all its items, total their count, page 1, no more |
| EndToEnd.PropertyLookupReturnsOtherListing | src/lib/services/crmls.ts:284-314 | a lookup of id A whose page starts with listing B succeeds with B as written, while the corrected lookup refuses it |
| EndToEnd.FetchProperty | src/lib/store/listings.ts:187-213 | fetching a property through the corrected lookup returns only a property with the requested id and updates exactly the listings with that id |
| EndToEnd.FetchPropertyKeepsIds | src/lib/store/listings.ts:187-213 | fetching a property never changes the id at any position of the listings |
| EndToEnd.ConnectionTestMeansToken | src/lib/services/crmls.ts:319-352 | posting to the token proxy, the connection test succeeds exactly when the credentials are configured and the MLS answered with an ok, readable access token |
| CreateAccount.ValidateField | src/components/CreateAccountModal.tsx:80-152 | an untouched field passes and records nothing; a touched field passes exactly when its value is acceptable for that field, and a pass leaves the errors alone |
| CreateAccount.AcceptableIffNoErrors | src/components/CreateAccountModal.tsx:80-152 | a value is acceptable exactly when the field's checks yield no message |
| CreateAccount.EmailMessages | src/components/CreateAccountModal.tsx:85-93 | a blank email is "required" and a malformed one an invalid format |
| CreateAccount.MismatchMessages | src/components/CreateAccountModal.tsx:95-121 | a password that differs from a given confirmation, and a confirmation that differs from the password, both get the mismatch message |
| CreateAccount.ValidateAll | src/components/CreateAccountModal.tsx:215-230 | validating a list of fields passes exactly when every touched field in it is acceptable |
| CreateAccount.InputChangeAsWritten | src/components/CreateAccountModal.tsx:154-178 | typing as written: the value is stored and the field's error cleared, then the confirmation is rechecked against the form before the keystroke |
| CreateAccount.StaleConfirmationCheck | src/components/CreateAccountModal.tsx:174-177 | with password and confirmation both `secret`, typing `secret1` as the password leaves no mismatch as written, while the corrected handler records it |
| CreateAccount.InputChange | src/components/CreateAccountModal.tsx:154-178 | the corrected handler rechecks a touched confirmation against the new password, so, with no confirmation error before the keystroke, a mismatch is recorded exactly when the confirmation is not acceptable against the new password |
| CreateAccount.CheckboxChange | src/components/CreateAccountModal.tsx:186-196 | the terms flag is stored; ticking a touched box clears its error; no other field or error changes |
| CreateAccount.BuyerQuestionChange | src/components/CreateAccountModal.tsx:198-208 | answering a question stores that answer and no other value, and clears its error when it is touched |
| CreateAccount.Blur | src/components/CreateAccountModal.tsx:180-213 | leaving a field marks it touched; the first blur only marks it, a later one leaves the errors alone for an acceptable value and records an error for an unacceptable one (a password that disagrees with the confirmation records it under the confirmation) |
| CreateAccount.AccountSubmitAsWritten | src/components/CreateAccountModal.tsx:215-252 | the first step as written: every field is marked touched, but the check reads the marks from before the submit, so the step moves to the questions exactly when every previously touched account field passes, the terms are accepted and the passwords match; a failing field records its errors, unticked terms record the terms message, and unequal passwords record the mismatch message on the confirmation, each keeping the step |
| CreateAccount.UntouchedFieldSkipped | src/components/CreateAccountModal.tsx:80-81 | with only the passwords touched, a three-character phone number gets past the submit as written and is refused by the corrected one |
| CreateAccount.AccountSubmit | src/components/CreateAccountModal.tsx:215-252 | the corrected first step: from the account step it moves to the questions exactly when every account field is acceptable, whatever was touched before; moving leaves the errors alone and marks every field touched |
| CreateAccount.AdvanceNeedsTermsAndMatch | src/components/CreateAccountModal.tsx:230-246 | advancing as written implies the terms were accepted and the two passwords are equal |
| CreateAccount.AdvanceIffAcceptable | src/components/CreateAccountModal.tsx:215-252 | once the account fields are touched, the submit as written advances exactly when every one of them is acceptable |
| CreateAccount.StartFinalSubmit | src/components/CreateAccountModal.tsx:254-288 | the final submit marks the questions touched and requests sign-up exactly when the touched questions pass, setting the loading flag; the request carries the email, password, both names, phone, the first-time-buyer answer as a flag and the other two answers; a failed check leaves the errors the question checks recorded |
| CreateAccount.Caught | src/components/CreateAccountModal.tsx:323-351 | loading ends; a message containing "already registered" (any case) returns to the first step with the email error, otherwise one mentioning "password" returns there with the six-character password error, and any other message is a toast that changes nothing else |
| CreateAccount.CompleteFinalSubmit | src/components/CreateAccountModal.tsx:289-355 | the success step is reached exactly when sign-up succeeded; a returned "already taken" error goes back to the first step with the email error; any other returned error, and any thrown value, goes through the catch routing (email error, password error or toast) on its message; loading ends |
| CreateAccount.ReturnedAndThrownDiffer | src/components/CreateAccountModal.tsx:289-351 | an "already in use" message sets the email error when returned but ends in a toast when thrown |
| CreateAccount.RethrownLikeThrown | src/components/CreateAccountModal.tsx:289-351 | a returned error that does not name a taken account is treated exactly like the same error thrown by the sign-up call |
| CreateAccount.UserAlreadyExistsSubsumed | src/components/CreateAccountModal.tsx:291-296 | a message mentioning "user already exists" already mentions "already exists", so the fourth test adds nothing |
| CreateAccount.BackToAccount | src/components/CreateAccountModal.tsx:357-359 | going back returns to the account step and keeps everything entered |
| CreateAccount.ResetModal | src/components/CreateAccountModal.tsx:361-380 | resetting gives the first step, every text field and answer empty, the terms unticked, no errors, nothing touched, not loading |
| CreateAccount.ResetThenNothingTouched | src/components/CreateAccountModal.tsx:361-380 | after a reset every field's validation passes and records nothing, whatever its value |
| SignIn.ValidateField | src/components/SignInModal.tsx:42-64 | an untouched field passes; a touched one passes exactly when acceptable, and otherwise records "required" for a blank value or an invalid format for a malformed email |
| SignIn.InputChange | src/components/SignInModal.tsx:66-77 | typing stores the value and removes that field's error, and no other |
| SignIn.Blur | src/components/SignInModal.tsx:79-83 | leaving a field marks it touched and validates it with the render's marks |
| SignIn.StartSubmit | src/components/SignInModal.tsx:85-107 | submit marks both fields touched, runs both checks, and requests sign-in with the form's values exactly when both pass |
| SignIn.SubmitRequestsIffValid | src/components/SignInModal.tsx:96-107 | with both fields touched, sign-in is requested exactly for a well-formed email and a non-blank password |
| SignIn.CompleteSubmit | src/components/SignInModal.tsx:108-160 | loading ends; success welcomes; an unconfirmed email prompts confirmation; bad credentials set the single password error; any other failure is a toast |
| SignIn.ForgotPassword | src/components/SignInModal.tsx:190-199 | a reset is requested exactly for a well-formed email; otherwise the email is marked touched with the reason |
| SignIn.BlankEmailWordedDifferently | src/components/SignInModal.tsx:42-64 | a white-space email is "required" to the field check but an invalid format to the forgot-password check |
| OneLastStep.CompleteIffAllAnswered | src/components/OneLastStepForm.tsx:49 | the form is complete exactly when every question has a non-empty answer |
| OneLastStep.InitialIncomplete | src/components/OneLastStepForm.tsx:28-34 | the form starts incomplete |
| OneLastStep.SetAnswer | src/components/OneLastStepForm.tsx:66-153 | answering a question sets its answer and no other |
| OneLastStep.AnsweringEnables | src/components/OneLastStepForm.tsx:49-172 | with every other question answered, the button is enabled exactly when the last answer is non-empty |
| OneLastStep.StartSubmit | src/components/OneLastStepForm.tsx:36-47 | a submit happens only from an enabled button, and then disables it while loading |
| OneLastStep.CompleteSubmit | src/components/OneLastStepForm.tsx:36-47 | after submitting, a complete form's button is enabled again |

## Left out

- Logging, CORS headers, the `apiKey` header and the `debug_info` fields of the handlers' error bodies: they do not change any status or message.
- JSON parsing and `response.text()`: each upstream body is given as its text and as the result of parsing it, `Parsed(value)` or `Unparseable(error)`.
- Timers and `AbortController`: a timed-out request is an upstream call that threw an `AbortError`.
- Clocks: `Date.now()` is a `now` parameter. `Authenticate` uses one `now` for both the validity check and the new expiry.
- `CrmlsService.TestConnection`: its logging is left out; only its verdict is modelled.
- `setError` and `setLoading` of the listings store: plain setters with no logic.
- The auth provider calls (sign-up, sign-in, resend, password reset): each is an outcome parameter.
- Toasts, dialog open state, the two-second auto-close after sign-up and the navigation after success.
- React batching: each handler reads the state of its own render, which is what the model does.
- The store middleware (zustand persistence and devtools).
- Mock data and `formatCurrency`, which only formats for display.
- String lengths count UTF-16 code units in the source and characters here; `toLowerCase` is ASCII-only here.
- `parseInt` is modelled on decimal digits with an optional sign and leading white space; hexadecimal prefixes and floating-point numbers are not modelled.
- ListingsHandler.Normalize: a `data` or `listings` field that is present but not an array is treated as absent, as in the source's `Array.isArray` tests, but the model has no non-array values to show it.
- An empty `id` stands for a missing `id` on a property.
- ListingsStore.CompleteFetch: the store's check for a missing response (`!response`) is not modelled, because the service never resolves to nothing.
- In object spread, a field explicitly set to `undefined` overrides the old value; the model treats absent and `undefined` alike.
- The `total`, `page` and `has_more` fields that `getListings` only logs.
- `authenticate` is not called by `getListings` or `getProperty`, which go through the proxy; it is modelled on its own.

## Findings

| source | as written | input that shows it | evidently intended | confidence | as-written member | corrected member |
|---|---|---|---|---|---|---|
| src/lib/services/crmls.ts:284-314 | `getProperty(id)` sends `id` to the listings endpoint, which ignores it (api/crmls/listings.ts:180-208), and returns the first listing of whatever page comes back | id `A`, the first upstream page begins with a listing whose id is `B` | return only a property whose id is the requested one, and report "not found" otherwise | medium, not executed | CrmlsService.GetPropertyAsWritten, EndToEnd.PropertyLookupReturnsOtherListing | CrmlsService.GetProperty, EndToEnd.FetchProperty |
| src/components/CreateAccountModal.tsx:215-228 | the submit marks every field touched, but `validateField` skips fields that were untouched before the submit (line 81 reads the render's `touched`), so a field never left is not checked | only the two passwords touched (`abcdef` each), terms ticked, a phone number `123` typed last and submitted with Enter | every account field is checked on submit | medium, not executed | CreateAccount.AccountSubmitAsWritten, CreateAccount.UntouchedFieldSkipped | CreateAccount.AccountSubmit |
| src/components/CreateAccountModal.tsx:174-177 | typing into the password field rechecks the confirmation against the form as it was before the keystroke | password and confirmation both `secret` and both touched; type `secret1` as the password | the confirmation is rechecked against the new password, so the mismatch is shown | high, not executed | CreateAccount.InputChangeAsWritten, CreateAccount.StaleConfirmationCheck | CreateAccount.InputChange |

=== FILE: create_account.dfy ===
/**
  The sign-up dialog (src/components/CreateAccountModal.tsx): an account step
  whose fields are validated once touched, a questions step, and a success
  step reached when the sign-up call succeeds. Each handler is a function
  from the state of the render it belongs to; the sign-up call is a start
  transition that yields the request and a completion transition that takes
  its outcome.
 */
module CreateAccount {
  import opened Strings
  import opened Js
  import opened Validation

  datatype Field =
    | Email | Password | ConfirmPassword | FirstName | LastName | PhoneNumber | TermsAccepted
    | FirstTimeBuyer | PurchaseTimeline | SellingCurrentHome

  /** The account step's fields, in the order the submit checks them. */
  const AccountFields: seq<Field> := [Email, Password, ConfirmPassword, FirstName, LastName, PhoneNumber, TermsAccepted]

  /** The questions step's fields, in the order the submit checks them. */
  const QuestionFields: seq<Field> := [FirstTimeBuyer, PurchaseTimeline, SellingCurrentHome]

  predicate IsTextInput(f: Field) {
    f in {Email, Password, ConfirmPassword, FirstName, LastName, PhoneNumber}
  }

  predicate IsQuestion(f: Field) {
    f in {FirstTimeBuyer, PurchaseTimeline, SellingCurrentHome}
  }

  /** A field's value: the terms checkbox holds a flag, every other field text. */
  datatype Value = Text(s: string) | Flag(b: bool)

  datatype Form = Form(
    email: string,
    password: string,
    confirmPassword: string,
    firstName: string,
    lastName: string,
    phoneNumber: string,
    termsAccepted: bool)

  datatype Answers = Answers(isFirstTimeBuyer: string, purchaseTimeline: string, sellingCurrentHome: string)

  datatype Step = AccountStep | QuestionsStep | SuccessStep

  /** The error message shown under each field that has one. */
  type Errors = map<Field, string>

  datatype State = State(
    step: Step,
    form: Form,
    answers: Answers,
    errors: Errors,
    touched: set<Field>,
    loading: bool)

  const EmptyForm := Form("", "", "", "", "", "", false)
  const NoAnswers := Answers("", "", "")
  const Initial := State(AccountStep, EmptyForm, NoAnswers, map[], {}, false)

  const TermsMessage := "You must agree to the terms and privacy policy to continue."
  const MismatchMessage := "Passwords do not match"
  const RegisteredMessage := "This email is already registered. Please sign in instead."
  const WeakPasswordMessage := "Password must be at least 6 characters long"

  function ValueOf(form: Form, answers: Answers, f: Field): Value {
    match f
    case Email => Text(form.email)
    case Password => Text(form.password)
    case ConfirmPassword => Text(form.confirmPassword)
    case FirstName => Text(form.firstName)
    case LastName => Text(form.lastName)
    case PhoneNumber => Text(form.phoneNumber)
    case TermsAccepted => Flag(form.termsAccepted)
    case FirstTimeBuyer => Text(answers.isFirstTimeBuyer)
    case PurchaseTimeline => Text(answers.purchaseTimeline)
    case SellingCurrentHome => Text(answers.sellingCurrentHome)
  }

  /** `!value || typeof value !== "string" || !value.trim()`. */
  predicate Missing(v: Value) {
    v.Flag? || IsBlank(v.s)
  }

  /** `!!value`. */
  predicate Truthy(v: Value) {
    if v.Flag? then v.b else v.s != ""
  }

  // ----- validateField --------------------------------------------------------

  /** The errors `validateField` finds for a touched field, keyed by field. */
  function Check(f: Field, v: Value, form: Form): Errors {
    match f
    case Email =>
      if Missing(v) then map[Email := "Email is required"]
      else if !IsValidEmail(v.s) then map[Email := "Invalid email format"]
      else map[]
    case Password =>
      var own :=
        if Missing(v) then map[Password := "Password is required"]
        else if |v.s| < 6 then map[Password := "Password must be at least 6 characters"]
        else map[];
      var other := if form.confirmPassword != "" && v != Text(form.confirmPassword) then map[ConfirmPassword := MismatchMessage] else map[];
      own + other
    case ConfirmPassword =>
      if Missing(v) then map[ConfirmPassword := "Please confirm your password"]
      else if v.s != form.password then map[ConfirmPassword := MismatchMessage]
      else map[]
    case FirstName => if Missing(v) then map[FirstName := "First name is required"] else map[]
    case LastName => if Missing(v) then map[LastName := "Last name is required"] else map[]
    case PhoneNumber =>
      if Missing(v) then map[PhoneNumber := "Phone number is required"]
      else if !IsValidPhone(v.s) then map[PhoneNumber := "Invalid phone number"]
      else map[]
    case TermsAccepted => if !Truthy(v) then map[TermsAccepted := TermsMessage] else map[]
    case FirstTimeBuyer => if Missing(v) then map[FirstTimeBuyer := "Please select an option"] else map[]
    case PurchaseTimeline => if Missing(v) then map[PurchaseTimeline := "Please select your timeline"] else map[]
    case SellingCurrentHome => if Missing(v) then map[SellingCurrentHome := "Please select an option"] else map[]
  }

  /** What each field demands of its value, stated without the messages: an
      address the email pattern matches, a password of six or more
      characters that agrees with a confirmation already typed, a
      confirmation equal to the password, a phone number of exactly ten
      digits, ticked terms, and a non-blank answer everywhere else. */
  ghost predicate Acceptable(f: Field, v: Value, form: Form) {
    match f
    case Email => v.Text? && MatchesEmailRegex(v.s)
    case Password =>
      v.Text? && !IsBlank(v.s) && |v.s| >= 6 && (form.confirmPassword == "" || v.s == form.confirmPassword)
    case ConfirmPassword => v.Text? && !IsBlank(v.s) && v.s == form.password
    case PhoneNumber => v.Text? && |Digits(v.s)| == 10
    case TermsAccepted => Truthy(v)
    case _ => v.Text? && !IsBlank(v.s)
  }

  /** A validation's verdict and the error map after it. */
  datatype Checked = Checked(valid: bool, errors: Errors)

  /** `validateField(name, value)`: an untouched field passes and records
      nothing; a touched one passes exactly when its value is acceptable,
      and its errors are merged over the old ones (a passing field keeps
      any old message). */
  function ValidateField(f: Field, v: Value, touched: set<Field>, form: Form, errors: Errors): (r: Checked)
    ensures f !in touched ==> r == Checked(true, errors)
    ensures f in touched ==> (r.valid <==> Acceptable(f, v, form))
    ensures r.valid ==> r.errors == errors
    ensures forall g :: g in errors ==> g in r.errors
    ensures forall g :: g in errors && g != f && g != ConfirmPassword ==> r.errors[g] == errors[g]
    ensures forall g :: g in r.errors && g !in errors ==> g == f || (f == Password && g == ConfirmPassword)
  {
    if f !in touched then Checked(true, errors)
    else
      var found := Check(f, v, form);
      AcceptableIffNoErrors(f, v, form);
      Checked(found == map[], errors + found)
  }

  /** The messages are the ones the field's rules are written with. */
  lemma AcceptableIffNoErrors(f: Field, v: Value, form: Form)
    ensures Check(f, v, form) == map[] <==> Acceptable(f, v, form)
    ensures forall g :: g in Check(f, v, form) ==> g == f || (f == Password && g == ConfirmPassword)
  {
    var c := Check(f, v, form);
    if v.Text? {
      IsValidEmailMatchesRegex(v.s);
      if IsBlank(v.s) {
        BlankIsNoEmail(v.s);
        BlankHasNoDigits(v.s);
      }
    }
    if f == Password {
      if Missing(v) || |v.s| < 6 {
        assert Password in c;
      } else if form.confirmPassword != "" && v != Text(form.confirmPassword) {
        assert ConfirmPassword in c;
      }
    } else if !Acceptable(f, v, form) {
      assert f in c;
    }
  }

  /** A touched email is "Email is required" when blank and "Invalid email
      format" when it fails the pattern. */
  lemma EmailMessages(v: string, touched: set<Field>, form: Form, errors: Errors)
    requires Email in touched
    ensures var r := ValidateField(Email, Text(v), touched, form, errors);
      && (IsBlank(v) ==> r.errors[Email] == "Email is required")
      && (!IsBlank(v) && !MatchesEmailRegex(v) ==> r.errors[Email] == "Invalid email format")
  {
    IsValidEmailMatchesRegex(v);
  }

  /** A touched confirmation that is not blank and differs from the password
      gets "Passwords do not match"; so does the confirmation when a password
      is checked against a different, non-empty confirmation. */
  lemma MismatchMessages(v: string, touched: set<Field>, form: Form, errors: Errors)
    requires ConfirmPassword in touched && Password in touched
    ensures !IsBlank(v) && v != form.password ==>
      ValidateField(ConfirmPassword, Text(v), touched, form, errors).errors[ConfirmPassword] == MismatchMessage
    ensures form.confirmPassword != "" && v != form.confirmPassword ==>
      ValidateField(Password, Text(v), touched, form, errors).errors[ConfirmPassword] == MismatchMessage
  {
  }

  /** `every` over fields in order: stops at the first field that fails. */
  function ValidateAll(fields: seq<Field>, form: Form, answers: Answers, touched: set<Field>, errors: Errors): (r: Checked)
    ensures r.valid <==> forall i :: 0 <= i < |fields| && fields[i] in touched ==>
      Acceptable(fields[i], ValueOf(form, answers, fields[i]), form)
    ensures r.valid ==> r.errors == errors
    ensures forall g :: g in errors ==> g in r.errors
  {
    if fields == [] then Checked(true, errors)
    else
      var c := ValidateField(fields[0], ValueOf(form, answers, fields[0]), touched, form, errors);
      if !c.valid then Checked(false, c.errors)
      else ValidateAll(fields[1..], form, answers, touched, c.errors)
  }

  // ----- Input handlers -----------------------------------------------------

  /** The form with text input `f` set to `v`. */
  function SetText(form: Form, f: Field, v: string): (r: Form)
    requires IsTextInput(f)
    ensures forall answers :: ValueOf(r, answers, f) == Text(v)
    ensures r.password == if f == Password then v else form.password
    ensures r.confirmPassword == if f == ConfirmPassword then v else form.confirmPassword
    ensures r.phoneNumber == if f == PhoneNumber then v else form.phoneNumber
    ensures r.termsAccepted == form.termsAccepted
  {
    match f
    case Email => form.(email := v)
    case Password => form.(password := v)
    case ConfirmPassword => form.(confirmPassword := v)
    case FirstName => form.(firstName := v)
    case LastName => form.(lastName := v)
    case PhoneNumber => form.(phoneNumber := v)
  }

  /** Typing into `f` re-checks a touched confirmation when `f` is the
      password, against `form`; other keystrokes leave the errors alone. */
  function RecheckConfirmation(f: Field, touched: set<Field>, form: Form, errors: Errors): (r: Errors)
    ensures forall g :: g in errors && g != ConfirmPassword ==> g in r && r[g] == errors[g]
    ensures (f == Password && ConfirmPassword in touched && ConfirmPassword !in errors) ==>
      (ConfirmPassword in r <==> !Acceptable(ConfirmPassword, Text(form.confirmPassword), form))
    ensures (f != Password || ConfirmPassword !in touched) ==> r == errors
  {
    if f == Password && ConfirmPassword in touched then
      ValidateField(ConfirmPassword, Text(form.confirmPassword), touched, form, errors).errors
    else errors
  }

  /** `handleInputChange` on text input `f`, as written: the phone number is
      stored formatted, a touched field's error is removed, and typing a
      password re-checks a touched confirmation against the form as it was
      before this keystroke. */
  function InputChangeAsWritten(s: State, f: Field, typed: string): (r: State)
    requires IsTextInput(f)
    ensures r.form.phoneNumber == if f == PhoneNumber then FormatPhoneNumber(typed) else s.form.phoneNumber
    ensures f != PhoneNumber ==> ValueOf(r.form, r.answers, f) == Text(typed)
    ensures (f in s.touched && (f != Password || ConfirmPassword !in s.touched)) ==> f !in r.errors
    ensures (f == Password && ConfirmPassword in s.touched && ConfirmPassword !in s.errors) ==>
      (ConfirmPassword in r.errors <==> !Acceptable(ConfirmPassword, Text(s.form.confirmPassword), s.form))
  {
    var stored := if f == PhoneNumber then FormatPhoneNumber(typed) else typed;
    var cleared := if f in s.touched then s.errors - {f} else s.errors;
    s.(form := SetText(s.form, f, stored), errors := RecheckConfirmation(f, s.touched, s.form, cleared))
  }

  /** `handleInputChange` as intended: as written, except that the
      confirmation is re-checked against the password just typed. */
  function InputChange(s: State, f: Field, typed: string): (r: State)
    requires IsTextInput(f)
    ensures r.form.phoneNumber == if f == PhoneNumber then FormatPhoneNumber(typed) else s.form.phoneNumber
    ensures f != PhoneNumber ==> ValueOf(r.form, r.answers, f) == Text(typed)
    ensures (f in s.touched && (f != Password || ConfirmPassword !in s.touched)) ==> f !in r.errors
    ensures forall g :: g in s.errors && g != f && g != ConfirmPassword ==> g in r.errors && r.errors[g] == s.errors[g]
    ensures (f == Password && ConfirmPassword in s.touched && ConfirmPassword !in s.errors) ==>
      (ConfirmPassword in r.errors <==> !Acceptable(ConfirmPassword, Text(r.form.confirmPassword), r.form))
  {
    var stored := if f == PhoneNumber then FormatPhoneNumber(typed) else typed;
    var form := SetText(s.form, f, stored);
    var cleared := if f in s.touched then s.errors - {f} else s.errors;
    s.(form := form, errors := RecheckConfirmation(f, s.touched, form, cleared))
  }

  /** As written, a new password that no longer matches the confirmation
      raises no error: the confirmation is compared with the old password. */
  lemma StaleConfirmationCheck()
    ensures var s := Initial.(form := EmptyForm.(password := "secret", confirmPassword := "secret"),
                              touched := {Password, ConfirmPassword});
      && ConfirmPassword !in InputChangeAsWritten(s, Password, "secret1").errors
      && InputChangeAsWritten(s, Password, "secret1").form.password != s.form.confirmPassword
      && InputChange(s, Password, "secret1").errors[ConfirmPassword] == MismatchMessage
  {
    var s := Initial.(form := EmptyForm.(password := "secret", confirmPassword := "secret"),
                      touched := {Password, ConfirmPassword});
    assert !IsBlank("secret") by {
      assert !IsSpace("secret"[0]);
    }
    assert "secret1" != "secret" by {
      assert |"secret1"| != |"secret"|;
    }
  }

  /** `handleCheckboxChange`: the terms flag is set, and ticking a touched
      box clears its error. */
  function CheckboxChange(s: State, checked: bool): (r: State)
    ensures r.form.termsAccepted == checked
    ensures (checked && TermsAccepted in s.touched) ==> TermsAccepted !in r.errors
    ensures forall g :: g != TermsAccepted ==> (g in r.errors <==> g in s.errors)
    ensures r == s.(form := r.form, errors := r.errors) && r.form == s.form.(termsAccepted := checked)
  {
    var errors := if TermsAccepted in s.touched && checked then s.errors - {TermsAccepted} else s.errors;
    s.(form := s.form.(termsAccepted := checked), errors := errors)
  }

  /** `handleBuyerQuestionChange`: the answer is set, and a touched
      question's error is cleared. */
  function BuyerQuestionChange(s: State, q: Field, answer: string): (r: State)
    requires IsQuestion(q)
    ensures ValueOf(r.form, r.answers, q) == Text(answer)
    ensures forall g :: g != q ==> ValueOf(r.form, r.answers, g) == ValueOf(s.form, s.answers, g)
    ensures q in s.touched ==> q !in r.errors
    ensures forall g :: g != q ==> (g in r.errors <==> g in s.errors)
  {
    var answers := match q {
      case FirstTimeBuyer => s.answers.(isFirstTimeBuyer := answer)
      case PurchaseTimeline => s.answers.(purchaseTimeline := answer)
      case SellingCurrentHome => s.answers.(sellingCurrentHome := answer)
    };
    var errors := if q in s.touched then s.errors - {q} else s.errors;
    s.(answers := answers, errors := errors)
  }

  /** `handleBlur` / `handleBuyerQuestionBlur`: the field is marked touched
      and validated against the marks of the render it belongs to, so the
      first blur of a field only marks it. */
  function Blur(s: State, f: Field): (r: State)
    ensures r.touched == s.touched + {f}
    ensures f !in s.touched ==> r == s.(touched := s.touched + {f})
    ensures f in s.touched && Acceptable(f, ValueOf(s.form, s.answers, f), s.form) ==> r.errors == s.errors
    ensures f in s.touched && !Acceptable(f, ValueOf(s.form, s.answers, f), s.form) ==>
      f in r.errors || (f == Password && ConfirmPassword in r.errors)
  {
    var c := ValidateField(f, ValueOf(s.form, s.answers, f), s.touched, s.form, s.errors);
    AcceptableIffNoErrors(f, ValueOf(s.form, s.answers, f), s.form);
    s.(touched := s.touched + {f}, errors := c.errors)
  }

  // ----- Steps --------------------------------------------------------------

  /** The account step's fields as a set: the touched marks the account
      submit sets. */
  const AccountFieldSet: set<Field> := set f | f in AccountFields

  /** `handleAccountFormSubmit` as written: every account field is marked
      touched (and only those), but the fields are checked in order against
      the marks of the render the handler belongs to, so a field never left
      is not checked; then the terms and the password match are checked
      before moving to the questions. */
  function AccountSubmitAsWritten(s: State): (r: State)
    ensures r.touched == AccountFieldSet
    ensures r.step == QuestionsStep <==>
      (s.step == QuestionsStep || (ValidateAll(AccountFields, s.form, s.answers, s.touched, s.errors).valid
                                   && s.form.termsAccepted && s.form.password == s.form.confirmPassword))
    ensures r.step != s.step ==> r.step == QuestionsStep && r.errors == s.errors
    ensures var c := ValidateAll(AccountFields, s.form, s.answers, s.touched, s.errors);
      && (!c.valid ==> r.step == s.step && r.errors == c.errors)
      && (c.valid && !s.form.termsAccepted ==> r.step == s.step && r.errors == s.errors[TermsAccepted := TermsMessage])
      && (c.valid && s.form.termsAccepted && s.form.password != s.form.confirmPassword ==>
            r.step == s.step && r.errors == s.errors[ConfirmPassword := MismatchMessage])
    ensures r.form == s.form && r.answers == s.answers && r.loading == s.loading
  {
    var c := ValidateAll(AccountFields, s.form, s.answers, s.touched, s.errors);
    if !c.valid then s.(touched := AccountFieldSet, errors := c.errors)
    else if !s.form.termsAccepted then s.(touched := AccountFieldSet, errors := c.errors[TermsAccepted := TermsMessage])
    else if s.form.password != s.form.confirmPassword then
      s.(touched := AccountFieldSet, errors := c.errors[ConfirmPassword := MismatchMessage])
    else s.(touched := AccountFieldSet, step := QuestionsStep)
  }

  /** `handleAccountFormSubmit` as intended: the fields are checked with the
      marks it has just set, so from the account step the questions are
      reached exactly when every account field is acceptable. */
  function AccountSubmit(s: State): (r: State)
    ensures r.touched == AccountFieldSet
    ensures s.step == AccountStep ==>
      (r.step == QuestionsStep <==> forall f :: f in AccountFields ==> Acceptable(f, ValueOf(s.form, s.answers, f), s.form))
    ensures r.step != s.step ==> r.step == QuestionsStep && r.errors == s.errors
    ensures r.form == s.form && r.answers == s.answers && r.loading == s.loading
  {
    var marked := s.(touched := s.touched + AccountFieldSet);
    if s.step == AccountStep then
      AdvanceIffAcceptable(marked);
      AccountSubmitAsWritten(marked)
    else AccountSubmitAsWritten(marked)
  }

  /** As written, a field the user never left is not checked: with only the
      two passwords touched, a three-digit phone number (typed last and
      submitted with Enter, so never blurred) reaches the questions, which
      the intended submit refuses. */
  lemma UntouchedFieldSkipped()
    ensures var form := Form("a@b.co", "abcdef", "abcdef", "Ann", "Lee", "123", true);
      var s := Initial.(form := form, touched := {Password, ConfirmPassword});
      && !IsValidPhone(s.form.phoneNumber)
      && AccountSubmitAsWritten(s).step == QuestionsStep
      && AccountSubmit(s).step == AccountStep
  {
    var form := Form("a@b.co", "abcdef", "abcdef", "Ann", "Lee", "123", true);
    var s := Initial.(form := form, touched := {Password, ConfirmPassword});
    assert !IsBlank("abcdef") by {
      assert !IsSpace("abcdef"[0]);
    }
    PasswordsAcceptable(s);
    AsWrittenAdvances(s);
    ShortPhoneUnacceptable(s);
    CorrectedRefuses(s, PhoneNumber);
  }

  /** Two equal, non-blank passwords of at least six characters are both
      acceptable. */
  lemma PasswordsAcceptable(s: State)
    requires s.form.password == s.form.confirmPassword
    requires |s.form.password| >= 6 && !IsBlank(s.form.password)
    ensures Acceptable(Password, ValueOf(s.form, s.answers, Password), s.form)
    ensures Acceptable(ConfirmPassword, ValueOf(s.form, s.answers, ConfirmPassword), s.form)
  {
  }

  /** A phone number shorter than ten characters cannot hold ten digits. */
  lemma ShortPhoneUnacceptable(s: State)
    requires |s.form.phoneNumber| < 10
    ensures !IsValidPhone(s.form.phoneNumber)
    ensures !Acceptable(PhoneNumber, ValueOf(s.form, s.answers, PhoneNumber), s.form)
  {
  }

  /** The submit as written reaches the questions from a state where only
      the passwords are touched, acceptable and equal, and the terms ticked. */
  lemma AsWrittenAdvances(s: State)
    requires s.touched == {Password, ConfirmPassword}
    requires Acceptable(Password, ValueOf(s.form, s.answers, Password), s.form)
    requires Acceptable(ConfirmPassword, ValueOf(s.form, s.answers, ConfirmPassword), s.form)
    requires s.form.termsAccepted
    ensures AccountSubmitAsWritten(s).step == QuestionsStep
  {
    OnlyPasswordsChecked(s);
  }

  /** The corrected submit keeps the account step while any account field
      is unacceptable. */
  lemma CorrectedRefuses(s: State, f: Field)
    requires s.step == AccountStep && f in AccountFields
    requires !Acceptable(f, ValueOf(s.form, s.answers, f), s.form)
    ensures AccountSubmit(s).step == AccountStep
  {
  }

  /** With only the two passwords touched, the account fields pass as soon
      as those two are acceptable. */
  lemma OnlyPasswordsChecked(s: State)
    requires s.touched == {Password, ConfirmPassword}
    requires Acceptable(Password, ValueOf(s.form, s.answers, Password), s.form)
    requires Acceptable(ConfirmPassword, ValueOf(s.form, s.answers, ConfirmPassword), s.form)
    ensures ValidateAll(AccountFields, s.form, s.answers, s.touched, s.errors).valid
  {
    forall i | 0 <= i < |AccountFields| && AccountFields[i] in s.touched
      ensures Acceptable(AccountFields[i], ValueOf(s.form, s.answers, AccountFields[i]), s.form)
    {
      assert i == 1 || i == 2;
    }
  }

  /** Once every account field has been touched, the questions are reached
      exactly when every account field is acceptable. */
  lemma AdvanceIffAcceptable(s: State)
    requires s.step == AccountStep
    requires forall f :: f in AccountFields ==> f in s.touched
    ensures AccountSubmitAsWritten(s).step == QuestionsStep <==>
      forall f :: f in AccountFields ==> Acceptable(f, ValueOf(s.form, s.answers, f), s.form)
  {
    var c := ValidateAll(AccountFields, s.form, s.answers, s.touched, s.errors);
    if c.valid {
      assert Acceptable(TermsAccepted, ValueOf(s.form, s.answers, AccountFields[6]), s.form);
      assert Acceptable(ConfirmPassword, ValueOf(s.form, s.answers, AccountFields[2]), s.form);
    }
    if forall f :: f in AccountFields ==> Acceptable(f, ValueOf(s.form, s.answers, f), s.form) {
      assert forall i :: 0 <= i < |AccountFields| ==> AccountFields[i] in AccountFields;
    }
  }

  /** What `signUp` is called with. */
  datatype SignUpRequest = SignUpRequest(
    email: string,
    password: string,
    firstName: string,
    lastName: string,
    phoneNumber: string,
    isFirstTimeBuyer: bool,
    purchaseTimeline: string,
    sellingCurrentHome: string)

  datatype Started = Started(state: State, request: Option<SignUpRequest>)

  /** `handleFinalSubmit` up to the `signUp` call: the questions are marked
      touched, checked in order against the marks of the render the handler
      belongs to, and only when they pass is the loading flag set and the
      sign-up requested. */
  function StartFinalSubmit(s: State): (r: Started)
    ensures r.state.touched == s.touched + set f | f in QuestionFields
    ensures r.request.Some? <==> ValidateAll(QuestionFields, s.form, s.answers, s.touched, s.errors).valid
    ensures r.request.Some? ==> r.state.loading && r.state.errors == s.errors
    ensures r.request.None? ==> r.state.loading == s.loading
    ensures r.request.None? ==> r.state.errors == ValidateAll(QuestionFields, s.form, s.answers, s.touched, s.errors).errors
    ensures r.request.Some? ==>
      && r.request.value.email == s.form.email && r.request.value.password == s.form.password
      && r.request.value.firstName == s.form.firstName && r.request.value.lastName == s.form.lastName
      && r.request.value.phoneNumber == s.form.phoneNumber
      && (r.request.value.isFirstTimeBuyer <==> s.answers.isFirstTimeBuyer == "yes")
      && r.request.value.purchaseTimeline == s.answers.purchaseTimeline
      && r.request.value.sellingCurrentHome == s.answers.sellingCurrentHome
    ensures r.state.step == s.step && r.state.form == s.form && r.state.answers == s.answers
  {
    var touched := s.touched + set f | f in QuestionFields;
    var c := ValidateAll(QuestionFields, s.form, s.answers, s.touched, s.errors);
    if !c.valid then Started(s.(touched := touched, errors := c.errors), None)
    else
      var request := SignUpRequest(s.form.email, s.form.password, s.form.firstName, s.form.lastName,
        s.form.phoneNumber, s.answers.isFirstTimeBuyer == "yes", s.answers.purchaseTimeline,
        s.answers.sellingCurrentHome);
      Started(s.(touched := touched, loading := true), Some(request))
  }

  /** What the awaited `signUp` gave: success, an error it returned (an
      `AuthError`, read by its message), or a value it threw. */
  datatype SignUpOutcome = SignedUp | Refused(message: string) | Threw(thrown: Thrown)

  /** What the user is told besides the form: nothing, or an error toast. */
  datatype Notice = Silent | ErrorToast(description: string)

  /** A returned error's message naming an account that already exists. */
  predicate AlreadyTaken(message: string) {
    var lower := ToLower(message);
    || Contains(lower, "already registered")
    || Contains(lower, "already in use")
    || Contains(lower, "already exists")
    || Contains(lower, "user already exists")
  }

  /** The `catch` block, given the message of what was thrown. */
  function Caught(s: State, message: string): (r: (State, Notice))
    ensures !r.0.loading
    ensures r.0.step == AccountStep || r.0 == s.(loading := false)
    ensures r.1.ErrorToast? ==> r == (s.(loading := false), ErrorToast(message))
    ensures r.1.Silent? ==> r.0.step == AccountStep && (Email in r.0.errors || Password in r.0.errors)
    ensures Contains(ToLower(message), "already registered") ==>
      r == (s.(step := AccountStep, errors := s.errors[Email := RegisteredMessage], loading := false), Silent)
    ensures !Contains(ToLower(message), "already registered") && Contains(ToLower(message), "password") ==>
      r == (s.(step := AccountStep, errors := s.errors[Password := WeakPasswordMessage], loading := false), Silent)
    ensures !Contains(ToLower(message), "already registered") && !Contains(ToLower(message), "password") ==>
      r.1 == ErrorToast(message)
    ensures r.0.form == s.form && r.0.answers == s.answers && r.0.touched == s.touched
  {
    var lower := ToLower(message);
    if Contains(lower, "already registered") then
      (s.(step := AccountStep, errors := s.errors[Email := RegisteredMessage], loading := false), Silent)
    else if Contains(lower, "password") then
      (s.(step := AccountStep, errors := s.errors[Password := WeakPasswordMessage], loading := false), Silent)
    else (s.(loading := false), ErrorToast(message))
  }

  /** `handleFinalSubmit` after `signUp` settled. Success moves to the last
      step; an "already taken" error returns to the account step with an
      email error; anything else is thrown to the `catch` block, which
      sends "already registered" to the email field, anything mentioning
      "password" to the password field, and the rest to a toast. */
  function CompleteFinalSubmit(s: State, outcome: SignUpOutcome): (r: (State, Notice))
    ensures !r.0.loading
    ensures outcome.SignedUp? ==> r.0.step == SuccessStep
    ensures r.0.step == SuccessStep && s.step != SuccessStep ==> outcome.SignedUp?
    ensures outcome.Refused? && AlreadyTaken(outcome.message) ==>
      r == (s.(step := AccountStep, errors := s.errors[Email := RegisteredMessage], loading := false), Silent)
    ensures r.1.ErrorToast? ==>
      && r.0 == s.(loading := false)
      && !outcome.SignedUp?
      && r.1.description == CaughtMessage(outcome)
    ensures !outcome.SignedUp? && r.1.Silent? ==>
      r.0.step == AccountStep && (Email in r.0.errors || Password in r.0.errors)
    ensures (outcome.Threw? || (outcome.Refused? && !AlreadyTaken(outcome.message))) ==>
      var m := CaughtMessage(outcome);
      && (Contains(ToLower(m), "already registered") ==>
            r == (s.(step := AccountStep, errors := s.errors[Email := RegisteredMessage], loading := false), Silent))
      && (!Contains(ToLower(m), "already registered") && Contains(ToLower(m), "password") ==>
            r == (s.(step := AccountStep, errors := s.errors[Password := WeakPasswordMessage], loading := false), Silent))
      && (!Contains(ToLower(m), "already registered") && !Contains(ToLower(m), "password") ==>
            r == (s.(loading := false), ErrorToast(m)))
    ensures r.0.form == s.form && r.0.answers == s.answers && r.0.touched == s.touched
  {
    match outcome
    case SignedUp => (s.(step := SuccessStep, loading := false), Silent)
    case Refused(message) =>
      if AlreadyTaken(message) then
        (s.(step := AccountStep, errors := s.errors[Email := RegisteredMessage], loading := false), Silent)
      else Caught(s, message)
    case Threw(thrown) => Caught(s, MessageOf(thrown, "An unexpected error occurred"))
  }

  /** The message the `catch` block reads: a returned error is rethrown
      as it is, and a thrown value that is not an `Error` reads as "An
      unexpected error occurred". */
  function CaughtMessage(outcome: SignUpOutcome): string
    requires !outcome.SignedUp?
  {
    if outcome.Refused? then outcome.message else MessageOf(outcome.thrown, "An unexpected error occurred")
  }

  /** A returned error that does not name a taken account is rethrown, so
      it is treated exactly as the same error thrown by the call. */
  lemma RethrownLikeThrown(s: State, message: string, name: string, stack: string)
    requires !AlreadyTaken(message)
    ensures CompleteFinalSubmit(s, Refused(message)) == CompleteFinalSubmit(s, Threw(ErrorValue(name, message, stack)))
  {
  }

  /** A returned error and a thrown one are told apart: "already in use"
      sends a returned error back to the email field, but a thrown one with
      the same message, mentioning neither "already registered" nor
      "password", ends in a toast. */
  lemma ReturnedAndThrownDiffer(s: State, message: string, name: string, stack: string)
    requires Contains(ToLower(message), "already in use")
    requires !Contains(ToLower(message), "already registered") && !Contains(ToLower(message), "password")
    ensures CompleteFinalSubmit(s, Refused(message)).0.errors[Email] == RegisteredMessage
    ensures CompleteFinalSubmit(s, Threw(ErrorValue(name, message, stack))).1 == ErrorToast(message)
  {
  }

  /** The fourth "already taken" test adds nothing: a message containing
      "user already exists" contains "already exists". */
  lemma UserAlreadyExistsSubsumed(message: string)
    ensures Contains(ToLower(message), "user already exists") ==> Contains(ToLower(message), "already exists")
  {
    var lower := ToLower(message);
    if Contains(lower, "user already exists") {
      var i :| 0 <= i <= |lower| - 19 && OccursAt(lower, "user already exists", i);
      assert lower[i..i + 19] == "user already exists";
      assert lower[i + 5..i + 19] == lower[i..i + 19][5..];
      assert "user already exists"[5..] == "already exists";
      assert OccursAt(lower, "already exists", i + 5);
    }
  }

  /** `handleBackToAccount`. */
  function BackToAccount(s: State): (r: State)
    ensures r.step == AccountStep && r == s.(step := r.step)
  {
    s.(step := AccountStep)
  }

  /** `resetModal` (run when the dialog closes): the account step, empty
      fields, no errors, nothing touched, not loading. */
  function ResetModal(s: State): (r: State)
    ensures r.step == AccountStep && !r.loading
    ensures forall f :: f != TermsAccepted ==> ValueOf(r.form, r.answers, f) == Text("")
    ensures !r.form.termsAccepted
    ensures r.errors == map[] && r.touched == {}
  {
    Initial
  }

  /** Right after a reset no field is touched, so validation passes whatever
      is typed first. */
  lemma ResetThenNothingTouched(s: State, f: Field, v: Value)
    ensures ValidateField(f, v, ResetModal(s).touched, ResetModal(s).form, ResetModal(s).errors) == Checked(true, map[])
  {
  }
}

=== FILE: crmls_service.dfy ===
/**
  The browser-side MLS client (src/lib/services/crmls.ts). It talks only to
  the app's two proxy endpoints. The singleton's mutable token cache is the
  value `TokenCache`, threaded through explicitly; each proxy call is the
  parameter `call`, and the clock reading is `now`, in milliseconds.
 */
module CrmlsService {
  import opened Js
  import opened Strings
  import opened Crmls
  import opened Http

  /** What an awaited service call yields: its value, or what it threw. */
  datatype Result<T> = Ok(value: T) | Err(error: Thrown)

  /** The cached access token and its expiry time. */
  datatype TokenCache = TokenCache(accessToken: Option<string>, tokenExpiry: Option<int>)

  const NoToken := TokenCache(None, None)

  /** Five minutes, in milliseconds: a token this close to expiry is renewed. */
  const RenewBefore := 5 * 60 * 1000

  /** `isTokenValid`: a token is held and does not expire within five minutes. */
  predicate IsTokenValid(cache: TokenCache, now: int) {
    TruthyStr(cache.accessToken) && cache.tokenExpiry.Some? && now < cache.tokenExpiry.value - RenewBefore
  }

  /** The message thrown for an error object:
      `raw_error || message || error || fallback`. */
  function ErrorMessage(e: ErrorBody, fallback: string): (r: string)
    ensures TruthyStr(e.rawError) ==> r == e.rawError.value
    ensures !TruthyStr(e.rawError) && TruthyStr(e.message) ==> r == e.message.value
    ensures !TruthyStr(e.rawError) && !TruthyStr(e.message) && TruthyStr(e.error) ==> r == e.error.value
    ensures !TruthyStr(e.rawError) && !TruthyStr(e.message) && !TruthyStr(e.error) ==> r == fallback
  {
    OrStr(e.rawError, OrStr(e.message, OrStr(e.error, fallback)))
  }

  /** The error object a non-ok proxy response stands for: its parsed body,
      or `{error: fallbackError, message: "HTTP status: text"}` when the body
      is not JSON. */
  function ErrorObject<T>(response: Response<T>, fallbackError: string): ErrorBody {
    match response.errorJson
    case Parsed(e) => e
    case Unparseable(_) => ErrorBody(Some(fallbackError), Some(StatusLine(response.status, response.statusText)), None)
  }

  // ----- authenticate -------------------------------------------------------

  datatype Authenticated = Authenticated(result: Result<string>, cache: TokenCache, requested: bool)

  /** `authenticate()`: a valid cached token is returned without a request;
      otherwise a token is requested from the proxy and cached with its
      expiry, and any failure empties the cache and propagates. */
  function Authenticate(cache: TokenCache, now: int, call: Fetched<Nullable<TokenResponse>>): (r: Authenticated)
    ensures IsTokenValid(cache, now) ==> r == Authenticated(Ok(cache.accessToken.value), cache, false)
    ensures !IsTokenValid(cache, now) ==> r.requested
    ensures r.result.Ok? ==> r.result.value != "" && r.cache.accessToken == Some(r.result.value)
    ensures r.requested && r.result.Ok? ==> r.cache.tokenExpiry.Some?
    ensures r.result.Err? ==> r.cache == NoToken
  {
    if IsTokenValid(cache, now) then Authenticated(Ok(cache.accessToken.value), cache, false)
    else match RequestToken(call, now)
      case Ok(got) => Authenticated(Ok(got.accessToken.value), got, true)
      case Err(e) => Authenticated(Err(e), NoToken, true)
  }

  /** The token request: the new cache contents, or what is thrown. */
  function RequestToken(call: Fetched<Nullable<TokenResponse>>, now: int): (r: Result<TokenCache>)
    ensures r.Ok? ==> TruthyStr(r.value.accessToken) && r.value.tokenExpiry.Some?
    ensures call.Threw? ==> r == Err(call.error)
    ensures (call.Responded? && !IsOk(call.response.status)) ==>
      r == Err(NewError(ErrorMessage(ErrorObject(call.response, "Authentication failed"), "Authentication failed")))
    ensures r.Ok? <==>
      && call.Responded? && IsOk(call.response.status)
      && call.response.json.Parsed? && call.response.json.value.NonNull?
      && TruthyStr(call.response.json.value.value.accessToken)
    ensures r.Ok? ==>
      var token := call.response.json.value.value;
      r.value == TokenCache(token.accessToken, Some(now + OrInt(token.expiresIn, 3600) * 1000))
  {
    match call
    case Threw(e) => Err(e)
    case Responded(response) =>
      if !IsOk(response.status) then
        Err(NewError(ErrorMessage(ErrorObject(response, "Authentication failed"), "Authentication failed")))
      else match response.json
        case Unparseable(_) => Err(NewError("Failed to parse token response: " + response.text))
        case Parsed(Null) => Err(NullRead("token_type"))
        case Parsed(NonNull(token)) =>
          if !TruthyStr(token.accessToken) then Err(NewError("No access token received from CRMLS API"))
          else Ok(TokenCache(token.accessToken, Some(now + OrInt(token.expiresIn, 3600) * 1000)))
  }

  /** A freshly fetched token whose lifetime (default one hour) exceeds the
      five-minute margin is reused, without a request, by every later call
      before its expiry minus five minutes. */
  lemma FreshTokenReused(cache: TokenCache, now: int, call: Fetched<Nullable<TokenResponse>>,
                         later: int, call2: Fetched<Nullable<TokenResponse>>)
    requires Authenticate(cache, now, call).requested && Authenticate(cache, now, call).result.Ok?
    requires var lifetime := OrInt(call.response.json.value.value.expiresIn, 3600);
      now <= later < now + lifetime * 1000 - RenewBefore
    ensures var a := Authenticate(cache, now, call);
      Authenticate(a.cache, later, call2) == Authenticated(a.result, a.cache, false)
  {
  }

  /** A token that lives five minutes or less is never reused: the next call
      at the same time requests a new one. */
  lemma ShortLivedTokenNotReused(cache: TokenCache, now: int, call: Fetched<Nullable<TokenResponse>>,
                                 call2: Fetched<Nullable<TokenResponse>>)
    requires Authenticate(cache, now, call).requested && Authenticate(cache, now, call).result.Ok?
    requires OrInt(call.response.json.value.value.expiresIn, 3600) <= 300
    ensures Authenticate(Authenticate(cache, now, call).cache, now, call2).requested
  {
  }

  /** `clearAuth()`: forget the token; the next authentication requests one. */
  function ClearAuth(cache: TokenCache): (r: TokenCache)
    ensures forall now :: !IsTokenValid(r, now)
    ensures r.accessToken.None? && r.tokenExpiry.None?
  {
    NoToken
  }

  // ----- getListings --------------------------------------------------------

  /** The defaults `getListings` sends: page 1 of 12, by list price, descending. */
  const ListingDefaults :=
    NoParams.(page := Some(1), perPage := Some(12), sortBy := Some("list_price"), sortOrder := Some("desc"))

  /** The parameters `getListings(params)` posts: the defaults, each overridden
      by the caller's value when given. */
  function ListingsRequest(params: SearchParams): (r: SearchParams)
    ensures r.page == Some(Coalesce(params.page, 1)) && r.perPage == Some(Coalesce(params.perPage, 12))
    ensures r.sortBy == Some(Coalesce(params.sortBy, "list_price"))
    ensures r.sortOrder == Some(Coalesce(params.sortOrder, "desc"))
    ensures r.(page := None, perPage := None, sortBy := None, sortOrder := None)
         == params.(page := None, perPage := None, sortBy := None, sortOrder := None)
  {
    Merge(ListingDefaults, params)
  }

  /** `getListings(params)` after the proxy answered with `call`: the parsed
      response when it carries data, otherwise the error it throws. */
  function GetListings(call: Fetched<Nullable<ListingsResponse>>): (r: Result<ListingsResponse>)
    ensures call.Threw? ==> r == Err(call.error)
    ensures (call.Responded? && !IsOk(call.response.status)) ==>
      r == Err(NewError(ErrorMessage(ErrorObject(call.response, "Listings fetch failed"), "Failed to fetch listings")))
    ensures r.Ok? <==>
      && call.Responded? && IsOk(call.response.status)
      && call.response.json.Parsed? && call.response.json.value.NonNull?
      && call.response.json.value.value.data.Some?
    ensures r.Ok? ==> r.value == call.response.json.value.value
  {
    match call
    case Threw(e) => Err(e)
    case Responded(response) =>
      if !IsOk(response.status) then
        Err(NewError(ErrorMessage(ErrorObject(response, "Listings fetch failed"), "Failed to fetch listings")))
      else match response.json
        case Unparseable(_) => Err(NewError("Failed to parse listings response: " + response.text))
        case Parsed(Null) => Err(NewError("Invalid response received from listings API"))
        case Parsed(NonNull(listings)) =>
          if listings.data.None? then Err(NewError("Invalid response received from listings API"))
          else Ok(listings)
  }

  /** An unparseable error page still yields a message naming the status. */
  lemma ListingsFailureNamesStatus(response: Response<Nullable<ListingsResponse>>)
    requires !IsOk(response.status) && response.errorJson.Unparseable?
    ensures GetListings(Responded(response)).error.message == StatusLine(response.status, response.statusText)
  {
  }

  // ----- getProperty ----------------------------------------------------------

  /** The body the property lookup reads: a `data` array (when present and an
      array) and the body itself read as a property (`id` "" when it has
      none). */
  datatype PropertyBody = PropertyBody(data: Option<seq<Property>>, self: Property)

  /** The proxy answered with an ok status and a non-null JSON body. */
  predicate OkBody(call: Fetched<Nullable<PropertyBody>>) {
    call.Responded? && IsOk(call.response.status) && call.response.json.Parsed? && call.response.json.value.NonNull?
  }

  /** The body of an ok, non-null answer. */
  function BodyOf(call: Fetched<Nullable<PropertyBody>>): PropertyBody
    requires OkBody(call)
  {
    call.response.json.value.value
  }

  /** The body's `data` holds at least one listing. */
  predicate HasFirst(b: PropertyBody) {
    b.data.Some? && |b.data.value| > 0
  }

  /** `getProperty(id)` as written, after the proxy answered with `call`:
      the first element of `data`, else the body itself when it has an id.
      The id asked for plays no part in choosing the result. */
  function GetPropertyAsWritten(id: string, call: Fetched<Nullable<PropertyBody>>): (r: Result<Property>)
    ensures call.Threw? ==> r == Err(call.error)
    ensures (call.Responded? && !IsOk(call.response.status)) ==>
      r == Err(NewError("Failed to fetch property: " + call.response.statusText))
    ensures (call.Responded? && IsOk(call.response.status) && call.response.json.Unparseable?) ==>
      r == Err(call.response.json.error)
    ensures (call.Responded? && IsOk(call.response.status) && call.response.json == Parsed(Null)) ==>
      r == Err(NullRead("data"))
    ensures OkBody(call) && HasFirst(BodyOf(call)) ==> r == Ok(BodyOf(call).data.value[0])
    ensures OkBody(call) && !HasFirst(BodyOf(call)) && BodyOf(call).self.id != "" ==> r == Ok(BodyOf(call).self)
    ensures OkBody(call) && !HasFirst(BodyOf(call)) && BodyOf(call).self.id == "" ==>
      r == Err(NewError("Property not found"))
  {
    match call
    case Threw(e) => Err(e)
    case Responded(response) =>
      if !IsOk(response.status) then Err(NewError("Failed to fetch property: " + response.statusText))
      else match response.json
        case Unparseable(e) => Err(e)
        case Parsed(Null) => Err(NullRead("data"))
        case Parsed(NonNull(b)) =>
          if b.data.Some? && |b.data.value| > 0 then Ok(b.data.value[0])
          else if b.self.id != "" then Ok(b.self)
          else Err(NewError("Property not found"))
  }

  /** As written, the lookup's answer does not depend on the id asked for:
      two different ids get the same property back. */
  lemma GetPropertyAsWrittenIgnoresId(id1: string, id2: string, call: Fetched<Nullable<PropertyBody>>)
    ensures GetPropertyAsWritten(id1, call) == GetPropertyAsWritten(id2, call)
  {
  }

  /** The first element of `ps` with id `id`. */
  function FindById(ps: seq<Property>, id: string): (r: Option<Property>)
    ensures r.Some? ==> r.value in ps && r.value.id == id
    ensures r.None? ==> forall i :: 0 <= i < |ps| ==> ps[i].id != id
  {
    if ps == [] then None
    else if ps[0].id == id then Some(ps[0])
    else FindById(ps[1..], id)
  }

  /** Some listing of the body's `data` carries `id`. */
  predicate Listed(b: PropertyBody, id: string) {
    b.data.Some? && exists i :: 0 <= i < |b.data.value| && b.data.value[i].id == id
  }

  /** `getProperty(id)` as intended: the property in the answer whose id is
      `id`; "Property not found" when there is none. */
  function GetProperty(id: string, call: Fetched<Nullable<PropertyBody>>): (r: Result<Property>)
    ensures r.Ok? ==> r.value.id == id
    ensures call.Threw? ==> r == Err(call.error)
    ensures (call.Responded? && !IsOk(call.response.status)) ==>
      r == Err(NewError("Failed to fetch property: " + call.response.statusText))
    ensures (call.Responded? && IsOk(call.response.status) && call.response.json.Unparseable?) ==>
      r == Err(call.response.json.error)
    ensures (call.Responded? && IsOk(call.response.status) && call.response.json == Parsed(Null)) ==>
      r == Err(NullRead("data"))
    ensures r.Ok? ==> OkBody(call) && ((BodyOf(call).data.Some? && r.value in BodyOf(call).data.value)
                                       || r.value == BodyOf(call).self)
    ensures OkBody(call) && (Listed(BodyOf(call), id) || (BodyOf(call).self.id != "" && BodyOf(call).self.id == id)) ==> r.Ok?
    ensures OkBody(call) && !Listed(BodyOf(call), id) && (BodyOf(call).self.id == "" || BodyOf(call).self.id != id) ==>
      r == Err(NewError("Property not found"))
  {
    match call
    case Threw(e) => Err(e)
    case Responded(response) =>
      if !IsOk(response.status) then Err(NewError("Failed to fetch property: " + response.statusText))
      else match response.json
        case Unparseable(e) => Err(e)
        case Parsed(Null) => Err(NullRead("data"))
        case Parsed(NonNull(b)) =>
          var found := if b.data.Some? then FindById(b.data.value, id) else None;
          if found.Some? then Ok(found.value)
          else if b.self.id != "" && b.self.id == id then Ok(b.self)
          else Err(NewError("Property not found"))
  }

  /** Where the answer already is the one property asked for, the corrected
      lookup agrees with the code as written. */
  lemma GetPropertyAgreesOnSingleMatch(id: string, call: Fetched<Nullable<PropertyBody>>)
    requires call.Responded? && call.response.json.Parsed? && call.response.json.value.NonNull?
    requires var b := call.response.json.value.value;
      b.data.Some? && |b.data.value| > 0 && b.data.value[0].id == id
    ensures GetProperty(id, call) == GetPropertyAsWritten(id, call)
  {
  }

  // ----- testConnection -------------------------------------------------------

  /** `testConnection()`: whether the token endpoint answered with an ok
      status; a thrown request counts as failure. */
  function TestConnection<T>(call: Fetched<T>): (connected: bool)
    ensures call.Threw? ==> !connected
    ensures call.Responded? && IsOk(call.response.status) ==> connected
    ensures call.Responded? && (call.response.status < 200 || call.response.status > 299) ==> !connected
  {
    call.Responded? && IsOk(call.response.status)
  }
}

=== FILE: crmls_types.dfy ===
/**
  Record shapes of the MLS data (src/types/crmls.ts): listings, their
  address and images, search parameters, listing responses, token
  responses and error bodies. Optional properties are `Option`s; only the
  fields some modelled operation reads are kept.
 */
module Crmls {
  import opened Js

  datatype Address = Address(city: Option<string>, state: Option<string>)

  datatype Image = Image(url: string)

  /** `CRMLSProperty`, restricted to the fields the store, the grid and the
      proxy read. */
  datatype Property = Property(
    id: string,
    listPrice: Option<int>,
    propertyType: Option<string>,
    propertySubtype: Option<string>,
    address: Option<Address>,
    livingArea: Option<int>,
    listingStatus: Option<string>,
    propertyImages: Option<seq<string>>,
    images: Option<seq<Image>>)

  /** `CRMLSSearchParams`: every key optional. */
  datatype SearchParams = SearchParams(
    city: Option<string>,
    state: Option<string>,
    postalCode: Option<string>,
    minPrice: Option<int>,
    maxPrice: Option<int>,
    minBedrooms: Option<int>,
    maxBedrooms: Option<int>,
    minBathrooms: Option<int>,
    maxBathrooms: Option<int>,
    propertyType: Option<string>,
    listingStatus: Option<string>,
    minSqft: Option<int>,
    maxSqft: Option<int>,
    page: Option<int>,
    perPage: Option<int>,
    sortBy: Option<string>,
    sortOrder: Option<string>)

  /** `{}`. */
  const NoParams := SearchParams(None, None, None, None, None, None, None, None, None,
                                 None, None, None, None, None, None, None, None)

  /** One key of `{...base, ...over}`: the later object's key wins when present. */
  function Pick<T>(base: Option<T>, over: Option<T>): Option<T> {
    if over.Some? then over else base
  }

  /** `{...base, ...over}` on search parameters. */
  function Merge(base: SearchParams, over: SearchParams): (r: SearchParams)
    ensures r.page == Pick(base.page, over.page) && r.perPage == Pick(base.perPage, over.perPage)
    ensures r.sortBy == Pick(base.sortBy, over.sortBy) && r.sortOrder == Pick(base.sortOrder, over.sortOrder)
    ensures r.city == Pick(base.city, over.city) && r.state == Pick(base.state, over.state)
    ensures r.postalCode == Pick(base.postalCode, over.postalCode)
    ensures r.minPrice == Pick(base.minPrice, over.minPrice) && r.maxPrice == Pick(base.maxPrice, over.maxPrice)
    ensures r.minBedrooms == Pick(base.minBedrooms, over.minBedrooms)
    ensures r.maxBedrooms == Pick(base.maxBedrooms, over.maxBedrooms)
    ensures r.minBathrooms == Pick(base.minBathrooms, over.minBathrooms)
    ensures r.maxBathrooms == Pick(base.maxBathrooms, over.maxBathrooms)
    ensures r.propertyType == Pick(base.propertyType, over.propertyType)
    ensures r.listingStatus == Pick(base.listingStatus, over.listingStatus)
    ensures r.minSqft == Pick(base.minSqft, over.minSqft) && r.maxSqft == Pick(base.maxSqft, over.maxSqft)
  {
    SearchParams(
      Pick(base.city, over.city),
      Pick(base.state, over.state),
      Pick(base.postalCode, over.postalCode),
      Pick(base.minPrice, over.minPrice),
      Pick(base.maxPrice, over.maxPrice),
      Pick(base.minBedrooms, over.minBedrooms),
      Pick(base.maxBedrooms, over.maxBedrooms),
      Pick(base.minBathrooms, over.minBathrooms),
      Pick(base.maxBathrooms, over.maxBathrooms),
      Pick(base.propertyType, over.propertyType),
      Pick(base.listingStatus, over.listingStatus),
      Pick(base.minSqft, over.minSqft),
      Pick(base.maxSqft, over.maxSqft),
      Pick(base.page, over.page),
      Pick(base.perPage, over.perPage),
      Pick(base.sortBy, over.sortBy),
      Pick(base.sortOrder, over.sortOrder))
  }

  /** Spreading `{}` on either side changes nothing, spreading the same
      parameters twice is spreading them once, and spreads associate. */
  lemma MergeLaws(a: SearchParams, b: SearchParams, c: SearchParams)
    ensures Merge(a, NoParams) == a && Merge(NoParams, a) == a
    ensures Merge(Merge(a, b), b) == Merge(a, b)
    ensures Merge(Merge(a, b), c) == Merge(a, Merge(b, c))
  {
    MergeIdentity(a);
    MergeIdempotent(a, b);
    MergeAssociative(a, b, c);
  }

  lemma MergeIdentity(a: SearchParams)
    ensures Merge(a, NoParams) == a && Merge(NoParams, a) == a
  {
  }

  lemma MergeIdempotent(a: SearchParams, b: SearchParams)
    ensures Merge(Merge(a, b), b) == Merge(a, b)
  {
  }

  lemma MergeAssociative(a: SearchParams, b: SearchParams, c: SearchParams)
    ensures Merge(Merge(a, b), c) == Merge(a, Merge(b, c))
  {
  }

  /** `CRMLSListingsResponse` as the browser receives it. */
  datatype ListingsResponse = ListingsResponse(
    data: Option<seq<Property>>,
    total: Option<int>,
    page: Option<int>,
    perPage: Option<int>,
    hasMore: Option<bool>)

  /** `CRMLSErrorResponse`: the fields the code reads or writes. */
  datatype ErrorBody = ErrorBody(error: Option<string>, message: Option<string>, rawError: Option<string>)

  /** `CRMLSTokenResponse`. */
  datatype TokenResponse = TokenResponse(
    accessToken: Option<string>,
    tokenType: Option<string>,
    expiresIn: Option<int>,
    scope: Option<string>)
}

=== FILE: end_to_end.dfy ===
/**
  The property-detail path from browser to MLS and back: the service's
  `getProperty(id)` (src/lib/services/crmls.ts) sends a GET with `?id=` to
  the listings proxy (api/crmls/listings.ts), and the store's
  `fetchProperty(id)` (src/lib/store/listings.ts) files what comes back.
 */
module EndToEnd {
  import opened Js
  import opened Crmls
  import opened Http
  import opened ListingsHandler
  import opened CrmlsService
  import opened ListingsStore
  import TokenHandler

  /** How the lookup reads a page object: `data` is its array, and the page
      itself has no `id`. */
  const PageHasNoId := Property("", None, None, None, None, None, None, None, None)

  /** The proxy's reply as the browser's lookup sees it. */
  function Seen(reply: Reply, statusText: string, text: string): (r: Fetched<Nullable<PropertyBody>>)
    ensures r.Responded? && r.response.status == reply.status
    ensures reply.body.PageReply? ==>
      r.response.json == Parsed(NonNull(PropertyBody(Some(reply.body.page.data), PageHasNoId)))
  {
    var json := match reply.body {
      case PageReply(page) => Parsed(NonNull(PropertyBody(Some(page.data), PageHasNoId)))
      case _ => Parsed(NonNull(PropertyBody(None, PageHasNoId)))
    };
    Responded(Response(reply.status, statusText, text, json, Unparseable(NewError("no error body"))))
  }

  /** As written, asking for property `id` returns whichever listing the MLS
      put first on its page, whatever its id: the proxy ignores `id`, and the
      lookup takes `data[0]`. The corrected lookup refuses that answer. */
  lemma PropertyLookupReturnsOtherListing(env: Env, tokenCall: Fetched<Nullable<TokenResponse>>,
                                          id: string, p: Property, text: string)
    requires HasCredentials(env) && TokenStep(tokenCall).None?
    requires p.id != id
    ensures var upstream := Responded(Response(200, "OK", text, Parsed(BareArray([p])), Unparseable(NewError("none"))));
      var reply := HandleListings(Get, env, map["id" := Text(id)], None, tokenCall, upstream);
      && reply.status == 200
      && GetPropertyAsWritten(id, Seen(reply, "OK", text)) == Ok(p)
      && GetPropertyAsWritten(id, Seen(reply, "OK", text)).value.id != id
      && GetProperty(id, Seen(reply, "OK", text)).Err?
  {
    var upstream := Responded(Response(200, "OK", text, Parsed(BareArray([p])), Unparseable(NewError("none"))));
    var query := map["id" := Text(id)];
    BareArrayIsOnePage(query, [p], upstream.response);
    GetReply(env, query, tokenCall, upstream);
    var reply := HandleListings(Get, env, query, None, tokenCall, upstream);
    assert reply == FetchPage(query, upstream);
    assert reply.body.page.data == [p];
    LookupOfOneListingPage(id, p, reply, text);
  }

  /** Both lookups on a 200 page that holds just `p`, another listing. */
  lemma LookupOfOneListingPage(id: string, p: Property, reply: Reply, text: string)
    requires reply.status == 200 && reply.body.PageReply? && reply.body.page.data == [p]
    requires p.id != id
    ensures GetPropertyAsWritten(id, Seen(reply, "OK", text)) == Ok(p)
    ensures GetProperty(id, Seen(reply, "OK", text)).Err?
  {
  }

  /** `fetchProperty(id)` with the corrected lookup: the property returned
      is the one asked for, and it replaces the listings with that id. */
  function FetchProperty(s: State, id: string, call: Fetched<Nullable<PropertyBody>>): (r: (State, Option<Property>))
    ensures r.1.Some? ==> r.1.value.id == id
    ensures r.1.Some? ==> |r.0.listings| == |s.listings| && forall i :: 0 <= i < |s.listings| ==>
      r.0.listings[i] == (if s.listings[i].id == id then r.1.value else s.listings[i])
    ensures r.1.None? ==> r.0 == s.(error := r.0.error) && r.0.error.Some?
  {
    match GetProperty(id, call)
    case Ok(p) => CompleteFetchProperty(s, id, Success(p))
    case Err(e) => CompleteFetchProperty(s, id, Failure(e))
  }

  /** With the corrected lookup, fetching a property never changes which
      ids the list holds. */
  lemma FetchPropertyKeepsIds(s: State, id: string, call: Fetched<Nullable<PropertyBody>>)
    ensures var r := FetchProperty(s, id, call);
      |r.0.listings| == |s.listings| && forall i :: 0 <= i < |s.listings| ==> r.0.listings[i].id == s.listings[i].id
  {
  }

  /** The connection test posts to the token proxy: it reports success
      exactly when the proxy could obtain an access token, that is, when the
      credentials are configured and the MLS answered with an ok, readable
      token. Every refusal status the proxy sends is outside 200-299. */
  lemma ConnectionTestMeansToken(env: Env, upstream: Fetched<Nullable<TokenResponse>>,
                                 statusText: string, text: string)
    ensures var reply := TokenHandler.HandleToken(Post, env, upstream);
      TestConnection(Responded(Response(reply.status, statusText, text, Parsed(reply.body), Unparseable(NewError("not an error body")))))
      <==>
      && HasCredentials(env) && upstream.Responded?
      && IsOk(upstream.response.status)
      && upstream.response.json.Parsed? && upstream.response.json.value.NonNull?
      && TruthyStr(upstream.response.json.value.value.accessToken)
  {
    TokenHandler.TokenStatuses(Post, env, upstream);
    TokenHandler.TokenSuccessIff(Post, env, upstream);
  }
}

=== FILE: favorites_store.dfy ===
/**
  The favourites store (src/lib/store/favorites.ts): per-user sets of saved
  property ids, kept in an in-memory map, and the signed-in user's list as
  the store exposes it. A JS `Set` is a duplicate-free sequence in insertion
  order, which is what `Array.from` returns. The signed-in user comes from
  the auth store and is a parameter here.
 */
module FavoritesStore {
  import opened Js
  import Seqs

  datatype State = State(favorites: seq<string>, loading: bool, saved: map<string, seq<string>>)

  const Initial := State([], false, map[])

  /** `mockFavorites.get(userId) || new Set()`. */
  function SavedFor(s: State, userId: string): seq<string> {
    if userId in s.saved then s.saved[userId] else []
  }

  /** Every stored list and the exposed list are sets. */
  ghost predicate Valid(s: State) {
    && Seqs.NoDuplicates(s.favorites)
    && forall u :: u in s.saved ==> Seqs.NoDuplicates(s.saved[u])
  }

  /** `Set.delete` when `id` is present, `Set.add` (at the end) otherwise. */
  function Flip(ids: seq<string>, id: string): (r: seq<string>)
    ensures id in r <==> id !in ids
    ensures forall x :: x != id ==> (x in r <==> x in ids)
    ensures Seqs.NoDuplicates(ids) ==> Seqs.NoDuplicates(r)
  {
    if id in ids then Seqs.RemoveValue(ids, id)
    else
      assert forall x :: x in ids + [id] <==> x in ids || x == id;
      ids + [id]
  }

  /** `toggleFavorite(id)` for the signed-in user (none: nothing happens).
      The id joins or leaves that user's saved set, which becomes the
      exposed list; no other id and no other user's set changes. */
  function ToggleFavorite(s: State, user: Option<string>, id: string): (r: State)
    ensures user.None? ==> r == s
    ensures user.Some? ==>
      var u := user.value;
      && u in r.saved
      && r.favorites == r.saved[u]
      && (id in r.favorites <==> id !in SavedFor(s, u))
      && (forall x :: x != id ==> (x in r.favorites <==> x in SavedFor(s, u)))
      && (forall v :: v != u ==> SavedFor(r, v) == SavedFor(s, v))
      && r.loading == s.loading
    ensures user.Some? && id !in SavedFor(s, user.value) ==> r.favorites == SavedFor(s, user.value) + [id]
    ensures user.Some? && id in SavedFor(s, user.value) ==> r.favorites == Seqs.RemoveValue(SavedFor(s, user.value), id)
    ensures Valid(s) ==> Valid(r)
  {
    match user
    case None => s
    case Some(u) =>
      var next := Flip(SavedFor(s, u), id);
      s.(saved := s.saved[u := next], favorites := next)
  }

  /** `isFavorite(id)`. */
  predicate IsFavorite(s: State, id: string) {
    id in s.favorites
  }

  /** After a toggle the id is a favourite exactly when it was not saved
      before for that user. */
  lemma ToggleFlipsIsFavorite(s: State, user: string, id: string)
    ensures IsFavorite(ToggleFavorite(s, Some(user), id), id) <==> id !in SavedFor(s, user)
  {
  }

  /** Toggling the same id twice restores the user's saved set; when the id
      was not saved, the exact list is restored. (A saved id toggled twice
      moves to the end of the insertion order.) */
  lemma ToggleTwice(s: State, user: string, id: string)
    requires Valid(s)
    ensures var r := ToggleFavorite(ToggleFavorite(s, Some(user), id), Some(user), id);
      && (forall x :: x in r.favorites <==> x in SavedFor(s, user))
      && (id !in SavedFor(s, user) ==> r.favorites == SavedFor(s, user))
  {
    var before := SavedFor(s, user);
    if id !in before {
      RemoveAppended(before, id);
    }
  }

  /** Removing what was just appended to a list without it gives the list back. */
  lemma {:induction false} RemoveAppended(xs: seq<string>, id: string)
    requires id !in xs
    ensures Seqs.RemoveValue(xs + [id], id) == xs
  {
    if xs != [] {
      assert (xs + [id])[1..] == xs[1..] + [id];
      RemoveAppended(xs[1..], id);
      assert xs == [xs[0]] + xs[1..];
    }
  }

  /** `fetchFavorites()`: the signed-in user's saved set becomes the exposed
      list and loading ends; without a user nothing happens. */
  function FetchFavorites(s: State, user: Option<string>): (r: State)
    ensures user.None? ==> r == s
    ensures user.Some? ==> r == s.(favorites := SavedFor(s, user.value), loading := false)
    ensures Valid(s) ==> Valid(r)
  {
    match user
    case None => s
    case Some(u) => s.(favorites := SavedFor(s, u), loading := false)
  }

  /** Fetching right after a toggle by the same user shows what the toggle
      showed. */
  lemma FetchAfterToggle(s: State, user: string, id: string)
    ensures var t := ToggleFavorite(s, Some(user), id);
      FetchFavorites(t, Some(user)).favorites == t.favorites
  {
  }
}

=== FILE: http.dfy ===
/**
  HTTP shapes shared by the browser-side service and the two serverless
  handlers (api/crmls/token.ts, api/crmls/listings.ts): what an awaited
  `fetch` yields, the replies a handler sends, and how a handler turns a
  caught exception into a status.
 */
module Http {
  import opened Js
  import opened Strings
  import opened Crmls

  /** `response.ok`. */
  predicate IsOk(status: int) {
    200 <= status <= 299
  }

  /** A response as the code reads it: status line, body text and the body
      parsed as JSON, both as the payload the code expects and as an error
      object (the view the code takes when the status is not ok). */
  datatype Response<T> = Response(
    status: int,
    statusText: string,
    text: string,
    json: Parsed<T>,
    errorJson: Parsed<ErrorBody>)

  /** An awaited `fetch(...)` followed by reading the body: a response, or
      the value it rejected with (network failure, abort on timeout). */
  datatype Fetched<T> = Responded(response: Response<T>) | Threw(error: Thrown)

  datatype Method = Options | Get | Post | OtherMethod(name: string)

  /** `{error, message, raw_error}` with every key present. */
  function ErrorJson(error: string, message: string, rawError: string): ErrorBody {
    ErrorBody(Some(error), Some(message), Some(rawError))
  }

  /** The response-format a handler normalises a listings page to. */
  datatype Page = Page(
    data: seq<Property>,
    total: int,
    page: int,
    perPage: Num,
    totalPages: Num,
    hasMore: bool)

  /** A body a handler sends: none, an error object, the token data or a
      listings page. */
  datatype Body = NoBody | ErrorReply(err: ErrorBody) | TokenReply(token: TokenResponse) | PageReply(page: Page)

  datatype Reply = Reply(status: int, body: Body)

  /** The status a handler's `catch` gives an exception: a timeout abort is
      408, an `Error` mentioning "fetch" or "network" is 503, anything else
      500. */
  function ExceptionStatus(e: Thrown): (r: int)
    ensures e.ErrorValue? && e.name == "AbortError" ==> r == 408
    ensures (!(e.ErrorValue? && e.name == "AbortError") && e.ErrorValue?
             && (Contains(e.message, "fetch") || Contains(e.message, "network"))) ==> r == 503
    ensures (e.ErrorValue? && e.name != "AbortError"
             && !Contains(e.message, "fetch") && !Contains(e.message, "network")) ==> r == 500
    ensures e.NonError? ==> r == 500
    ensures r in {408, 503, 500}
  {
    if e.ErrorValue? && e.name == "AbortError" then 408
    else if e.ErrorValue? && (Contains(e.message, "fetch") || Contains(e.message, "network")) then 503
    else 500
  }

  /** The reply a handler's `catch` sends; `timeoutMessage` is the handler's
      wording of a timeout. */
  function ExceptionReply(e: Thrown, timeoutMessage: string): (r: Reply)
    ensures r.status == ExceptionStatus(e)
    ensures r.body.ErrorReply?
    ensures r.status == 408 ==> r.body.err == ErrorJson("Request timeout", timeoutMessage, e.message)
    ensures r.status == 503 ==>
      r.body.err == ErrorJson("Network error", "Unable to connect to CRMLS API - network issue", e.message)
    ensures r.status == 500 ==>
      r.body.err == ErrorJson("Internal server error", MessageOf(e, "Unknown error"),
                              if e.ErrorValue? then e.stack else e.shown)
  {
    match ExceptionStatus(e)
    case 408 => Reply(408, ErrorReply(ErrorJson("Request timeout", timeoutMessage, e.message)))
    case 503 => Reply(503, ErrorReply(ErrorJson("Network error", "Unable to connect to CRMLS API - network issue", e.message)))
    case _ =>
      var raw := match e { case ErrorValue(_, _, stack) => stack case NonError(shown) => shown };
      Reply(500, ErrorReply(ErrorJson("Internal server error", MessageOf(e, "Unknown error"), raw)))
  }

  /** Whatever the message says, an abort is reported as a timeout. */
  lemma AbortIsTimeout(message: string, stack: string)
    ensures ExceptionStatus(ErrorValue("AbortError", message, stack)) == 408
  {
  }

  /** A thrown value that is not an `Error` is always a plain 500. */
  lemma NonErrorIsInternal(shown: string, timeoutMessage: string)
    ensures ExceptionReply(NonError(shown), timeoutMessage)
         == Reply(500, ErrorReply(ErrorJson("Internal server error", "Unknown error", shown)))
  {
  }

  /** `HTTP ${status}: ${statusText}`. */
  function StatusLine(status: int, statusText: string): string {
    "HTTP " + ShowInt(status) + ": " + statusText
  }

  /** The configuration-error reply both handlers send when a credential is
      missing. */
  const MissingCredentials :=
    Reply(500, ErrorReply(ErrorJson("Server configuration error", "CRMLS credentials not configured",
      "Missing environment variables: VITE_CRMLS_CLIENT_ID or VITE_CRMLS_CLIENT_SECRET")))

  const MethodNotAllowed := Reply(405, ErrorReply(ErrorBody(Some("Method not allowed"), None, None)))

  /** The server's credentials, as read from the environment. */
  datatype Env = Env(clientId: Option<string>, clientSecret: Option<string>)

  predicate HasCredentials(env: Env) {
    TruthyStr(env.clientId) && TruthyStr(env.clientSecret)
  }
}

=== FILE: js.dfy ===
/**
  The JavaScript value shapes the model needs: optional (possibly absent)
  properties, the truthiness tests `x || d`, numbers that may be NaN, the
  result of `JSON.parse`, and values caught by `catch`.
 */
module Js {
  import opened Strings

  /** An optional property: `None` is an absent key or `undefined`. */
  datatype Option<T> = None | Some(value: T)

  /** A number that is either a finite integer or NaN/Infinity (both
      serialise to `null` in JSON). */
  datatype Num = Finite(n: int) | NonFinite

  /** The outcome of `JSON.parse` on a response text: the value, or the
      `SyntaxError` it threw. */
  datatype Parsed<T> = Parsed(value: T) | Unparseable(error: Thrown)

  /** A parsed JSON value that may be `null`. */
  datatype Nullable<T> = Null | NonNull(value: T)

  /** A value reaching a `catch` clause: an `Error` instance (name, message,
      stack) or any other thrown value (with its `String(...)` rendering). */
  datatype Thrown = ErrorValue(name: string, message: string, stack: string) | NonError(shown: string)

  /** An optional string is truthy iff it is present and non-empty. */
  predicate TruthyStr(o: Option<string>) {
    o.Some? && o.value != ""
  }

  /** An optional number is truthy iff it is present and not zero. */
  predicate TruthyInt(o: Option<int>) {
    o.Some? && o.value != 0
  }

  /** `o || d` for an optional string. */
  function OrStr(o: Option<string>, d: string): (r: string)
    ensures TruthyStr(o) ==> r == o.value
    ensures !TruthyStr(o) ==> r == d
  {
    if TruthyStr(o) then o.value else d
  }

  /** `o || d` for an optional number. */
  function OrInt(o: Option<int>, d: int): (r: int)
    ensures TruthyInt(o) ==> r == o.value
    ensures !TruthyInt(o) ==> r == d
  {
    if TruthyInt(o) then o.value else d
  }

  /** `a ?? b`: only an absent value falls back. */
  function Coalesce<T>(a: Option<T>, b: T): T {
    if a.Some? then a.value else b
  }

  /** The text after any leading white space. */
  function TrimStart(s: string): (r: string)
    ensures |r| <= |s| && r == s[|s| - |r|..]
    ensures r == [] || !IsSpace(r[0])
  {
    if s != [] && IsSpace(s[0]) then TrimStart(s[1..]) else s
  }

  /** The longest prefix of `s` made of decimal digits. */
  function LeadingDigits(s: string): (r: string)
    ensures AllDigits(r) && r <= s
    ensures |r| == |s| || !IsDigit(s[|r|])
  {
    if s != [] && IsDigit(s[0]) then [s[0]] + LeadingDigits(s[1..]) else []
  }

  /** `parseInt(s)` with radix 10: leading white space, an optional sign,
      then the longest run of digits; no digits gives NaN. */
  function ParseInt(s: string): Num {
    ParseSigned(TrimStart(s))
  }

  /** `parseInt` once leading white space is gone. */
  function ParseSigned(t: string): Num {
    var negative := t != [] && t[0] == '-';
    var rest := if t != [] && (t[0] == '-' || t[0] == '+') then t[1..] else t;
    var ds := LeadingDigits(rest);
    if ds == [] then NonFinite
    else Finite(if negative then -(DecimalValue(ds) as int) else DecimalValue(ds))
  }

  /** A digit string is read back whole by `LeadingDigits`. */
  lemma {:induction false} LeadingDigitsOfDigits(s: string)
    requires AllDigits(s)
    ensures LeadingDigits(s) == s
  {
    if s != [] {
      LeadingDigitsOfDigits(s[1..]);
    }
  }

  /** A non-empty string of digits parses to its decimal value. */
  lemma ParseIntOfDigits(s: string)
    requires s != [] && AllDigits(s)
    ensures ParseInt(s) == Finite(DecimalValue(s))
  {
    LeadingDigitsOfDigits(s);
    assert !IsSpace(s[0]);
    assert TrimStart(s) == s;
  }

  /** `parseInt(String(n)) === n`: rendering an integer and parsing it back
      is the identity. */
  lemma ParseIntShowInt(n: int)
    ensures ParseInt(ShowInt(n)) == Finite(n)
  {
    var m: nat := if n < 0 then -n else n;
    var d := ShowNat(m);
    LeadingDigitsOfDigits(d);
    DecimalValueOfShowNat(m);
    var s := ShowInt(n);
    assert !IsSpace(s[0]);
    assert TrimStart(s) == s;
    if n < 0 {
      assert s[1..] == d;
    }
  }

  /** The `TypeError` thrown by reading property `key` of `null`; the stack
      is reduced to its first line. */
  function NullRead(key: string): (t: Thrown)
    ensures t.ErrorValue? && t.name == "TypeError"
  {
    var message := "Cannot read properties of null (reading '" + key + "')";
    ErrorValue("TypeError", message, "TypeError: " + message)
  }

  /** `new Error(message)`; the stack is reduced to its first line. */
  function NewError(message: string): (t: Thrown)
    ensures t.ErrorValue? && t.message == message
  {
    ErrorValue("Error", message, "Error: " + message)
  }

  /** The message a caught value shows: an `Error`'s message, or the fallback
      the caller supplies for any other thrown value. */
  function MessageOf(t: Thrown, fallback: string): (r: string)
    ensures t.ErrorValue? ==> r == t.message
    ensures t.NonError? ==> r == fallback
  {
    match t
    case ErrorValue(_, m, _) => m
    case NonError(_) => fallback
  }
}

=== FILE: listings_handler.dfy ===
/**
  The listings proxy (api/crmls/listings.ts): a GET or POST obtains an access
  token, builds the search body from the query string (GET) or the JSON body
  (POST), asks the MLS for a page of properties, and normalises the three
  payload shapes the MLS may answer with into one page format. The two
  upstream calls are the parameters `tokenCall` and `listingsCall`; each is
  consulted only if the handler gets that far.
 */
module ListingsHandler {
  import opened Js
  import opened Strings
  import opened Crmls
  import opened Http

  const TimeoutMessage := "Request to CRMLS API timed out"

  // ----- Search body ------------------------------------------------------

  /** A request parameter: query-string values are strings, JSON-body values
      strings or numbers. */
  datatype ParamValue = Text(s: string) | Number(n: int)

  type Params = map<string, ParamValue>

  /** `value.toString()`. */
  function ToText(v: ParamValue): string {
    match v
    case Text(s) => s
    case Number(n) => ShowInt(n)
  }

  /** `params[key]?.toString()`. */
  function Lookup(params: Params, key: string): Option<string> {
    if key in params then Some(ToText(params[key])) else None
  }

  /** `params[key]` is truthy: present, and neither "" nor 0. */
  predicate Given(params: Params, key: string) {
    key in params && match params[key] { case Text(s) => s != "" case Number(n) => n != 0 }
  }

  /** The JSON body sent to the MLS properties endpoint. */
  datatype SearchBody = SearchBody(
    page: Num,
    perPage: Num,
    sortBy: string,
    sortOrder: string,
    minPrice: Option<Num>,
    maxPrice: Option<Num>,
    propertyType: Option<string>,
    city: Option<string>,
    state: Option<string>,
    bedrooms: Option<Num>,
    bathrooms: Option<Num>)

  /** `params[key]?.toString()` is truthy: present with a non-empty text
      (so a numeric 0, whose text is "0", counts). */
  predicate Stated(params: Params, key: string) {
    key in params && ToText(params[key]) != ""
  }

  /** A filter key copied only when given. */
  function NumberFilter(params: Params, key: string): Option<Num> {
    if Given(params, key) then Some(ParseInt(ToText(params[key]))) else None
  }

  function TextFilter(params: Params, key: string): Option<string> {
    if Given(params, key) then Some(ToText(params[key])) else None
  }

  /** `parseInt(params.per_page?.toString() || "12")`. */
  function PerPage(params: Params): Num {
    ParseInt(OrStr(Lookup(params, "per_page"), "12"))
  }

  /** The search body built from the request parameters: page, page size and
      sort with their defaults, then each filter only when it is given. */
  function BuildSearchBody(params: Params): (b: SearchBody)
    ensures Stated(params, "page") ==> b.page == ParseInt(ToText(params["page"]))
    ensures !Stated(params, "page") ==> b.page == ParseInt("1")
    ensures b.perPage == PerPage(params)
    ensures b.sortBy == if Stated(params, "sort_by") then ToText(params["sort_by"]) else "list_price"
    ensures b.sortOrder == if Stated(params, "sort_order") then ToText(params["sort_order"]) else "desc"
    ensures b.minPrice == if Given(params, "min_price") then Some(ParseInt(ToText(params["min_price"]))) else None
    ensures b.maxPrice == if Given(params, "max_price") then Some(ParseInt(ToText(params["max_price"]))) else None
    ensures b.propertyType == if Given(params, "property_type") then Some(ToText(params["property_type"])) else None
    ensures b.city == if Given(params, "city") then Some(ToText(params["city"])) else None
    ensures b.state == if Given(params, "state") then Some(ToText(params["state"])) else None
    ensures b.bedrooms == if Given(params, "bedrooms") then Some(ParseInt(ToText(params["bedrooms"]))) else None
    ensures b.bathrooms == if Given(params, "bathrooms") then Some(ParseInt(ToText(params["bathrooms"]))) else None
  {
    SearchBody(
      ParseInt(OrStr(Lookup(params, "page"), "1")),
      PerPage(params),
      OrStr(Lookup(params, "sort_by"), "list_price"),
      OrStr(Lookup(params, "sort_order"), "desc"),
      NumberFilter(params, "min_price"),
      NumberFilter(params, "max_price"),
      TextFilter(params, "property_type"),
      TextFilter(params, "city"),
      TextFilter(params, "state"),
      NumberFilter(params, "bedrooms"),
      NumberFilter(params, "bathrooms"))
  }

  /** `parseInt("1")` and `parseInt("12")`. */
  lemma ParseDefaults()
    ensures ParseInt("1") == Finite(1) && ParseInt("12") == Finite(12)
  {
    ParseOne();
    ParseTwelve();
  }

  lemma ParseOne()
    ensures ParseInt("1") == Finite(1)
  {
    ParseIntShowInt(1);
    assert ShowInt(1) == "1";
  }

  lemma ParseTwelve()
    ensures ParseInt("12") == Finite(12)
  {
    ParseTwoDigits('1', '2');
  }

  /** Two digits parse to their two-place decimal value. */
  lemma ParseTwoDigits(a: char, b: char)
    requires IsDigit(a) && IsDigit(b)
    ensures ParseInt([a, b]) == Finite(DigitValue(a) * 10 + DigitValue(b))
  {
    var s := [a, b];
    assert AllDigits(s);
    assert DecimalValue(s) == DigitValue(a) * 10 + DigitValue(b) by {
      assert s[..1] == [a] && [a][..0] == [];
      assert DecimalValue([a]) == DigitValue(a);
    }
    ParseIntOfDigits(s);
  }

  /** With no parameters the MLS is asked for page 1 of 12, by list price,
      descending, unfiltered. */
  lemma SearchBodyDefaults()
    ensures BuildSearchBody(map[]) ==
      SearchBody(Finite(1), Finite(12), "list_price", "desc", None, None, None, None, None, None, None)
  {
    ParseDefaults();
  }

  /** A numeric page or page size in a JSON body reaches the MLS unchanged
      (even 0, whose text "0" is not empty and so takes no default). */
  lemma NumericParamsKept(params: Params, page: int, perPage: int)
    requires "page" in params && params["page"] == Number(page)
    requires "per_page" in params && params["per_page"] == Number(perPage)
    ensures BuildSearchBody(params).page == Finite(page)
    ensures BuildSearchBody(params).perPage == Finite(perPage)
  {
    ParseIntShowInt(page);
    ParseIntShowInt(perPage);
  }

  /** The search body reads no parameter but the nine it names: in
      particular an `id` parameter has no effect on it. */
  lemma SearchBodyIgnoresId(params: Params, v: ParamValue)
    ensures BuildSearchBody(params["id" := v]) == BuildSearchBody(params - {"id"})
  {
    var a := params["id" := v];
    var b := params - {"id"};
    KeyAgrees(a, b, "page");
    KeyAgrees(a, b, "per_page");
    KeyAgrees(a, b, "sort_by");
    KeyAgrees(a, b, "sort_order");
    KeyAgrees(a, b, "min_price");
    KeyAgrees(a, b, "max_price");
    KeyAgrees(a, b, "property_type");
    KeyAgrees(a, b, "city");
    KeyAgrees(a, b, "state");
    KeyAgrees(a, b, "bedrooms");
    KeyAgrees(a, b, "bathrooms");
  }

  /** Two parameter maps that agree on `key` give the same reading of it. */
  lemma KeyAgrees(a: Params, b: Params, key: string)
    requires key in a <==> key in b
    requires key in a ==> a[key] == b[key]
    ensures Lookup(a, key) == Lookup(b, key) && Given(a, key) == Given(b, key)
    ensures NumberFilter(a, key) == NumberFilter(b, key) && TextFilter(a, key) == TextFilter(b, key)
  {
  }

  // ----- Normalising the MLS payload ---------------------------------------

  /** What `JSON.parse` gave for the MLS listings payload: a bare array, an
      object with a `data` or `listings` array (`None` for a key that is
      absent or not an array), `null`, or some other JSON value. */
  datatype ListingsPayload =
    | BareArray(items: seq<Property>)
    | Wrapped(data: Option<seq<Property>>, listings: Option<seq<Property>>,
              total: Option<int>, page: Option<int>, hasMore: Option<bool>)
    | NullPayload
    | ScalarPayload

  datatype Listed = Listed(items: seq<Property>, total: int, page: int, hasMore: bool)

  /** The page a payload describes; `None` for an unrecognised shape. A
      `data` array is preferred to a `listings` array. */
  function Normalize(payload: ListingsPayload): (r: Option<Listed>)
    requires !payload.NullPayload?
    ensures r.None? <==> payload.ScalarPayload? || (payload.Wrapped? && payload.data.None? && payload.listings.None?)
    ensures payload.BareArray? ==> r == Some(Listed(payload.items, |payload.items|, 1, false))
    ensures payload.Wrapped? && payload.data.Some? ==> r.value.items == payload.data.value
    ensures payload.Wrapped? && payload.data.None? && payload.listings.Some? ==> r.value.items == payload.listings.value
    ensures r.Some? && payload.Wrapped? ==>
      && r.value.total == OrInt(payload.total, |r.value.items|)
      && r.value.page == OrInt(payload.page, 1)
      && r.value.hasMore == (payload.hasMore == Some(true))
  {
    match payload
    case BareArray(items) => Some(Listed(items, |items|, 1, false))
    case Wrapped(data, listings, total, page, hasMore) =>
      var items :=
        if data.Some? then data
        else listings;
      if items.None? then None
      else Some(Listed(items.value, OrInt(total, |items.value|), OrInt(page, 1), hasMore == Some(true)))
    case ScalarPayload => None
  }

  /** `Math.ceil(total / perPage)` for a non-zero divisor. */
  function CeilDiv(t: int, p: int): (r: int)
    requires p != 0
    ensures p > 0 ==> (r - 1) * p < t <= r * p
    ensures p < 0 ==> r * p <= t < (r - 1) * p
  {
    if p > 0 then CeilDivPositive(t, p)
    else
      var q := CeilDivPositive(-t, -p);
      assert (q - 1) * (-p) < -t <= q * (-p);
      assert (q - 1) * (-p) == -((q - 1) * p) && q * (-p) == -(q * p);
      q
  }

  /** The ceiling of `t / p` for a positive `p`. */
  function CeilDivPositive(t: int, p: int): (r: int)
    requires p > 0
    ensures (r - 1) * p < t <= r * p
  {
    var r := (t + p - 1) / p;
    var m := (t + p - 1) % p;
    assert t + p - 1 == r * p + m && 0 <= m < p;
    assert (r - 1) * p == r * p - p;
    r
  }

  /** `total_pages`: the page count, not a number when the page size is 0
      or not a number. */
  function TotalPages(total: int, perPage: Num): (r: Num)
    ensures r.Finite? <==> perPage.Finite? && perPage.n != 0
  {
    if perPage.Finite? && perPage.n != 0 then Finite(CeilDiv(total, perPage.n)) else NonFinite
  }

  /** With a positive page size, the pages hold all listings and the last
      page is not empty. */
  lemma TotalPagesCoverTotal(total: nat, perPage: int)
    requires perPage > 0
    ensures var pages := TotalPages(total, Finite(perPage)).n;
      && pages >= 0
      && (pages - 1) * perPage < total <= pages * perPage
  {
    var pages := CeilDiv(total, perPage);
  }

  // ----- The handler --------------------------------------------------------

  /** The parameters a request carries: the query string for a GET, the JSON
      body (or `{}`) otherwise. */
  function RequestParams(verb: Method, query: Params, body: Option<Params>): Params {
    if verb == Get then query else if body.Some? then body.value else map[]
  }

  /** The reply to a request with HTTP method `verb`. */
  function HandleListings(verb: Method, env: Env, query: Params, body: Option<Params>,
                          tokenCall: Fetched<Nullable<TokenResponse>>,
                          listingsCall: Fetched<ListingsPayload>): (r: Reply)
    ensures verb == Options ==> r == Reply(200, NoBody)
    ensures verb != Options && verb != Get && verb != Post ==> r == MethodNotAllowed
    ensures (verb == Get || verb == Post) && !HasCredentials(env) ==> r == MissingCredentials
    ensures ((verb == Get || verb == Post) && HasCredentials(env)) ==>
      r == if TokenStep(tokenCall).Some? then TokenStep(tokenCall).value
           else FetchPage(RequestParams(verb, query, body), listingsCall)
  {
    if verb == Options then Reply(200, NoBody)
    else if verb != Get && verb != Post then MethodNotAllowed
    else if !HasCredentials(env) then MissingCredentials
    else
      var failed := TokenStep(tokenCall);
      if failed.Some? then failed.value
      else FetchPage(RequestParams(verb, query, body), listingsCall)
  }

  /** The token request: `None` when a usable access token came back,
      otherwise the reply that ends the request. */
  function TokenStep(tokenCall: Fetched<Nullable<TokenResponse>>): (r: Option<Reply>)
    ensures r.None? <==>
      && tokenCall.Responded? && IsOk(tokenCall.response.status)
      && tokenCall.response.json.Parsed? && tokenCall.response.json.value.NonNull?
      && TruthyStr(tokenCall.response.json.value.value.accessToken)
    ensures tokenCall.Threw? ==> r == Some(ExceptionReply(tokenCall.error, TimeoutMessage))
    ensures (tokenCall.Responded? && !IsOk(tokenCall.response.status)) ==>
      r == Some(Reply(tokenCall.response.status, ErrorReply(ErrorJson("Authentication failed",
                 "Unable to authenticate with CRMLS API", tokenCall.response.text))))
    ensures (tokenCall.Responded? && IsOk(tokenCall.response.status) && tokenCall.response.json.Unparseable?) ==>
      r == Some(Reply(500, ErrorReply(ErrorJson("Invalid token response",
                 "Failed to parse token response from CRMLS API", tokenCall.response.text))))
    ensures (tokenCall.Responded? && IsOk(tokenCall.response.status) && tokenCall.response.json == Parsed(Null)) ==>
      r == Some(ExceptionReply(NullRead("access_token"), TimeoutMessage))
    ensures (tokenCall.Responded? && IsOk(tokenCall.response.status) && tokenCall.response.json.Parsed?
             && tokenCall.response.json.value.NonNull? && !TruthyStr(tokenCall.response.json.value.value.accessToken)) ==>
      r == Some(Reply(500, ErrorReply(ErrorJson("Authentication failed",
                 "No access token received from CRMLS API", tokenCall.response.text))))
  {
    match tokenCall
    case Threw(e) => Some(ExceptionReply(e, TimeoutMessage))
    case Responded(tr) =>
      if !IsOk(tr.status) then
        Some(Reply(tr.status, ErrorReply(ErrorJson("Authentication failed",
          "Unable to authenticate with CRMLS API", tr.text))))
      else match tr.json
        case Unparseable(_) =>
          Some(Reply(500, ErrorReply(ErrorJson("Invalid token response",
            "Failed to parse token response from CRMLS API", tr.text))))
        case Parsed(Null) => Some(ExceptionReply(NullRead("access_token"), TimeoutMessage))
        case Parsed(NonNull(token)) =>
          if !TruthyStr(token.accessToken) then
            Some(Reply(500, ErrorReply(ErrorJson("Authentication failed",
              "No access token received from CRMLS API", tr.text))))
          else None
  }

  /** The reply once a token is in hand: the MLS answer for the search built
      from `params`. */
  function FetchPage(params: Params, listingsCall: Fetched<ListingsPayload>): (r: Reply)
    ensures listingsCall.Threw? ==> r == ExceptionReply(listingsCall.error, TimeoutMessage)
    ensures (listingsCall.Responded? && !IsOk(listingsCall.response.status)) ==>
      r.status == listingsCall.response.status && r.body.ErrorReply?
      && r.body.err.rawError == Some(listingsCall.response.text)
    ensures (listingsCall.Responded? && !IsOk(listingsCall.response.status) && listingsCall.response.errorJson.Parsed?) ==>
      r.body.err == listingsCall.response.errorJson.value.(rawError := Some(listingsCall.response.text))
    ensures (listingsCall.Responded? && !IsOk(listingsCall.response.status) && listingsCall.response.errorJson.Unparseable?) ==>
      r.body.err == ErrorJson("Listings fetch failed",
        StatusLine(listingsCall.response.status, listingsCall.response.statusText), listingsCall.response.text)
    ensures (listingsCall.Responded? && IsOk(listingsCall.response.status) && listingsCall.response.json.Unparseable?) ==>
      r == Reply(500, ErrorReply(ErrorJson("Invalid listings response",
             "Failed to parse listings response from CRMLS API", listingsCall.response.text)))
    ensures (listingsCall.Responded? && IsOk(listingsCall.response.status) && listingsCall.response.json == Parsed(NullPayload)) ==>
      r == ExceptionReply(NullRead("data"), TimeoutMessage)
    ensures (listingsCall.Responded? && IsOk(listingsCall.response.status) && listingsCall.response.json.Parsed?
             && !listingsCall.response.json.value.NullPayload? && Normalize(listingsCall.response.json.value).None?) ==>
      r == Reply(500, ErrorReply(ErrorJson("Invalid response format",
             "Unexpected response format from CRMLS API", listingsCall.response.text)))
    ensures r.status == 200 <==>
      && listingsCall.Responded? && IsOk(listingsCall.response.status)
      && listingsCall.response.json.Parsed?
      && !listingsCall.response.json.value.NullPayload?
      && Normalize(listingsCall.response.json.value).Some?
    ensures r.status == 200 ==>
      && r.body.PageReply?
      && var l := Normalize(listingsCall.response.json.value).value;
         r.body.page == Page(l.items, l.total, l.page, PerPage(params), TotalPages(l.total, PerPage(params)), l.hasMore)
  {
    match listingsCall
    case Threw(e) => ExceptionReply(e, TimeoutMessage)
    case Responded(lr) =>
      if !IsOk(lr.status) then
        var err := match lr.errorJson {
          case Parsed(e) => e.(rawError := Some(lr.text))
          case Unparseable(_) =>
            ErrorJson("Listings fetch failed", StatusLine(lr.status, lr.statusText), lr.text)
        };
        Reply(lr.status, ErrorReply(err))
      else match lr.json
        case Unparseable(_) =>
          Reply(500, ErrorReply(ErrorJson("Invalid listings response",
            "Failed to parse listings response from CRMLS API", lr.text)))
        case Parsed(NullPayload) => ExceptionReply(NullRead("data"), TimeoutMessage)
        case Parsed(payload) =>
          match Normalize(payload)
          case None =>
            Reply(500, ErrorReply(ErrorJson("Invalid response format",
              "Unexpected response format from CRMLS API", lr.text)))
          case Some(l) =>
            var perPage := PerPage(params);
            Reply(200, PageReply(Page(l.items, l.total, l.page, perPage, TotalPages(l.total, perPage), l.hasMore)))
  }

  /** The listings proxy answers with 200, 405, 408, 500 or 503, or passes
      on a failure status of the MLS: every malformed but ok upstream answer,
      token or page, ends in a 500 or an exception status. */
  lemma ListingsStatuses(verb: Method, env: Env, query: Params, body: Option<Params>,
                         tokenCall: Fetched<Nullable<TokenResponse>>, listingsCall: Fetched<ListingsPayload>)
    ensures var s := HandleListings(verb, env, query, body, tokenCall, listingsCall).status;
      || s in {200, 405, 408, 500, 503}
      || (tokenCall.Responded? && !IsOk(tokenCall.response.status) && s == tokenCall.response.status)
      || (listingsCall.Responded? && !IsOk(listingsCall.response.status) && s == listingsCall.response.status)
  {
  }

  /** A GET's `id` query parameter changes nothing in the reply: the handler
      answers with the same page whatever id is asked for. */
  lemma ReplyIgnoresId(env: Env, query: Params, v: ParamValue,
                       tokenCall: Fetched<Nullable<TokenResponse>>, listingsCall: Fetched<ListingsPayload>)
    ensures HandleListings(Get, env, query["id" := v], None, tokenCall, listingsCall)
         == HandleListings(Get, env, query - {"id"}, None, tokenCall, listingsCall)
  {
    var a := query["id" := v];
    var b := query - {"id"};
    PerPageIgnoresId(query, v);
    FetchPageReadsPerPage(a, b, listingsCall);
    GetReply(env, a, tokenCall, listingsCall);
    GetReply(env, b, tokenCall, listingsCall);
  }

  /** A GET is answered from its query string alone. */
  lemma GetReply(env: Env, query: Params, tokenCall: Fetched<Nullable<TokenResponse>>, listingsCall: Fetched<ListingsPayload>)
    ensures HandleListings(Get, env, query, None, tokenCall, listingsCall)
         == if !HasCredentials(env) then MissingCredentials
            else if TokenStep(tokenCall).Some? then TokenStep(tokenCall).value
            else FetchPage(query, listingsCall)
  {
  }

  /** The page size is read the same with or without an `id` parameter. */
  lemma PerPageIgnoresId(query: Params, v: ParamValue)
    ensures PerPage(query["id" := v]) == PerPage(query - {"id"})
  {
    assert "per_page" != "id" by { assert |"per_page"| != |"id"|; }
    KeyAgrees(query["id" := v], query - {"id"}, "per_page");
  }

  /** Of the request parameters, only the page size shapes the reply built
      from the MLS answer. */
  lemma FetchPageReadsPerPage(a: Params, b: Params, listingsCall: Fetched<ListingsPayload>)
    requires PerPage(a) == PerPage(b)
    ensures FetchPage(a, listingsCall) == FetchPage(b, listingsCall)
  {
  }

  /** Requests turned away by method or configuration get the same reply
      whatever the upstream calls would have answered. */
  lemma RejectedBeforeUpstream(verb: Method, env: Env, query: Params, body: Option<Params>,
                               t1: Fetched<Nullable<TokenResponse>>, t2: Fetched<Nullable<TokenResponse>>,
                               l1: Fetched<ListingsPayload>, l2: Fetched<ListingsPayload>)
    requires (verb != Get && verb != Post) || !HasCredentials(env)
    ensures HandleListings(verb, env, query, body, t1, l1) == HandleListings(verb, env, query, body, t2, l2)
  {
  }

  /** A failed token request never reaches the listings call. */
  lemma TokenFailureStopsEarly(verb: Method, env: Env, query: Params, body: Option<Params>,
                               tokenCall: Fetched<Nullable<TokenResponse>>,
                               l1: Fetched<ListingsPayload>, l2: Fetched<ListingsPayload>)
    requires tokenCall.Threw? || !IsOk(tokenCall.response.status)
    ensures HandleListings(verb, env, query, body, tokenCall, l1) == HandleListings(verb, env, query, body, tokenCall, l2)
  {
  }

  /** A bare array from the MLS becomes a single page holding all of it. */
  lemma BareArrayIsOnePage(params: Params, items: seq<Property>, response: Response<ListingsPayload>)
    requires IsOk(response.status) && response.json == Parsed(BareArray(items))
    ensures var r := FetchPage(params, Responded(response));
      r.status == 200 && r.body.page.data == items && r.body.page.total == |items|
      && r.body.page.page == 1 && !r.body.page.hasMore
  {
  }
}

=== FILE: listings_store.dfy ===
/**
  The listings store (src/lib/store/listings.ts). Every asynchronous action
  is split at its `await` into a start transition, which returns the request
  it issues (if any), and a completion transition, which takes the outcome
  of that request. The clock reading `new Date()` is the parameter `now`,
  in milliseconds.
 */
module ListingsStore {
  import opened Js
  import opened Strings
  import opened Crmls
  import Seqs

  datatype State = State(
    listings: seq<Property>,
    isLoading: bool,
    error: Option<string>,
    lastFetched: Option<int>,
    totalCount: int,
    currentPage: int,
    hasMore: bool,
    searchParams: SearchParams)

  const InitialSearchParams :=
    NoParams.(page := Some(1), perPage := Some(50), sortBy := Some("list_price"), sortOrder := Some("desc"))

  const Initial := State([], false, None, None, 0, 1, true, InitialSearchParams)

  /** What an awaited service call produced: its value, or what it threw. */
  datatype Outcome<T> = Success(value: T) | Failure(thrown: Thrown)

  // ----- fetchListings ----------------------------------------------------

  /** A store after a start transition and the request it issued. */
  datatype Started<R> = Started(state: State, request: Option<R>)

  /** `fetchListings(params)` up to its `await`: skipped while a request is
      in flight; otherwise loading starts, the error clears, and the stored
      parameters overridden by `params` are requested. */
  function StartFetch(s: State, params: SearchParams): (r: Started<SearchParams>)
    ensures s.isLoading <==> r.request.None?
    ensures s.isLoading ==> r.state == s
    ensures !s.isLoading ==> r.state == s.(isLoading := true, error := None)
    ensures r.request.Some? ==> r.request.value == Merge(s.searchParams, params)
  {
    if s.isLoading then Started(s, None)
    else Started(s.(isLoading := true, error := None), Some(Merge(s.searchParams, params)))
  }

  const CredentialsMessage :=
    "CRMLS API credentials are not properly configured. Please check your environment variables."
  const AuthenticationMessage :=
    "Failed to authenticate with CRMLS API. Please verify your credentials."
  const ConnectionMessage :=
    "Unable to connect to CRMLS API. Please check your internet connection and try again."

  /** The user-facing text for a failed listings fetch: three known causes
      are reworded, tried in order; any other message is shown as it is. */
  function FriendlyError(message: string): (r: string)
    ensures Contains(message, "credentials not configured") ==> r == CredentialsMessage
    ensures !Contains(message, "credentials not configured") && Contains(message, "Authentication failed")
      ==> r == AuthenticationMessage
    ensures !Contains(message, "credentials not configured") && !Contains(message, "Authentication failed")
      && (Contains(message, "Failed to fetch") || Contains(message, "NetworkError"))
      ==> r == ConnectionMessage
    ensures !Contains(message, "credentials not configured") && !Contains(message, "Authentication failed")
      && !Contains(message, "Failed to fetch") && !Contains(message, "NetworkError")
      ==> r == message
  {
    if Contains(message, "credentials not configured") then CredentialsMessage
    else if Contains(message, "Authentication failed") then AuthenticationMessage
    else if Contains(message, "Failed to fetch") || Contains(message, "NetworkError") then ConnectionMessage
    else message
  }

  /** `response.data || []`. */
  function DataOf(response: ListingsResponse): seq<Property> {
    if response.data.Some? then response.data.value else []
  }

  /** `fetchListings` after its `await`, for the request `request` issued at
      start. On success the page replaces the listings, the parameters are
      remembered and the fetch time recorded; on failure the listings are
      emptied and pagination stops. Loading ends either way. */
  function CompleteFetch(s: State, request: SearchParams, outcome: Outcome<ListingsResponse>, now: int): (r: State)
    ensures !r.isLoading
    ensures outcome.Success? ==>
      && r.listings == DataOf(outcome.value)
      && r.error == None
      && r.lastFetched == Some(now)
      && r.searchParams == request
      && (TruthyInt(outcome.value.total) ==> r.totalCount == outcome.value.total.value)
      && (!TruthyInt(outcome.value.total) ==> r.totalCount == |r.listings|)
      && (TruthyInt(outcome.value.page) ==> r.currentPage == outcome.value.page.value)
      && (!TruthyInt(outcome.value.page) ==> r.currentPage == 1)
      && (outcome.value.hasMore.Some? ==> r.hasMore == outcome.value.hasMore.value)
      && (outcome.value.hasMore.None? ==> (r.hasMore <==> |r.listings| == OrInt(request.perPage, 50)))
    ensures outcome.Failure? ==>
      && r == s.(isLoading := false, listings := [], totalCount := 0, hasMore := false,
                 error := Some(FriendlyError(MessageOf(outcome.thrown, "Failed to fetch listings"))))
  {
    match outcome
    case Success(response) =>
      var listings := DataOf(response);
      s.(listings := listings,
         totalCount := OrInt(response.total, |listings|),
         currentPage := OrInt(response.page, 1),
         hasMore := Coalesce(response.hasMore, |listings| == OrInt(request.perPage, 50)),
         lastFetched := Some(now),
         isLoading := false,
         error := None,
         searchParams := request)
    case Failure(thrown) =>
      var message := MessageOf(thrown, "Failed to fetch listings");
      s.(isLoading := false,
         error := Some(FriendlyError(message)),
         listings := [],
         totalCount := 0,
         hasMore := false)
  }

  // ----- loadMoreListings -------------------------------------------------

  /** What `loadMoreListings` remembers across its `await`: the listings it
      read at start, the page it asked for and the parameters it sent. */
  datatype PageRequest = PageRequest(base: seq<Property>, nextPage: int, params: SearchParams)

  /** `loadMoreListings` up to its `await`: skipped while loading or when no
      more pages are expected; otherwise the next page is requested. */
  function StartLoadMore(s: State): (r: Started<PageRequest>)
    ensures (s.isLoading || !s.hasMore) <==> r.request.None?
    ensures r.request.None? ==> r.state == s
    ensures r.request.Some? ==>
      && r.state == s.(isLoading := true, error := None)
      && r.request.value.base == s.listings
      && r.request.value.nextPage == s.currentPage + 1
      && r.request.value.params == s.searchParams.(page := Some(s.currentPage + 1))
  {
    if s.isLoading || !s.hasMore then Started(s, None)
    else
      var nextPage := s.currentPage + 1;
      Started(s.(isLoading := true, error := None),
              Some(PageRequest(s.listings, nextPage, s.searchParams.(page := Some(nextPage)))))
  }

  /** `response.data?.length`. */
  function DataLength(response: ListingsResponse): Option<int> {
    if response.data.Some? then Some(|response.data.value|) else None
  }

  /** `loadMoreListings` after its `await`. On success the page is appended to
      the listings read at start; on failure only the error is recorded. */
  function CompleteLoadMore(s: State, request: PageRequest, outcome: Outcome<ListingsResponse>): (r: State)
    ensures !r.isLoading
    ensures r.lastFetched == s.lastFetched && r.totalCount == s.totalCount && r.searchParams == s.searchParams
    ensures outcome.Success? ==>
      && r.listings == request.base + DataOf(outcome.value)
      && r.currentPage == request.nextPage
      && r.error == None
      && (outcome.value.hasMore.Some? ==> r.hasMore == outcome.value.hasMore.value)
      && (outcome.value.hasMore.None? ==> (r.hasMore <==> DataLength(outcome.value) == request.params.perPage))
    ensures outcome.Failure? ==>
      r == s.(isLoading := false, error := Some(MessageOf(outcome.thrown, "Failed to load more listings")))
  {
    match outcome
    case Success(response) =>
      s.(listings := request.base + DataOf(response),
         currentPage := request.nextPage,
         hasMore := Coalesce(response.hasMore, DataLength(response) == request.params.perPage),
         isLoading := false,
         error := None)
    case Failure(thrown) =>
      s.(isLoading := false, error := Some(MessageOf(thrown, "Failed to load more listings")))
  }

  /** A successful page load keeps every listing already shown, in place,
      appends the page after them, and advances the page counter by one. */
  lemma LoadMoreAppends(s: State, response: ListingsResponse)
    requires StartLoadMore(s).request.Some?
    ensures var st := StartLoadMore(s);
      var r := CompleteLoadMore(st.state, st.request.value, Success(response));
      && s.listings <= r.listings
      && |r.listings| == |s.listings| + |DataOf(response)|
      && r.listings[|s.listings|..] == DataOf(response)
      && r.currentPage == s.currentPage + 1
  {
  }

  /** At most one listings request is in flight: once a fetch or a page load
      has started, neither a fetch nor a page load starts another request
      until it completes. */
  lemma OneRequestInFlight(s: State, params: SearchParams, params2: SearchParams)
    ensures StartFetch(s, params).request.Some? ==>
      StartFetch(StartFetch(s, params).state, params2).request.None? &&
      StartLoadMore(StartFetch(s, params).state).request.None?
    ensures StartLoadMore(s).request.Some? ==>
      StartFetch(StartLoadMore(s).state, params2).request.None? &&
      StartLoadMore(StartLoadMore(s).state).request.None?
  {
  }

  // ----- refreshListings, clearListings, updateSearchParams ----------------

  /** `refreshListings` up to the `await` inside `fetchListings`: the shown
      listings and pagination are reset, then a fetch of the first page with
      the stored parameters starts (unless one is already in flight). */
  function StartRefresh(s: State): (r: Started<SearchParams>)
    ensures r.state.listings == [] && r.state.currentPage == 1 && r.state.lastFetched == None && r.state.hasMore
    ensures r.state.totalCount == s.totalCount && r.state.searchParams == s.searchParams
    ensures s.isLoading ==> r.state.isLoading && r.state.error == s.error
    ensures !s.isLoading ==> r.state.isLoading && r.state.error == None
    ensures r.request.Some? <==> !s.isLoading
    ensures r.request.Some? ==> r.request.value == s.searchParams.(page := Some(1))
  {
    var cleared := s.(listings := [], currentPage := 1, hasMore := true, lastFetched := None);
    StartFetch(cleared, s.searchParams.(page := Some(1)))
  }

  /** `clearListings`: the whole store returns to its initial state. */
  function ClearListings(s: State): (r: State)
    ensures r.listings == [] && !r.isLoading && r.error == None && r.lastFetched == None
    ensures r.totalCount == 0 && r.currentPage == 1 && r.hasMore
    ensures r.searchParams.page == Some(1) && r.searchParams.perPage == Some(50)
    ensures r.searchParams.sortBy == Some("list_price") && r.searchParams.sortOrder == Some("desc")
    ensures r.searchParams.(page := None, perPage := None, sortBy := None, sortOrder := None) == NoParams
  {
    Initial
  }

  /** Clearing forgets everything the store held: any two stores clear to
      the same one, and a fetch after clearing requests the default page 1
      of 50 by descending price, overridden only by the fetch's own
      parameters. */
  lemma ClearForgetsEverything(s: State, t: State, params: SearchParams)
    ensures ClearListings(s) == ClearListings(t)
    ensures StartFetch(ClearListings(s), params).request
         == Some(Merge(NoParams.(page := Some(1), perPage := Some(50), sortBy := Some("list_price"),
                                 sortOrder := Some("desc")), params))
  {
  }

  /** `updateSearchParams(params)`: the new parameters override the stored
      ones and the page goes back to 1; nothing else in the store changes. */
  function UpdateSearchParams(s: State, params: SearchParams): (r: State)
    ensures r.searchParams.page == Some(1)
    ensures r == s.(searchParams := r.searchParams)
    ensures r.searchParams.(page := None) == Merge(s.searchParams, params).(page := None)
  {
    s.(searchParams := Merge(s.searchParams, params).(page := Some(1)))
  }

  /** Applying the same search parameters twice is applying them once. */
  lemma UpdateSearchParamsIdempotent(s: State, params: SearchParams)
    ensures UpdateSearchParams(UpdateSearchParams(s, params), params) == UpdateSearchParams(s, params)
  {
  }

  /** A refresh that completes successfully shows the first page's listings
      fetched with the stored parameters at page 1. */
  lemma RefreshThenSuccess(s: State, response: ListingsResponse, now: int)
    requires !s.isLoading
    ensures var st := StartRefresh(s);
      var r := CompleteFetch(st.state, st.request.value, Success(response), now);
      && r.listings == DataOf(response)
      && r.searchParams == s.searchParams.(page := Some(1))
      && r.lastFetched == Some(now)
      && r.error == None
  {
  }

  // ----- fetchProperty ----------------------------------------------------

  /** Every listing with id `id` replaced by `p`. */
  function ReplaceById(listings: seq<Property>, id: string, p: Property): (r: seq<Property>)
    ensures |r| == |listings|
    ensures forall i :: 0 <= i < |r| ==> r[i] == (if listings[i].id == id then p else listings[i])
  {
    seq(|listings|, i requires 0 <= i < |listings| => if listings[i].id == id then p else listings[i])
  }

  /** `fetchProperty(id)` after its `await`: the fetched property and the
      store. A fetched property replaces the listings carrying its id, and
      is never added to the list; a failure records the error. */
  function CompleteFetchProperty(s: State, id: string, outcome: Outcome<Property>): (r: (State, Option<Property>))
    ensures outcome.Success? ==> r.1 == Some(outcome.value) && r.0.error == s.error
    ensures outcome.Success? ==> |r.0.listings| == |s.listings|
    ensures outcome.Success? ==> forall i :: 0 <= i < |s.listings| && s.listings[i].id != id ==>
      r.0.listings[i] == s.listings[i]
    ensures outcome.Success? && outcome.value.id == id ==> forall i :: 0 <= i < |s.listings| && s.listings[i].id == id ==>
      r.0.listings[i] == outcome.value
    ensures outcome.Failure? ==>
      r == (s.(error := Some(MessageOf(outcome.thrown, "Failed to fetch property"))), None)
    ensures r.0 == s.(listings := r.0.listings, error := r.0.error)
  {
    match outcome
    case Success(p) =>
      var updated := ReplaceById(s.listings, id, p);
      if exists i :: 0 <= i < |updated| && updated[i].id == id then (s.(listings := updated), Some(p))
      else (s, Some(p))
    case Failure(thrown) =>
      (s.(error := Some(MessageOf(thrown, "Failed to fetch property"))), None)
  }

  /** Fetching a property that is not among the listings leaves them as they
      are. */
  lemma FetchPropertyNotListed(s: State, id: string, p: Property)
    requires forall i :: 0 <= i < |s.listings| ==> s.listings[i].id != id
    ensures CompleteFetchProperty(s, id, Success(p)).0 == s
  {
    assert ReplaceById(s.listings, id, p) == s.listings;
  }

  /** A fetched property whose id differs from the one asked for never
      reaches the list: every replaced slot would lose the id, so the
      update is dropped and the store is left as it was. */
  lemma FetchPropertyOtherIdIgnored(s: State, id: string, p: Property)
    requires p.id != id
    ensures CompleteFetchProperty(s, id, Success(p)).0 == s
  {
    var updated := ReplaceById(s.listings, id, p);
    assert forall i :: 0 <= i < |updated| ==> updated[i].id != id;
  }

  // ----- getListingsByStatus, getListingsByPriceRange ---------------------

  /** `listing.listing_status?.toLowerCase() === status.toLowerCase()`. */
  predicate HasStatus(listing: Property, status: string) {
    listing.listingStatus.Some? && ToLower(listing.listingStatus.value) == ToLower(status)
  }

  /** `getListingsByStatus(status)`: the listings whose status equals
      `status` ignoring case, in store order. */
  function ListingsByStatus(s: State, status: string): (r: seq<Property>)
    ensures Seqs.IsSubsequence(r, s.listings)
    ensures forall i :: 0 <= i < |r| ==> HasStatus(r[i], status)
    ensures forall i :: 0 <= i < |s.listings| && HasStatus(s.listings[i], status) ==> s.listings[i] in r
    ensures forall x :: multiset(r)[x] == if HasStatus(x, status) then multiset(s.listings)[x] else 0
  {
    var keep := (listing: Property) => HasStatus(listing, status);
    Seqs.FilterIsSubsequence(keep, s.listings);
    Seqs.Filter(keep, s.listings)
  }

  /** The price filter: a listing without a (non-zero) price never matches;
      a bound applies only when it is given and non-zero. */
  predicate InPriceRange(listing: Property, minPrice: Option<int>, maxPrice: Option<int>) {
    && TruthyInt(listing.listPrice)
    && !(TruthyInt(minPrice) && listing.listPrice.value < minPrice.value)
    && !(TruthyInt(maxPrice) && listing.listPrice.value > maxPrice.value)
  }

  /** `getListingsByPriceRange(min, max)`: the priced listings within the
      given bounds, in store order. */
  function ListingsByPriceRange(s: State, minPrice: Option<int>, maxPrice: Option<int>): (r: seq<Property>)
    ensures Seqs.IsSubsequence(r, s.listings)
    ensures forall i :: 0 <= i < |r| ==> r[i].listPrice.Some? && r[i].listPrice.value != 0
    ensures TruthyInt(minPrice) ==> forall i :: 0 <= i < |r| ==> r[i].listPrice.value >= minPrice.value
    ensures TruthyInt(maxPrice) ==> forall i :: 0 <= i < |r| ==> r[i].listPrice.value <= maxPrice.value
    ensures forall i :: 0 <= i < |s.listings| && InPriceRange(s.listings[i], minPrice, maxPrice) ==>
      s.listings[i] in r
    ensures forall x :: multiset(r)[x] == if InPriceRange(x, minPrice, maxPrice) then multiset(s.listings)[x] else 0
  {
    var keep := (listing: Property) => InPriceRange(listing, minPrice, maxPrice);
    Seqs.FilterIsSubsequence(keep, s.listings);
    Seqs.Filter(keep, s.listings)
  }

  /** Status matching ignores case on both sides. */
  lemma StatusMatchIgnoresCase(listing: Property, status: string)
    ensures HasStatus(listing, status) <==> HasStatus(listing, ToLower(status))
  {
    ToLowerIdempotent(status);
  }
}

=== FILE: map_store.dfy ===
/** The map-visibility store (src/lib/store/map.ts). */
module MapStore {

  datatype State = State(isMapVisible: bool)

  /** The map starts visible. */
  const Initial := State(true)

  /** `toggleMap`: visibility flips. */
  function ToggleMap(s: State): (r: State)
    ensures r.isMapVisible != s.isMapVisible
  {
    State(!s.isMapVisible)
  }

  /** Toggling twice is the identity; an even number of toggles from the
      start leaves the map visible, an odd number hides it. */
  lemma {:induction false} ToggleMapTimes(s: State, n: nat)
    ensures Repeat(s, n).isMapVisible == (if n % 2 == 0 then s.isMapVisible else !s.isMapVisible)
    ensures ToggleMap(ToggleMap(s)) == s
  {
    if n > 0 {
      ToggleMapTimes(s, n - 1);
    }
  }

  /** `n` toggles in a row. */
  function Repeat(s: State, n: nat): State {
    if n == 0 then s else ToggleMap(Repeat(s, n - 1))
  }
}

=== FILE: one_last_step.dfy ===
/**
  The five-question form shown after a home-value request
  (src/components/OneLastStepForm.tsx): each radio group sets one answer,
  and the submit button is enabled once every answer is given and no submit
  is in flight.
 */
module OneLastStep {

  datatype Question = FirstTimeBuyer | Timeframe | PreQualified | HouseToSell | HasAgent

  datatype Answers = Answers(
    firstTimeBuyer: string,
    timeframe: string,
    preQualified: string,
    houseToSell: string,
    hasAgent: string)

  datatype State = State(answers: Answers, isLoading: bool)

  /** Every answer empty, nothing in flight. */
  const Initial := State(Answers("", "", "", "", ""), false)

  function Answer(a: Answers, q: Question): string {
    match q
    case FirstTimeBuyer => a.firstTimeBuyer
    case Timeframe => a.timeframe
    case PreQualified => a.preQualified
    case HouseToSell => a.houseToSell
    case HasAgent => a.hasAgent
  }

  /** `Object.values(formData)`, in declaration order. */
  function Values(a: Answers): (r: seq<string>)
    ensures |r| == 5
    ensures forall q :: Answer(a, q) in r
    ensures forall i :: 0 <= i < |r| ==> exists q :: r[i] == Answer(a, q)
  {
    var r := [a.firstTimeBuyer, a.timeframe, a.preQualified, a.houseToSell, a.hasAgent];
    assert r[0] == Answer(a, FirstTimeBuyer) && r[1] == Answer(a, Timeframe) && r[2] == Answer(a, PreQualified)
      && r[3] == Answer(a, HouseToSell) && r[4] == Answer(a, HasAgent);
    r
  }

  /** `isFormComplete`: every value differs from "". */
  predicate IsFormComplete(a: Answers) {
    forall i :: 0 <= i < |Values(a)| ==> Values(a)[i] != ""
  }

  /** The form is complete exactly when every question has a non-empty
      answer. */
  lemma CompleteIffAllAnswered(a: Answers)
    ensures IsFormComplete(a) <==> forall q :: Answer(a, q) != ""
  {
    var vs := Values(a);
    if forall q :: Answer(a, q) != "" {
      forall i | 0 <= i < |vs|
        ensures vs[i] != ""
      {
        var q :| vs[i] == Answer(a, q);
      }
    }
    if IsFormComplete(a) {
      forall q
        ensures Answer(a, q) != ""
      {
        var i :| 0 <= i < |vs| && vs[i] == Answer(a, q);
      }
    }
  }

  /** The form starts incomplete. */
  lemma InitialIncomplete()
    ensures !IsFormComplete(Initial.answers)
  {
    assert Values(Initial.answers)[0] == "";
  }

  /** A radio group's `onValueChange`: its own answer is set and no other
      changes. */
  function SetAnswer(s: State, q: Question, value: string): (r: State)
    ensures Answer(r.answers, q) == value
    ensures forall p :: p != q ==> Answer(r.answers, p) == Answer(s.answers, p)
    ensures r.isLoading == s.isLoading
  {
    var a := s.answers;
    var answers := match q {
      case FirstTimeBuyer => a.(firstTimeBuyer := value)
      case Timeframe => a.(timeframe := value)
      case PreQualified => a.(preQualified := value)
      case HouseToSell => a.(houseToSell := value)
      case HasAgent => a.(hasAgent := value)
    };
    s.(answers := answers)
  }

  /** `disabled={!isFormComplete || isLoading}`. */
  predicate SubmitDisabled(s: State) {
    !IsFormComplete(s.answers) || s.isLoading
  }

  /** Answering every question with a non-empty value enables the button,
      and emptying any answer disables it again. */
  lemma AnsweringEnables(s: State, q: Question, value: string)
    requires !s.isLoading
    ensures (forall p :: p != q ==> Answer(s.answers, p) != "") ==>
      (SubmitDisabled(SetAnswer(s, q, value)) <==> value == "")
  {
    var r := SetAnswer(s, q, value);
    CompleteIffAllAnswered(r.answers);
  }

  /** `handleSubmit` up to its awaited delay: the loading flag is set. A
      disabled button submits nothing. */
  function StartSubmit(s: State): (r: (State, bool))
    ensures r.1 <==> !SubmitDisabled(s)
    ensures r.1 ==> r.0 == s.(isLoading := true) && SubmitDisabled(r.0)
    ensures !r.1 ==> r.0 == s
  {
    if SubmitDisabled(s) then (s, false) else (s.(isLoading := true), true)
  }

  /** `handleSubmit` after the delay: the finish callback runs and the
      loading flag is cleared, re-enabling a complete form. */
  function CompleteSubmit(s: State): (r: State)
    ensures !r.isLoading && r.answers == s.answers
    ensures IsFormComplete(s.answers) ==> !SubmitDisabled(r)
  {
    s.(isLoading := false)
  }
}

=== FILE: property_grid.dfy ===
/**
  The card-level helpers of the listings grid (src/components/PropertyGrid.tsx)
  and its fetch-on-mount rule: which status badge, location line, image and
  title a listing shows, and when the grid asks the store for fresh data.
 */
module PropertyGrid {
  import opened Js
  import opened Strings
  import opened Crmls
  import ListingsStore

  /** `formatSquareFootage`: `sqft || 0`. */
  function FormatSquareFootage(sqft: Option<int>): (r: int)
    ensures r == 0 <==> !TruthyInt(sqft)
    ensures r != 0 ==> r == sqft.value
  {
    OrInt(sqft, 0)
  }

  datatype CardStatus = ForSale | ForRent | Sold | Pending

  /** `mapListingStatus`: the badge for a listing status, matched as a
      case-insensitive substring, "sold" before "pending" before "rent". */
  function MapListingStatus(status: Option<string>): (r: CardStatus) {
    if !TruthyStr(status) then ForSale
    else
      var lower := ToLower(status.value);
      if Contains(lower, "sold") then Sold
      else if Contains(lower, "pending") then Pending
      else if Contains(lower, "rent") then ForRent
      else ForSale
  }

  /** Each badge, characterised by which keywords the lower-cased status
      contains; an absent or empty status is "For Sale". */
  lemma MapListingStatusCases(s: string)
    ensures MapListingStatus(None) == ForSale && MapListingStatus(Some("")) == ForSale
    ensures MapListingStatus(Some(s)) == Sold <==> Contains(ToLower(s), "sold")
    ensures MapListingStatus(Some(s)) == Pending <==>
      !Contains(ToLower(s), "sold") && Contains(ToLower(s), "pending")
    ensures MapListingStatus(Some(s)) == ForRent <==>
      !Contains(ToLower(s), "sold") && !Contains(ToLower(s), "pending") && Contains(ToLower(s), "rent")
  {
    if s == "" {
      NothingInEmpty("sold");
      NothingInEmpty("pending");
      NothingInEmpty("rent");
    }
  }

  /** No non-empty text occurs in the empty string. */
  lemma NothingInEmpty(sub: string)
    requires sub != ""
    ensures !Contains(ToLower(""), sub)
  {
  }

  /** The badge does not depend on the case of the status. */
  lemma MapListingStatusIgnoresCase(s: string)
    ensures MapListingStatus(Some(ToLower(s))) == MapListingStatus(Some(s))
  {
    ToLowerIdempotent(s);
  }

  /** `parts.join(sep)`. */
  function Join(parts: seq<string>, sep: string): string {
    if parts == [] then ""
    else if |parts| == 1 then parts[0]
    else parts[0] + sep + Join(parts[1..], sep)
  }

  /** The non-empty strings among `os`, in order (`.filter(Boolean)`). */
  function PresentParts(os: seq<Option<string>>): (r: seq<string>)
    ensures |r| <= |os|
  {
    if os == [] then []
    else (if TruthyStr(os[0]) then [os[0].value] else []) + PresentParts(os[1..])
  }

  lemma PresentPair(a: Option<string>, b: Option<string>)
    ensures PresentParts([a, b]) == (if TruthyStr(a) then [a.value] else []) + (if TruthyStr(b) then [b.value] else [])
  {
    assert [a, b][1..] == [b];
    assert [b][1..] == [];
  }

  lemma JoinPair(a: Option<string>, b: Option<string>)
    ensures TruthyStr(a) && TruthyStr(b) ==> Join([a.value, b.value], ", ") == a.value + ", " + b.value
  {
    if TruthyStr(a) && TruthyStr(b) {
      assert [a.value, b.value][1..] == [b.value];
    }
  }

  const LocationPlaceholder := "Location Available Upon Request"

  /** `getPropertyLocation`: the city and the state that are present and
      non-empty, joined by ", "; the placeholder when neither is. */
  function GetPropertyLocation(p: Property): (r: string)
    ensures p.address.None? ==> r == LocationPlaceholder
    ensures p.address.Some? ==>
      var city := p.address.value.city;
      var state := p.address.value.state;
      && (TruthyStr(city) && TruthyStr(state) ==> r == city.value + ", " + state.value)
      && (TruthyStr(city) && !TruthyStr(state) ==> r == city.value)
      && (!TruthyStr(city) && TruthyStr(state) ==> r == state.value)
      && (!TruthyStr(city) && !TruthyStr(state) ==> r == LocationPlaceholder)
  {
    match p.address
    case None => LocationPlaceholder
    case Some(a) =>
      var parts := PresentParts([a.city, a.state]);
      PresentPair(a.city, a.state);
      JoinPair(a.city, a.state);
      if |parts| > 0 then Join(parts, ", ") else LocationPlaceholder
  }

  const DefaultImage :=
    "https://images.unsplash.com/photo-1600596542815-ffad4c1539a9?ixlib=rb-4.0.3&ixid=M3wxMjA3fDB8MHxwaG90by1wYWdlfHx8fGVufDB8fHx8fA%3D%3D&auto=format&fit=crop&w=2075&q=80"

  /** `getPropertyImage`: the first `property_images` entry, else the first
      `images` URL, else the stock photo. */
  function GetPropertyImage(p: Property): (r: string)
    ensures p.propertyImages.Some? && |p.propertyImages.value| > 0 ==> r == p.propertyImages.value[0]
    ensures !(p.propertyImages.Some? && |p.propertyImages.value| > 0) && p.images.Some? && |p.images.value| > 0
      ==> r == p.images.value[0].url
    ensures !(p.propertyImages.Some? && |p.propertyImages.value| > 0) && !(p.images.Some? && |p.images.value| > 0)
      ==> r == DefaultImage
  {
    if p.propertyImages.Some? && |p.propertyImages.value| > 0 then p.propertyImages.value[0]
    else if p.images.Some? && |p.images.value| > 0 then p.images.value[0].url
    else DefaultImage
  }

  /** The image shown is always one the listing carries, or the stock photo. */
  lemma ImageComesFromListing(p: Property)
    ensures var r := GetPropertyImage(p);
      || (p.propertyImages.Some? && r in p.propertyImages.value)
      || (p.images.Some? && exists i :: 0 <= i < |p.images.value| && p.images.value[i].url == r)
      || r == DefaultImage
  {
    var r := GetPropertyImage(p);
    if !(p.propertyImages.Some? && |p.propertyImages.value| > 0) && p.images.Some? && |p.images.value| > 0 {
      assert p.images.value[0].url == r;
    }
  }

  /** `getPropertyTitle`: "subtype type" when both are given, else the type,
      else "Premium Property". */
  function GetPropertyTitle(p: Property): (r: string)
    ensures TruthyStr(p.propertyType) && TruthyStr(p.propertySubtype) ==>
      r == p.propertySubtype.value + " " + p.propertyType.value
    ensures TruthyStr(p.propertyType) && !TruthyStr(p.propertySubtype) ==> r == p.propertyType.value
    ensures !TruthyStr(p.propertyType) ==> r == "Premium Property"
    ensures r != ""
  {
    if TruthyStr(p.propertyType) && TruthyStr(p.propertySubtype) then
      p.propertySubtype.value + " " + p.propertyType.value
    else OrStr(p.propertyType, "Premium Property")
  }

  /** Five minutes, in milliseconds. */
  const StaleAfter := 5 * 60 * 1000

  /** The grid's fetch rule: fetch when nothing was fetched yet or the last
      fetch is more than five minutes old, and no fetch is in flight. */
  predicate ShouldFetch(lastFetched: Option<int>, now: int, isLoading: bool) {
    (lastFetched.None? || now - lastFetched.value > StaleAfter) && !isLoading
  }

  /** The grid's effect on the store at time `now`: a fetch with the stored
      parameters when the rule says so, otherwise nothing. */
  function OnStoreChange(s: ListingsStore.State, now: int): (r: ListingsStore.Started<SearchParams>)
    ensures r.request.Some? <==> ShouldFetch(s.lastFetched, now, s.isLoading)
    ensures r.request.Some? ==> r.request.value == s.searchParams
    ensures r.request.None? ==> r.state == s
  {
    if ShouldFetch(s.lastFetched, now, s.isLoading) then
      MergeLaws(s.searchParams, NoParams, NoParams);
      ListingsStore.StartFetch(s, NoParams)
    else ListingsStore.Started(s, None)
  }

  /** Once data is fetched at `t`, the grid asks again only after more than
      five minutes have passed; staleness never goes away with time. */
  lemma FreshDataIsKept(t: int, now: int, later: int)
    ensures ShouldFetch(Some(t), now, false) <==> now > t + StaleAfter
    ensures ShouldFetch(Some(t), now, false) && later >= now ==> ShouldFetch(Some(t), later, false)
  {
  }

  /** A successful fetch completed at `t` suppresses the grid's next fetch for
      five minutes, whatever the response held. */
  lemma NoRefetchWithinFiveMinutes(s: ListingsStore.State, request: SearchParams,
                                  response: ListingsResponse, t: int, now: int)
    requires now <= t + StaleAfter
    ensures var after := ListingsStore.CompleteFetch(s, request, ListingsStore.Success(response), t);
      OnStoreChange(after, now).request.None?
  {
  }
}

=== FILE: property_sort.dfy ===
/**
  The listing sort behind the "Sort by" dropdown (src/lib/hooks/usePropertySort.ts):
  price normalisation and a stable comparator sort selected by the option.
  The hook copies its input before sorting; with immutable sequences the
  caller's list is untouched by construction.
 */
module PropertySort {
  import opened Strings

  /** A price as the card data carries it: a number or a display string
      such as "$1,250,000". */
  datatype Price = NumberPrice(amount: int) | TextPrice(text: string)

  /** The hook's `Property` record; the optional display fields play no part
      in sorting and are not modelled. */
  datatype Listing = Listing(id: string, price: Price, beds: int, baths: int, sqft: int)

  datatype SortOption =
    | Default | PriceDesc | PriceAsc | Newest | BedsDesc | BathsDesc | YearDesc | SqftDesc

  /** `normalizePrice`: a numeric price as it is; a string read through its
      digits alone, 0 when it has none. */
  function NormalizePrice(p: Price): (r: int)
    ensures p.NumberPrice? ==> r == p.amount
    ensures p.TextPrice? ==> r >= 0
    ensures p.TextPrice? && Digits(p.text) == [] ==> r == 0
  {
    match p
    case NumberPrice(n) => n
    case TextPrice(s) =>
      var d := Digits(s);
      if d == [] then 0 else DecimalValue(d)
  }

  /** A display string made of a non-numeric prefix, the decimal amount and a
      non-numeric suffix normalises back to the amount. */
  lemma NormalizeShownPrice(prefix: string, n: nat, suffix: string)
    requires forall i :: 0 <= i < |prefix| ==> !IsDigit(prefix[i])
    requires forall i :: 0 <= i < |suffix| ==> !IsDigit(suffix[i])
    ensures NormalizePrice(TextPrice(prefix + ShowNat(n) + suffix)) == n
  {
    var shown := ShowNat(n);
    DigitsAppend(prefix + shown, suffix);
    DigitsAppend(prefix, shown);
    DigitsOfNonDigits(prefix);
    DigitsOfNonDigits(suffix);
    DigitsOfDigits(shown);
    assert Digits(prefix + shown + suffix) == shown;
    DecimalValueOfShowNat(n);
  }

  /** Only the digits of a price string matter: separators and currency
      signs are ignored. */
  lemma NormalizeReadsDigitsOnly(s: string)
    ensures NormalizePrice(TextPrice(s)) == NormalizePrice(TextPrice(Digits(s)))
  {
    DigitsOfDigits(Digits(s));
  }

  /** The options whose `switch` case sorts; every other option falls through
      to `default` and keeps the input order. */
  predicate Reorders(opt: SortOption) {
    opt.PriceDesc? || opt.PriceAsc? || opt.BedsDesc? || opt.BathsDesc? || opt.SqftDesc?
  }

  /** The comparator the hook passes to `Array.prototype.sort`: negative
      places `a` first. */
  function Compare(opt: SortOption, a: Listing, b: Listing): int {
    match opt
    case PriceDesc => NormalizePrice(b.price) - NormalizePrice(a.price)
    case PriceAsc => NormalizePrice(a.price) - NormalizePrice(b.price)
    case BedsDesc => b.beds - a.beds
    case BathsDesc => b.baths - a.baths
    case SqftDesc => b.sqft - a.sqft
    case _ => 0
  }

  /** The key each comparator orders by, ascending. */
  function Rank(opt: SortOption, a: Listing): int {
    match opt
    case PriceDesc => -NormalizePrice(a.price)
    case PriceAsc => NormalizePrice(a.price)
    case BedsDesc => -a.beds
    case BathsDesc => -a.baths
    case SqftDesc => -a.sqft
    case _ => 0
  }

  /** Each comparator is the difference of ranks, so it is a total preorder. */
  lemma CompareIsRankDifference(opt: SortOption, a: Listing, b: Listing)
    ensures Compare(opt, a, b) == Rank(opt, a) - Rank(opt, b)
  {
  }

  ghost predicate Sorted(opt: SortOption, s: seq<Listing>) {
    forall i, j :: 0 <= i < j < |s| ==> Rank(opt, s[i]) <= Rank(opt, s[j])
  }

  /** Prepending an element ranked no later than everything keeps a
      sequence sorted. */
  lemma SortedCons(opt: SortOption, a: Listing, s: seq<Listing>)
    requires Sorted(opt, s)
    requires forall k :: 0 <= k < |s| ==> Rank(opt, a) <= Rank(opt, s[k])
    ensures Sorted(opt, [a] + s)
  {
    var t := [a] + s;
    forall i, j | 0 <= i < j < |t|
      ensures Rank(opt, t[i]) <= Rank(opt, t[j])
    {
      assert t[j] == s[j - 1];
      if i > 0 {
        assert t[i] == s[i - 1];
      }
    }
  }

  /** Insert `x` before the first element the comparator does not place
      ahead of it, so that `x` stays ahead of every element it ties with. */
  function Insert(opt: SortOption, x: Listing, ys: seq<Listing>): (r: seq<Listing>)
    ensures multiset(r) == multiset(ys) + multiset{x}
  {
    if ys == [] then [x]
    else if Compare(opt, x, ys[0]) <= 0 then [x] + ys
    else
      assert ys == [ys[0]] + ys[1..];
      [ys[0]] + Insert(opt, x, ys[1..])
  }

  /** Inserting into a sorted sequence keeps it sorted. */
  lemma {:induction false} InsertSorted(opt: SortOption, x: Listing, ys: seq<Listing>)
    requires Sorted(opt, ys)
    ensures Sorted(opt, Insert(opt, x, ys))
  {
    if ys == [] {
    } else if Compare(opt, x, ys[0]) <= 0 {
      CompareIsRankDifference(opt, x, ys[0]);
      SortedCons(opt, x, ys);
    } else {
      var rest := Insert(opt, x, ys[1..]);
      InsertSorted(opt, x, ys[1..]);
      assert ys == [ys[0]] + ys[1..];
      InsertBound(opt, x, ys, rest);
      SortedCons(opt, ys[0], rest);
    }
  }

  /** What `Insert` puts after the head `ys[0]` all ranks no earlier than it. */
  lemma InsertBound(opt: SortOption, x: Listing, ys: seq<Listing>, rest: seq<Listing>)
    requires ys != [] && Sorted(opt, ys)
    requires Compare(opt, x, ys[0]) > 0
    requires multiset(rest) == multiset(ys[1..]) + multiset{x}
    ensures forall k :: 0 <= k < |rest| ==> Rank(opt, ys[0]) <= Rank(opt, rest[k])
  {
    CompareIsRankDifference(opt, x, ys[0]);
    forall k | 0 <= k < |rest|
      ensures Rank(opt, ys[0]) <= Rank(opt, rest[k])
    {
      assert rest[k] in multiset(rest);
      if rest[k] != x {
        assert rest[k] in multiset(ys[1..]);
        var j :| 0 <= j < |ys[1..]| && ys[1..][j] == rest[k];
        assert ys[j + 1] == rest[k];
      }
    }
  }

  /** A stable insertion sort by the option's comparator. */
  function SortBy(opt: SortOption, xs: seq<Listing>): (r: seq<Listing>)
    ensures Sorted(opt, r)
    ensures multiset(r) == multiset(xs)
  {
    if xs == [] then []
    else
      assert xs == [xs[0]] + xs[1..];
      InsertSorted(opt, xs[0], SortBy(opt, xs[1..]));
      Insert(opt, xs[0], SortBy(opt, xs[1..]))
  }

  /** `sortedProperties`: the listings reordered for the chosen option. */
  function SortProperties(opt: SortOption, xs: seq<Listing>): (r: seq<Listing>)
    ensures multiset(r) == multiset(xs) && |r| == |xs|
    ensures !Reorders(opt) ==> r == xs
    ensures opt == PriceDesc ==>
      forall i, j :: 0 <= i < j < |r| ==> NormalizePrice(r[i].price) >= NormalizePrice(r[j].price)
    ensures opt == PriceAsc ==>
      forall i, j :: 0 <= i < j < |r| ==> NormalizePrice(r[i].price) <= NormalizePrice(r[j].price)
    ensures opt == BedsDesc ==> forall i, j :: 0 <= i < j < |r| ==> r[i].beds >= r[j].beds
    ensures opt == BathsDesc ==> forall i, j :: 0 <= i < j < |r| ==> r[i].baths >= r[j].baths
    ensures opt == SqftDesc ==> forall i, j :: 0 <= i < j < |r| ==> r[i].sqft >= r[j].sqft
  {
    if Reorders(opt) then
      var r := SortBy(opt, xs);
      assert |r| == |multiset(r)| == |multiset(xs)| == |xs|;
      r
    else xs
  }

  /** The listings whose rank under `opt` is `k`, in their order in `xs`. */
  function Ties(opt: SortOption, k: int, xs: seq<Listing>): seq<Listing> {
    if xs == [] then []
    else (if Rank(opt, xs[0]) == k then [xs[0]] else []) + Ties(opt, k, xs[1..])
  }

  lemma TiesCons(opt: SortOption, k: int, a: Listing, s: seq<Listing>)
    ensures Ties(opt, k, [a] + s) == (if Rank(opt, a) == k then [a] else []) + Ties(opt, k, s)
  {
    assert ([a] + s)[0] == a;
    assert ([a] + s)[1..] == s;
  }

  /** Inserting `x` puts it ahead of every element it ties with, and moves
      no other element relative to its ties. */
  lemma {:induction false} InsertStable(opt: SortOption, x: Listing, ys: seq<Listing>, k: int)
    ensures Ties(opt, k, Insert(opt, x, ys)) == (if Rank(opt, x) == k then [x] else []) + Ties(opt, k, ys)
  {
    if ys == [] {
      TiesCons(opt, k, x, []);
    } else if Compare(opt, x, ys[0]) <= 0 {
      TiesCons(opt, k, x, ys);
    } else {
      var mine := if Rank(opt, x) == k then [x] else [];
      var rest := Insert(opt, x, ys[1..]);
      assert Insert(opt, x, ys) == [ys[0]] + rest;
      InsertStable(opt, x, ys[1..], k);
      // ys[0] ranks strictly before x, so at most one of them ranks k.
      CompareIsRankDifference(opt, x, ys[0]);
      TiesCons(opt, k, ys[0], rest);
      TiesCons(opt, k, ys[0], ys[1..]);
      assert ys == [ys[0]] + ys[1..];
      SwapEmpty(if Rank(opt, ys[0]) == k then [ys[0]] else [], mine, Ties(opt, k, ys[1..]));
    }
  }

  /** Two prefixes of which one is empty may be swapped. */
  lemma SwapEmpty<T>(a: seq<T>, b: seq<T>, c: seq<T>)
    requires a == [] || b == []
    ensures a + (b + c) == b + (a + c)
  {
    if a == [] {
      assert a + (b + c) == b + c == b + (a + c);
    } else {
      assert a + (b + c) == a + c == b + (a + c);
    }
  }

  /** The sort is stable: among listings with equal keys the input order is
      kept (ECMAScript 2019 requires `Array.prototype.sort` to be stable). */
  lemma {:induction false} SortByStable(opt: SortOption, xs: seq<Listing>, k: int)
    ensures Ties(opt, k, SortBy(opt, xs)) == Ties(opt, k, xs)
  {
    if xs != [] {
      var sortedTail := SortBy(opt, xs[1..]);
      SortByStable(opt, xs[1..], k);
      InsertStable(opt, xs[0], sortedTail, k);
      assert xs == [xs[0]] + xs[1..];
      TiesCons(opt, k, xs[0], xs[1..]);
    }
  }

  /** Whatever the option, listings with equal sort keys appear in the
      result in the order they had in the input. */
  lemma SortPropertiesStable(opt: SortOption, xs: seq<Listing>, k: int)
    ensures Ties(opt, k, SortProperties(opt, xs)) == Ties(opt, k, xs)
  {
    if Reorders(opt) {
      SortByStable(opt, xs, k);
    }
  }
}

=== FILE: seqs.dfy ===
/**
  Sequence helpers: `Array.prototype.filter`, the subsequence relation it
  satisfies, and duplicate-free sequences (the iteration order of a JS `Set`).
 */
module Seqs {

  /** `xs.filter(keep)`. */
  function Filter<T(==,!new)>(keep: T -> bool, xs: seq<T>): (r: seq<T>)
    ensures |r| <= |xs|
    ensures forall i :: 0 <= i < |r| ==> r[i] in xs && keep(r[i])
    ensures forall i :: 0 <= i < |xs| && keep(xs[i]) ==> xs[i] in r
    ensures forall x :: multiset(r)[x] == if keep(x) then multiset(xs)[x] else 0
  {
    if xs == [] then []
    else
      assert xs == [xs[0]] + xs[1..];
      (if keep(xs[0]) then [xs[0]] else []) + Filter(keep, xs[1..])
  }

  /** `a` is `b` with some elements deleted, the rest kept in order. */
  predicate IsSubsequence<T(==)>(a: seq<T>, b: seq<T>) {
    if a == [] then true
    else if b == [] then false
    else if a[0] == b[0] then IsSubsequence(a[1..], b[1..])
    else IsSubsequence(a, b[1..])
  }

  lemma {:induction false} EmptyIsSubsequence<T>(b: seq<T>)
    ensures IsSubsequence([], b)
  {
  }

  /** Skipping the first element of `b` keeps any subsequence of the rest. */
  lemma {:induction false} SubsequenceOfTail<T>(a: seq<T>, b: seq<T>)
    requires b != [] && IsSubsequence(a, b[1..])
    ensures IsSubsequence(a, b)
    decreases |a| + |b|
  {
    if a != [] && a[0] == b[0] {
      // Greedy matching takes b[0]; a[1..] is a subsequence of b[1..] too.
      SubsequenceDropFirst(a, b[1..]);
    }
  }

  /** Dropping the first element of a subsequence keeps it a subsequence. */
  lemma {:induction false} SubsequenceDropFirst<T>(a: seq<T>, b: seq<T>)
    requires a != [] && IsSubsequence(a, b)
    ensures IsSubsequence(a[1..], b)
    decreases |a| + |b|
  {
    assert b != [];
    if a[0] == b[0] {
      SubsequenceOfTail(a[1..], b);
    } else {
      SubsequenceDropFirst(a, b[1..]);
      SubsequenceOfTail(a[1..], b);
    }
  }

  /** A filter result keeps the surviving elements in their original order. */
  lemma {:induction false} FilterIsSubsequence<T(!new)>(keep: T -> bool, xs: seq<T>)
    ensures IsSubsequence(Filter(keep, xs), xs)
  {
    if xs != [] {
      FilterIsSubsequence(keep, xs[1..]);
      var rest := Filter(keep, xs[1..]);
      if keep(xs[0]) {
        assert Filter(keep, xs) == [xs[0]] + rest;
      } else {
        assert Filter(keep, xs) == rest;
        SubsequenceOfTail(rest, xs);
      }
    }
  }

  predicate NoDuplicates<T(==)>(xs: seq<T>) {
    forall i, j :: 0 <= i < j < |xs| ==> xs[i] != xs[j]
  }

  /** `xs` without the element `x`. */
  function RemoveValue<T(==)>(xs: seq<T>, x: T): (r: seq<T>)
    ensures forall i :: 0 <= i < |r| ==> r[i] in xs && r[i] != x
    ensures forall i :: 0 <= i < |xs| && xs[i] != x ==> xs[i] in r
    ensures NoDuplicates(xs) ==> NoDuplicates(r)
    ensures IsSubsequence(r, xs)
  {
    if xs == [] then []
    else if xs[0] == x then
      assert IsSubsequence(RemoveValue(xs[1..], x), xs) by {
        SubsequenceOfTail(RemoveValue(xs[1..], x), xs);
      }
      RemoveValue(xs[1..], x)
    else
      [xs[0]] + RemoveValue(xs[1..], x)
  }
}

=== FILE: sign_in.dfy ===
/**
  The sign-in dialog (src/components/SignInModal.tsx): two fields validated
  once touched, a submit that calls the auth service only when both pass and
  sorts its errors into three kinds, and a forgot-password action that first
  checks the email. The auth calls are abstract outcomes.
 */
module SignIn {
  import opened Strings
  import opened Js
  import opened Validation

  datatype Field = Email | Password

  datatype Form = Form(email: string, password: string)

  datatype State = State(form: Form, errors: map<Field, string>, touched: set<Field>, loading: bool)

  const Initial := State(Form("", ""), map[], {}, false)

  const InvalidLoginMessage := "Invalid email or password"

  function ValueOf(form: Form, f: Field): string {
    match f
    case Email => form.email
    case Password => form.password
  }

  /** What each field demands: an address the email pattern matches, and a
      password that is not blank (there is no length rule here). */
  ghost predicate Acceptable(f: Field, v: string) {
    match f
    case Email => MatchesEmailRegex(v)
    case Password => !IsBlank(v)
  }

  datatype Checked = Checked(valid: bool, errors: map<Field, string>)

  /** `validateField(name, value)`: an untouched field passes and records
      nothing; a touched one passes exactly when its value is acceptable,
      and otherwise records "... is required" for a blank value or "Invalid
      email format" for an address the pattern rejects. */
  function ValidateField(f: Field, v: string, touched: set<Field>, errors: map<Field, string>): (r: Checked)
    ensures f !in touched ==> r == Checked(true, errors)
    ensures f in touched ==> (r.valid <==> Acceptable(f, v))
    ensures r.valid ==> r.errors == errors
    ensures !r.valid ==> f in r.errors && r.errors == errors[f := r.errors[f]]
    ensures !r.valid && IsBlank(v) ==> r.errors[f] == (if f == Email then "Email is required" else "Password is required")
    ensures !r.valid && !IsBlank(v) ==> f == Email && r.errors[f] == "Invalid email format"
  {
    RequiredEmailMatchesRegex(v);
    if f !in touched then Checked(true, errors)
    else match f
      case Email =>
        if IsBlank(v) then Checked(false, errors[Email := "Email is required"])
        else if !IsValidEmail(v) then Checked(false, errors[Email := "Invalid email format"])
        else Checked(true, errors)
      case Password =>
        if IsBlank(v) then Checked(false, errors[Password := "Password is required"])
        else Checked(true, errors)
  }

  /** `handleInputChange`: the value is stored, and typing into a touched
      field removes that field's error and no other. */
  function InputChange(s: State, f: Field, typed: string): (r: State)
    ensures ValueOf(r.form, f) == typed
    ensures forall g :: g != f ==> ValueOf(r.form, g) == ValueOf(s.form, g)
    ensures f in s.touched ==> f !in r.errors
    ensures f !in s.touched ==> r.errors == s.errors
    ensures forall g :: g != f ==> (g in r.errors <==> g in s.errors) && (g in r.errors ==> r.errors[g] == s.errors[g])
    ensures r.touched == s.touched && r.loading == s.loading
  {
    var form := match f {
      case Email => s.form.(email := typed)
      case Password => s.form.(password := typed)
    };
    var errors := if f in s.touched then s.errors - {f} else s.errors;
    s.(form := form, errors := errors)
  }

  /** `handleBlur`: the field is marked touched and validated against the
      marks of the render it belongs to. */
  function Blur(s: State, f: Field): (r: State)
    ensures r.touched == s.touched + {f}
    ensures f !in s.touched ==> r.errors == s.errors
    ensures f in s.touched && Acceptable(f, ValueOf(s.form, f)) ==> r.errors == s.errors
    ensures f in s.touched && !Acceptable(f, ValueOf(s.form, f)) ==> f in r.errors
  {
    s.(touched := s.touched + {f}, errors := ValidateField(f, ValueOf(s.form, f), s.touched, s.errors).errors)
  }

  datatype Credentials = Credentials(email: string, password: string)

  datatype Started = Started(state: State, request: Option<Credentials>)

  /** `handleSubmit` up to the `signIn` call: both fields are marked
      touched, both are validated (the second even when the first fails)
      against the marks of the render the handler belongs to, and only when
      both pass is the loading flag set and sign-in requested. */
  function StartSubmit(s: State): (r: Started)
    ensures r.state.touched == {Email, Password}
    ensures r.request.Some? <==>
      (Email in s.touched ==> Acceptable(Email, s.form.email)) && (Password in s.touched ==> Acceptable(Password, s.form.password))
    ensures r.request.Some? ==> r.request.value == Credentials(s.form.email, s.form.password) && r.state.loading
    ensures r.request.None? ==> r.state.loading == s.loading
    ensures (Email in s.touched && !Acceptable(Email, s.form.email)) ==> Email in r.state.errors
    ensures (Password in s.touched && !Acceptable(Password, s.form.password)) ==> Password in r.state.errors
    ensures r.state.form == s.form
  {
    var e := ValidateField(Email, s.form.email, s.touched, s.errors);
    var p := ValidateField(Password, s.form.password, s.touched, e.errors);
    var touched := {Email, Password};
    if !e.valid || !p.valid then Started(s.(touched := touched, errors := p.errors), None)
    else Started(s.(touched := touched, loading := true), Some(Credentials(s.form.email, s.form.password)))
  }

  /** Once both fields are touched, sign-in is requested exactly for an
      address the pattern accepts and a non-blank password. */
  lemma SubmitRequestsIffValid(s: State)
    requires Email in s.touched && Password in s.touched
    ensures StartSubmit(s).request.Some? <==> MatchesEmailRegex(s.form.email) && !IsBlank(s.form.password)
  {
  }

  /** What the awaited `signIn` gave: success, an error it returned, or a
      value it threw. */
  datatype SignInOutcome = SignedIn | Refused(message: string) | Threw(thrown: Thrown)

  /** What the user is told: welcomed (and the dialog closes), asked to
      confirm the email (with a resend button), nothing beyond the form, or
      an error toast. */
  datatype Notice = Welcome | ConfirmEmailPrompt | Silent | ErrorToast(description: string)

  predicate NeedsConfirmation(message: string) {
    Contains(ToLower(message), "email not confirmed") || Contains(ToLower(message), "email confirmation")
  }

  predicate BadCredentials(message: string) {
    Contains(ToLower(message), "invalid login") || Contains(ToLower(message), "invalid credentials")
  }

  /** `handleSubmit` after `signIn` settled: the loading flag is cleared; an
      unconfirmed email prompts for confirmation; bad credentials replace
      every error with the one password error; any other error, returned
      or thrown, ends in a toast ("Invalid credentials" for a thrown value
      that is not an `Error`). */
  function CompleteSubmit(s: State, outcome: SignInOutcome): (r: (State, Notice))
    ensures !r.0.loading && r.0.form == s.form && r.0.touched == s.touched
    ensures r.1 == Welcome <==> outcome.SignedIn?
    ensures r.0.errors != s.errors ==> r.0.errors == map[Password := InvalidLoginMessage]
    ensures outcome.Refused? && NeedsConfirmation(outcome.message) ==> r == (s.(loading := false), ConfirmEmailPrompt)
    ensures (outcome.Refused? && !NeedsConfirmation(outcome.message) && BadCredentials(outcome.message)) ==>
      r == (s.(loading := false, errors := map[Password := InvalidLoginMessage]), Silent)
    ensures (outcome.Refused? && !NeedsConfirmation(outcome.message) && !BadCredentials(outcome.message)) ==>
      r == (s.(loading := false), ErrorToast(outcome.message))
    ensures outcome.Threw? ==> r == (s.(loading := false), ErrorToast(MessageOf(outcome.thrown, "Invalid credentials")))
  {
    match outcome
    case SignedIn => (s.(loading := false), Welcome)
    case Refused(message) =>
      if NeedsConfirmation(message) then (s.(loading := false), ConfirmEmailPrompt)
      else if BadCredentials(message) then (s.(loading := false, errors := map[Password := InvalidLoginMessage]), Silent)
      else (s.(loading := false), ErrorToast(message))
    case Threw(thrown) => (s.(loading := false), ErrorToast(MessageOf(thrown, "Invalid credentials")))
  }

  /** `handleForgotPassword`: an empty or invalid email marks the email
      touched and records why, and no reset is requested; a valid one is
      sent for a reset and the form is left alone. */
  function ForgotPassword(s: State): (r: (State, Option<string>))
    ensures r.1.Some? <==> MatchesEmailRegex(s.form.email)
    ensures r.1.Some? ==> r == (s, Some(s.form.email))
    ensures r.1.None? ==> r.0 == s.(touched := s.touched + {Email}, errors := r.0.errors)
    ensures r.1.None? ==> r.0.errors == s.errors[Email := if s.form.email == "" then "Email is required" else "Invalid email format"]
  {
    IsValidEmailMatchesRegex(s.form.email);
    var email := s.form.email;
    if email == "" || !IsValidEmail(email) then
      (s.(touched := s.touched + {Email},
          errors := s.errors[Email := if email == "" then "Email is required" else "Invalid email format"]), None)
    else (s, Some(email))
  }

  /** The two email checks word a blank address differently: white space
      alone is "required" to the field check but "Invalid email format" to
      the forgot-password check. */
  lemma BlankEmailWordedDifferently(s: State)
    requires s.form.email == " " && Email in s.touched
    ensures ValidateField(Email, s.form.email, s.touched, s.errors).errors[Email] == "Email is required"
    ensures ForgotPassword(s).0.errors[Email] == "Invalid email format"
  {
    assert IsBlank(s.form.email);
  }
}

=== FILE: strings.dfy ===
/**
  String helpers shared by the whole model: the character classes JavaScript's
  regular expressions and `String.prototype` methods use, substring search,
  ASCII lower-casing and decimal rendering/reading of naturals.
 */
module Strings {

  /** `[0-9]`, the complement of the regex class `\D`. */
  predicate IsDigit(c: char) {
    '0' <= c <= '9'
  }

  predicate AllDigits(s: string) {
    forall i :: 0 <= i < |s| ==> IsDigit(s[i])
  }

  /** ECMAScript WhiteSpace and LineTerminator code points: the class `\s`
      and the characters `String.prototype.trim` removes. */
  predicate IsSpace(c: char) {
    var n := c as int;
    n == 0x09 || n == 0x0A || n == 0x0B || n == 0x0C || n == 0x0D || n == 0x20
    || n == 0xA0 || n == 0x1680 || (0x2000 <= n <= 0x200A) || n == 0x2028
    || n == 0x2029 || n == 0x202F || n == 0x205F || n == 0x3000 || n == 0xFEFF
  }

  /** `!s.trim()`: the string is empty once surrounding white space is removed. */
  predicate IsBlank(s: string) {
    forall i :: 0 <= i < |s| ==> IsSpace(s[i])
  }

  /** `s.replace(/\D/g, "")`: the decimal digits of `s`, in order. */
  function Digits(s: string): (d: string)
    ensures |d| <= |s|
    ensures AllDigits(d)
    ensures forall c :: c in d <==> c in s && IsDigit(c)
  {
    if s == [] then [] else (if IsDigit(s[0]) then [s[0]] else []) + Digits(s[1..])
  }

  lemma {:induction false} DigitsAppend(a: string, b: string)
    ensures Digits(a + b) == Digits(a) + Digits(b)
  {
    if a == [] {
      assert a + b == b;
    } else {
      assert (a + b)[0] == a[0];
      assert (a + b)[1..] == a[1..] + b;
      DigitsAppend(a[1..], b);
    }
  }

  /** A string of digits is its own digit string. */
  lemma {:induction false} DigitsOfDigits(s: string)
    requires AllDigits(s)
    ensures Digits(s) == s
  {
    if s != [] {
      DigitsOfDigits(s[1..]);
    }
  }

  /** A string without digits contributes nothing. */
  lemma {:induction false} DigitsOfNonDigits(s: string)
    requires forall i :: 0 <= i < |s| ==> !IsDigit(s[i])
    ensures Digits(s) == []
  {
    if s != [] {
      DigitsOfNonDigits(s[1..]);
    }
  }

  /** White space holds no digits. */
  lemma BlankHasNoDigits(s: string)
    requires IsBlank(s)
    ensures Digits(s) == []
  {
    DigitsOfNonDigits(s);
  }

  /** `sub` occurs in `s` starting at index `i`. */
  predicate OccursAt(s: string, sub: string, i: int) {
    0 <= i <= |s| - |sub| && s[i..i + |sub|] == sub
  }

  /** `s.includes(sub)`. */
  predicate Contains(s: string, sub: string) {
    exists i :: 0 <= i <= |s| - |sub| && OccursAt(s, sub, i)
  }

  /** Lower-casing of one character, restricted to the ASCII letters. */
  function LowerChar(c: char): char {
    if 'A' <= c <= 'Z' then (c as int + 32) as char else c
  }

  /** `s.toLowerCase()` on ASCII letters; every other character is kept. */
  function ToLower(s: string): (r: string)
    ensures |r| == |s|
    ensures forall i :: 0 <= i < |s| ==> r[i] == LowerChar(s[i])
  {
    seq(|s|, i requires 0 <= i < |s| => LowerChar(s[i]))
  }

  /** Lower-casing twice is lower-casing once. */
  lemma ToLowerIdempotent(s: string)
    ensures ToLower(ToLower(s)) == ToLower(s)
  {
    assert forall i :: 0 <= i < |s| ==> LowerChar(LowerChar(s[i])) == LowerChar(s[i]);
  }

  function DigitValue(c: char): nat
    requires IsDigit(c)
  {
    c as int - '0' as int
  }

  function DigitChar(d: nat): (c: char)
    requires d < 10
    ensures IsDigit(c) && DigitValue(c) == d
  {
    ('0' as int + d) as char
  }

  /** The value of a string of decimal digits, most significant first. */
  function DecimalValue(s: string): nat
    requires AllDigits(s)
  {
    if s == [] then 0 else DecimalValue(s[..|s| - 1]) * 10 + DigitValue(s[|s| - 1])
  }

  /** The shortest decimal rendering of `n` (`String(n)` for a natural). */
  function ShowNat(n: nat): (s: string)
    ensures |s| > 0 && AllDigits(s)
  {
    if n < 10 then [DigitChar(n)] else ShowNat(n / 10) + [DigitChar(n % 10)]
  }

  /** `String(n)` for an integer. */
  function ShowInt(n: int): (s: string)
    ensures |s| > 0
  {
    if n < 0 then "-" + ShowNat(-n) else ShowNat(n)
  }

  lemma {:induction false} DecimalValueOfShowNat(n: nat)
    ensures DecimalValue(ShowNat(n)) == n
  {
    if n >= 10 {
      var s := ShowNat(n);
      assert s[..|s| - 1] == ShowNat(n / 10);
      DecimalValueOfShowNat(n / 10);
    }
  }
}

=== FILE: token_handler.dfy ===
/**
  The token proxy (api/crmls/token.ts): a POST exchanges the server's client
  credentials for an access token with the MLS authorisation server and
  passes the token, or the upstream failure, back to the browser. The
  upstream call is the parameter `upstream`; it is consulted only once the
  request got past the method and credential checks.
 */
module TokenHandler {
  import opened Js
  import opened Crmls
  import opened Http

  const TimeoutMessage := "Request to CRMLS API timed out after 30 seconds"

  /** The reply to a request with HTTP method `verb`. */
  function HandleToken(verb: Method, env: Env, upstream: Fetched<Nullable<TokenResponse>>): (r: Reply)
    ensures verb == Options ==> r == Reply(200, NoBody)
    ensures verb != Options && verb != Post ==> r == MethodNotAllowed
    ensures verb == Post && !HasCredentials(env) ==> r == MissingCredentials
    ensures verb == Post && HasCredentials(env) && upstream.Threw? ==>
      r == ExceptionReply(upstream.error, TimeoutMessage)
  {
    if verb == Options then Reply(200, NoBody)
    else if verb != Post then MethodNotAllowed
    else if !HasCredentials(env) then MissingCredentials
    else match upstream
      case Threw(e) => ExceptionReply(e, TimeoutMessage)
      case Responded(response) => Relay(response)
  }

  /** The reply once the upstream responded. */
  function Relay(response: Response<Nullable<TokenResponse>>): (r: Reply)
    ensures !IsOk(response.status) ==>
      r.status == response.status && r.body.ErrorReply? && r.body.err.rawError == Some(response.text)
    ensures IsOk(response.status) && response.json.Unparseable? ==>
      r == Reply(500, ErrorReply(ErrorJson("Invalid response format",
                   "Failed to parse token response from CRMLS API", response.text)))
    ensures (IsOk(response.status) && response.json.Parsed? && response.json.value.NonNull?
             && !TruthyStr(response.json.value.value.accessToken)) ==>
      r == Reply(500, ErrorReply(ErrorJson("Invalid token response",
                   "No access token received from CRMLS API", response.text)))
    ensures (IsOk(response.status) && response.json.Parsed? && response.json.value.NonNull?
             && TruthyStr(response.json.value.value.accessToken)) ==>
      r == Reply(200, TokenReply(response.json.value.value))
  {
    if !IsOk(response.status) then
      var err := match response.errorJson {
        case Parsed(e) => e.(rawError := Some(response.text))
        case Unparseable(_) =>
          ErrorJson("Authentication failed", StatusLine(response.status, response.statusText), response.text)
      };
      Reply(response.status, ErrorReply(err))
    else match response.json
      case Unparseable(_) =>
        Reply(500, ErrorReply(ErrorJson("Invalid response format",
          "Failed to parse token response from CRMLS API", response.text)))
      case Parsed(Null) => ExceptionReply(NullRead("access_token"), TimeoutMessage)
      case Parsed(NonNull(token)) =>
        if !TruthyStr(token.accessToken) then
          Reply(500, ErrorReply(ErrorJson("Invalid token response",
            "No access token received from CRMLS API", response.text)))
        else Reply(200, TokenReply(token))
  }

  /** The proxy succeeds exactly for a POST with both credentials set whose
      upstream call answered ok with JSON carrying a non-empty access token;
      the token data is then relayed unchanged. */
  lemma TokenSuccessIff(verb: Method, env: Env, upstream: Fetched<Nullable<TokenResponse>>)
    ensures HandleToken(verb, env, upstream).status == 200 && verb != Options <==>
      && verb == Post && HasCredentials(env) && upstream.Responded?
      && IsOk(upstream.response.status)
      && upstream.response.json.Parsed? && upstream.response.json.value.NonNull?
      && TruthyStr(upstream.response.json.value.value.accessToken)
    ensures HandleToken(verb, env, upstream).body.TokenReply? ==>
      HandleToken(verb, env, upstream).body.token == upstream.response.json.value.value
  {
  }

  /** Requests turned away by method or configuration get the same reply
      whatever the upstream would have answered: no upstream call matters. */
  lemma RejectedBeforeUpstream(verb: Method, env: Env,
                               u1: Fetched<Nullable<TokenResponse>>, u2: Fetched<Nullable<TokenResponse>>)
    requires verb != Post || !HasCredentials(env)
    ensures HandleToken(verb, env, u1) == HandleToken(verb, env, u2)
  {
  }

  /** An upstream failure keeps its status, and the browser receives the
      upstream's body text as `raw_error` whether or not it was JSON. */
  lemma UpstreamFailurePassesThrough(env: Env, response: Response<Nullable<TokenResponse>>)
    requires HasCredentials(env) && !IsOk(response.status)
    ensures var r := HandleToken(Post, env, Responded(response));
      && r.status == response.status
      && r.body.ErrorReply?
      && r.body.err.rawError == Some(response.text)
  {
  }

  /** Every status the proxy sends is 200, 405, 408, 500, 503 or the
      upstream's own non-ok status. */
  lemma TokenStatuses(verb: Method, env: Env, upstream: Fetched<Nullable<TokenResponse>>)
    ensures var s := HandleToken(verb, env, upstream).status;
      || s in {200, 405, 408, 500, 503}
      || (upstream.Responded? && !IsOk(upstream.response.status) && s == upstream.response.status)
  {
  }
}

=== FILE: validation.dfy ===
/**
  Contact-field validation shared by the sign-up and sign-in forms
  (src/lib/utils/validation.ts): the email pattern, the ten-digit phone check
  and the as-you-type phone formatter "(XXX) XXX-XXXX".
 */
module Validation {
  import opened Strings

  // ----- Email -----------------------------------------------------------

  /** The regex class `[^\s@]`. */
  predicate EmailChar(c: char) {
    !IsSpace(c) && c != '@'
  }

  /** `s` splits as the regex `^[^\s@]+@[^\s@]+\.[^\s@]+$` would match it:
      the `@` at `at`, the literal `.` at `dot`, three non-empty runs of
      `[^\s@]` around them. */
  ghost predicate EmailSplit(s: string, at: int, dot: int) {
    && 0 < at && at + 1 < dot && dot < |s| - 1
    && s[at] == '@' && s[dot] == '.'
    && forall k :: 0 <= k < |s| && k != at ==> EmailChar(s[k])
  }

  /** The language of `/^[^\s@]+@[^\s@]+\.[^\s@]+$/`. */
  ghost predicate MatchesEmailRegex(s: string) {
    exists at, dot :: EmailSplit(s, at, dot)
  }

  /** Index of the first occurrence of `c`, or -1. */
  function IndexOf(s: string, c: char): (i: int)
    ensures -1 <= i < |s|
    ensures i >= 0 ==> s[i] == c && c !in s[..i]
    ensures i == -1 ==> c !in s
  {
    if s == [] then -1
    else if s[0] == c then 0
    else
      var j := IndexOf(s[1..], c);
      if j == -1 then -1 else j + 1
  }

  predicate NoSpace(s: string) {
    forall i :: 0 <= i < |s| ==> !IsSpace(s[i])
  }

  /** `isValidEmail`: no white space anywhere, exactly one `@` with a non-empty
      local part before it, and a domain after it holding a `.` that is
      neither its first nor its last character. */
  predicate IsValidEmail(s: string) {
    var at := IndexOf(s, '@');
    && NoSpace(s)
    && at > 0
    && '@' !in s[at + 1..]
    && at + 2 < |s|
    && '.' in s[at + 2..|s| - 1]
  }

  /** The scan above accepts exactly the strings the regular expression
      matches. */
  lemma IsValidEmailMatchesRegex(s: string)
    ensures IsValidEmail(s) <==> MatchesEmailRegex(s)
  {
    if IsValidEmail(s) {
      var at := IndexOf(s, '@');
      var j :| 0 <= j < |s[at + 2..|s| - 1]| && s[at + 2..|s| - 1][j] == '.';
      var dot := at + 2 + j;
      assert s[dot] == '.';
      forall k | 0 <= k < |s| && k != at
        ensures EmailChar(s[k])
      {
        if k < at {
          assert s[k] == s[..at][k];
        } else {
          assert s[k] == s[at + 1..][k - at - 1];
        }
      }
      assert EmailSplit(s, at, dot);
    }
    if MatchesEmailRegex(s) {
      var at, dot :| EmailSplit(s, at, dot);
      assert !EmailChar(s[at]);
      assert s[..at + 1][at] == '@';
      assert IndexOf(s, '@') == at;
      assert NoSpace(s) by {
        forall k | 0 <= k < |s|
          ensures !IsSpace(s[k])
        {
          if k != at {
            assert EmailChar(s[k]);
          }
        }
      }
      assert '@' !in s[at + 1..] by {
        forall k | at + 1 <= k < |s|
          ensures s[k] != '@'
        {
          assert EmailChar(s[k]);
        }
      }
      assert s[at + 2..|s| - 1][dot - at - 2] == '.';
    }
  }

  /** A blank input never matches the pattern, so a form's "required" test
      is subsumed by it. */
  lemma BlankIsNoEmail(s: string)
    requires IsBlank(s)
    ensures !MatchesEmailRegex(s)
  {
    forall at, dot | 0 < at < |s|
      ensures !EmailSplit(s, at, dot)
    {
      assert IsSpace(s[0]);
    }
  }

  /** A form's two email checks, "required" then the pattern, together
      accept exactly the pattern's language. */
  lemma RequiredEmailMatchesRegex(s: string)
    ensures (!IsBlank(s) && IsValidEmail(s)) <==> MatchesEmailRegex(s)
  {
    IsValidEmailMatchesRegex(s);
    if IsBlank(s) {
      BlankIsNoEmail(s);
    }
  }

  // ----- Phone -----------------------------------------------------------

  /** `isValidPhone`: the input holds exactly ten decimal digits, whatever
      else it holds. */
  predicate IsValidPhone(s: string) {
    |Digits(s)| == 10
  }

  /** `phone.slice(0, 10)`. */
  function FirstTen(d: string): (t: string)
    ensures |t| == if |d| < 10 then |d| else 10
    ensures t <= d
  {
    if |d| <= 10 then d else d[..10]
  }

  /** The layout step of `formatPhoneNumber` on at most ten digits. */
  function Layout(t: string): string
    requires |t| <= 10
  {
    if |t| == 0 then ""
    else if |t| <= 3 then t
    else if |t| <= 6 then "(" + t[..3] + ") " + t[3..]
    else "(" + t[..3] + ") " + t[3..6] + "-" + t[6..]
  }

  /** Punctuation `Layout` inserts. */
  predicate Punctuation(c: char) {
    c == '(' || c == ')' || c == ' ' || c == '-'
  }

  /** Every character is a digit or layout punctuation. */
  predicate PhoneChars(s: string) {
    forall i :: 0 <= i < |s| ==> IsDigit(s[i]) || Punctuation(s[i])
  }

  lemma PhoneCharsAppend(a: string, b: string)
    requires PhoneChars(a) && PhoneChars(b)
    ensures PhoneChars(a + b)
  {
    forall i | 0 <= i < |a + b|
      ensures IsDigit((a + b)[i]) || Punctuation((a + b)[i])
    {
      if i < |a| {
        assert (a + b)[i] == a[i];
      } else {
        assert (a + b)[i] == b[i - |a|];
      }
    }
  }

  /** Appending punctuation adds no digit. */
  lemma DigitsAppendPunctuation(x: string, p: string)
    requires forall i :: 0 <= i < |p| ==> Punctuation(p[i])
    ensures Digits(x + p) == Digits(x)
  {
    DigitsAppend(x, p);
    DigitsOfNonDigits(p);
  }

  /** Appending digits appends them to the digit string. */
  lemma DigitsAppendDigits(x: string, t: string)
    requires AllDigits(t)
    ensures Digits(x + t) == Digits(x) + t
  {
    DigitsAppend(x, t);
    DigitsOfDigits(t);
  }

  /** "(" + three digits + ") " has those three digits. */
  lemma AreaCodeDigits(a: string)
    requires |a| == 3 && AllDigits(a)
    ensures Digits("(" + a + ") ") == a
  {
    DigitsAppendDigits("(", a);
    assert Digits("(") == [];
    DigitsAppendPunctuation("(" + a, ") ");
  }

  /** The layout only inserts punctuation: the digits of the result are the
      digits laid out. */
  lemma LayoutKeepsDigits(t: string)
    requires |t| <= 10 && AllDigits(t)
    ensures Digits(Layout(t)) == t
  {
    if |t| <= 3 {
      DigitsOfDigits(t);
    } else {
      var a := t[..3];
      var y := "(" + a + ") ";
      AreaCodeDigits(a);
      if |t| <= 6 {
        assert Layout(t) == y + t[3..];
        DigitsAppendDigits(y, t[3..]);
        assert a + t[3..] == t;
      } else {
        var b := t[3..6];
        var w := y + b + "-";
        DigitsAppendDigits(y, b);
        DigitsAppendPunctuation(y + b, "-");
        assert Layout(t) == w + t[6..];
        DigitsAppendDigits(w, t[6..]);
        assert a + b + t[6..] == t;
      }
    }
  }

  /** The layout consists of digits and punctuation only. */
  lemma LayoutChars(t: string)
    requires |t| <= 10 && AllDigits(t)
    ensures PhoneChars(Layout(t))
  {
    if 4 <= |t| {
      PhoneCharsAppend("(", t[..3]);
      PhoneCharsAppend("(" + t[..3], ") ");
      if |t| <= 6 {
        PhoneCharsAppend("(" + t[..3] + ") ", t[3..]);
      } else {
        PhoneCharsAppend("(" + t[..3] + ") ", t[3..6]);
        PhoneCharsAppend("(" + t[..3] + ") " + t[3..6], "-");
        PhoneCharsAppend("(" + t[..3] + ") " + t[3..6] + "-", t[6..]);
      }
    }
  }

  /** `formatPhoneNumber`: keeps the first ten digits of the input, in order,
      drops every other character, and lays the digits out as the user types. */
  function FormatPhoneNumber(value: string): (r: string)
    ensures Digits(r) == FirstTen(Digits(value))
    ensures PhoneChars(r)
    ensures |r| <= 14
  {
    var t := FirstTen(Digits(value));
    LayoutKeepsDigits(t);
    LayoutChars(t);
    Layout(t)
  }

  /** How the result looks, by how many digits the input holds; digits past
      the tenth are dropped. */
  lemma FormatPhoneNumberShape(value: string)
    ensures var d := Digits(value); var r := FormatPhoneNumber(value);
      && (|d| == 0 ==> r == "")
      && (1 <= |d| <= 3 ==> r == d)
      && (4 <= |d| <= 6 ==> r == "(" + d[..3] + ") " + d[3..])
      && (7 <= |d| <= 10 ==> r == "(" + d[..3] + ") " + d[3..6] + "-" + d[6..])
      && (10 < |d| ==> r == "(" + d[..3] + ") " + d[3..6] + "-" + d[6..10])
  {
    var d := Digits(value);
    if 10 < |d| {
      var t := FirstTen(d);
      assert t[..3] == d[..3];
      assert t[3..6] == d[3..6];
      assert t[6..] == d[6..10];
    }
  }

  /** Formatting an already formatted value changes nothing. */
  lemma FormatPhoneNumberIdempotent(value: string)
    ensures FormatPhoneNumber(FormatPhoneNumber(value)) == FormatPhoneNumber(value)
  {
    var t := FirstTen(Digits(value));
    assert Digits(FormatPhoneNumber(value)) == t;
    assert FirstTen(t) == t;
  }

  /** A formatted value passes the phone check exactly when the raw input
      held at least ten digits. */
  lemma FormattedPhoneValid(value: string)
    ensures IsValidPhone(FormatPhoneNumber(value)) <==> |Digits(value)| >= 10
  {
  }

  /** A valid phone number formats to the full fourteen-character pattern,
      keeping all ten of its digits. */
  lemma ValidPhoneFormatsFully(value: string)
    requires IsValidPhone(value)
    ensures |FormatPhoneNumber(value)| == 14
    ensures Digits(FormatPhoneNumber(value)) == Digits(value)
  {
  }
}
